=== FILE: README.md ===
# Event dashboard: ordered tables, image slots and form logic

This project models the core of an event-management dashboard. The dashboard is a Next.js
application that keeps its data in Supabase tables and a storage bucket:
- partners (sponsors), grouped by tier;
- team members;
- speakers;
- FAQ entries;
- four image slots on the about page.

The model covers:

- **The server actions on the tables.** Reads filter out soft-deleted rows (the about images
  have no such filter). `getPartners`, `getTeamMembers`, `fetchSpeakers` and `fetchAboutImages`
  sort; `getPartnersByType` does not. `createTeamMember` computes the next `order_index` itself.
  `createSpeaker` takes the index its caller computed. `createPartner` leaves it to the column
  default. Partial updates write only the defined fields. Deletes of partners, team members and
  speakers are soft: they set `deleted_at`.
  - The centrepiece is `updatePartnerOrder`, the partner re-sequencer. It moves one partner
    to a new index. It shifts the live siblings of the same type in the range between the old
    and new index by one, one write at a time, and writes the moved row last. The first failing
    write ends the run, and the earlier writes stay.
- **The about-image slots.** Uploading into a slot replaces the image already there: its
  stored file and its row are removed first. The storage key is derived from the image URL. The
  file-name slug, the upload guards, and the about page's four cards are modelled too.
- **The dashboard's validators and view helpers.**
  - The image-file check.
  - The sign-up password rules and error toasts.
  - The required-field guards of the FAQ page and the add-speaker dialog.
  - The partner list's grouping into tier sections.
  - The changed-fields payload of the partner edit dialog.
  - The `@`-stripping social links of the team and speaker tables.
  - Text truncation.

Each table is a class holding a `seq` of rows, and its actions are methods that state the new
table through a function of the old one. Row ids and timestamps come from the store, so they are
parameters. So is every store call's failure, which is a parameter naming the message the store
reports. The bucket is a set of keys. Component state, such as a form's fields, is a class whose
handlers are methods.

Modules, one per source file plus shared helpers:
- `Partners`, `Teams`, `Speakers`, `AboutImages`: the data actions.
- `ImageFiles`: `validateImageFile`, which two actions share as identical copies.
- `PartnerList`, `EditPartner`, `Signup`, `FaqPage`, `AddSpeaker`, `AboutPage`: the components and pages.
- `SocialLinks`, `TeamMemberList`, `SpeakerList`: the link cells of the tables.
- `Text`: JavaScript string behaviour (`trim`, `startsWith`, `includes`, `replace`,
  `split().pop()`, `toLowerCase`).
- `Ordering`: the sort behind `.order(...)`.
- `Store`: the shared error fallbacks.
- `Wrappers`: `Option` and `Result`.

## Model

| member | source | states |
|---|---|---|
| `Partners.LiveRows` | data/actions/partnersAction.ts:20-36 | a row reaches `getPartners` exactly when it is in the table and not soft-deleted |
| `Partners.TypeLeIsTotalPreorder` | data/actions/partnersAction.ts:27 | ordering by `type` compares every pair of rows and is transitive, so the sort is well defined |
| `Partners.GetPartnersSpec` | data/actions/partnersAction.ts:20-36 | `getPartners` returns every live row exactly once (same multiset), sorted by type, and nothing else |
| `Partners.LiveOfType` | data/actions/partnersAction.ts:38-57 | `getPartnersByType` returns exactly the live rows of the requested type |
| `Partners.InsertedRow` | data/actions/partnersAction.ts:65-70 | the inserted partner carries the given title, type, logo and link, is live, and takes the column's default index |
| `Partners.PartnerStore.CreatePartner` | data/actions/partnersAction.ts:59-99 | success appends exactly the new row; an insert error returns the prefixed message and leaves the table unchanged |
| `Partners.ApplyPatch` | data/actions/partnersAction.ts:106-112 | an update never touches id, `created_at`, `deleted_at` or `order_index` |
| `Partners.PatchProperties` | data/actions/partnersAction.ts:106-112 | only the defined fields are written: an empty patch changes nothing, each defined field takes the patch's value and each undefined field keeps its own, and patching twice is patching once |
| `Partners.FindById` | data/actions/partnersAction.ts:114-119 | the single-row read finds nothing exactly when no row has the id, and otherwise a row of the table with that id |
| `Partners.PartnerStore.UpdatePartner` | data/actions/partnersAction.ts:101-132 | a store error gives the prefixed message with the table unchanged. So do a missing row and an empty patch, both as the single-row error. Otherwise only the rows with the id are patched, and the patched row is returned |
| `Partners.SoftDelete` | data/actions/partnersAction.ts:137-140 | the delete sets `deleted_at` on the rows with the id and changes nothing else |
| `Partners.SoftDeleteHides` | data/actions/partnersAction.ts:134-152 | after a delete, neither query returns that id, and both return every other live row as before |
| `Partners.PartnerStore.DeletePartner` | data/actions/partnersAction.ts:134-152 | an error gives the prefixed message with the table unchanged; success is the soft delete |
| `Partners.Affected` | data/actions/partnersAction.ts:223-231 | the range query returns no more items than the table has rows, and only ids of the table |
| `Partners.AffectedExactly` | data/actions/partnersAction.ts:220-252 | with unique ids the snapshot has no repeated id. A row is in it exactly when it is live, of the type, and strictly past the old index up to the new one (either direction). Each item carries its row's pre-move index |
| `Partners.ShiftAll` | data/actions/partnersAction.ts:234-241 | the sibling loop changes only `order_index`, and only of rows whose id is in the snapshot |
| `Partners.ShiftAllSucceeds` | data/actions/partnersAction.ts:234-241 | when no write fails, each snapshot row ends at its snapshot index plus the shift (−1 forward, +1 backward) |
| `Partners.ShiftAllFailure` | data/actions/partnersAction.ts:234-241 | the loop reports an error exactly when some write fails; the table then holds exactly the writes before the first failing one |
| `Partners.ShiftAllStops` | data/actions/partnersAction.ts:238-240 | once a write has failed, the remaining items change nothing |
| `Partners.PartnerStore.ShiftSiblings` | data/actions/partnersAction.ts:234-241 | the loop, one write at a time, leaves the table and error the run specification gives |
| `Partners.ReorderSameIndex` | data/actions/partnersAction.ts:213-217 | moving a partner to its current index writes nothing and reports no error |
| `Partners.ReorderMissing` | data/actions/partnersAction.ts:202-209 | a missing partner fails with the action's prefix before any write |
| `Partners.ReorderQueryError` | data/actions/partnersAction.ts:220-262 | a failed lookup or range query ends a real move with an error |
| `Partners.ReorderSucceedsIff` | data/actions/partnersAction.ts:196-282 | a real move succeeds exactly when neither query and none of its writes fails |
| `Partners.ShiftedSiblings` | data/actions/partnersAction.ts:220-262 | the sibling writes alone shift every in-range sibling by one towards the old index and leave the moved row alone |
| `Partners.ReorderSuccess` | data/actions/partnersAction.ts:220-271 | after a successful move the moved row is at the target. In-range live siblings of the type are shifted by one, other types, soft-deleted rows and out-of-range rows keep their index, and no other field changes |
| `Partners.ReorderFailure` | data/actions/partnersAction.ts:196-282 | a failed move carries the action's prefix and never writes the moved row. The table is either untouched or holds exactly the sibling writes before the first failure |
| `Partners.ReorderIdempotent` | data/actions/partnersAction.ts:196-282 | repeating a successful move writes nothing more and succeeds |
| `Partners.MoveKeepsContiguous` | data/actions/partnersAction.ts:211-271 | the index map of a move keeps a group's indices distinct and inside its contiguous range |
| `Partners.ReorderKeepsContiguous` | data/actions/partnersAction.ts:211-271 | if the live rows of a type held distinct indices filling `lo .. lo+n-1`, they still do after a successful move to a target inside that range |
| `Partners.PartnerStore.UpdatePartnerOrder` | data/actions/partnersAction.ts:196-282 | the method, store call by store call, ends in the table and error of the reorder specification and keeps ids unique |
| `Store.Describe` | data/actions/teamsAction.ts:94-96 | the error text is the store's message, or "Bilinmeyen hata" when that is empty, so it is never empty |
| `Teams.LiveMembers` | data/actions/teamsAction.ts:19-23 | a member reaches the query exactly when it is in the table and not soft-deleted |
| `Teams.OrdersAreTotalPreorders` | data/actions/teamsAction.ts:19-45 | ascending order with missing indices last and descending order with missing indices first are both total preorders |
| `Teams.GetTeamMembersSpec` | data/actions/teamsAction.ts:16-32 | `getTeamMembers` returns every live member once, by ascending `order_index` with missing ones last; a failed query gives the fixed message |
| `Teams.TopOfDescending` | data/actions/teamsAction.ts:40-45 | the descending `limit(1)` query is empty exactly when no member is live, and otherwise returns a live member at or above every live member |
| `Teams.NextTeamIndexEmpty` | data/actions/teamsAction.ts:56-59 | with no live member the new member gets index 1 |
| `Teams.NextTeamIndexAboveAll` | data/actions/teamsAction.ts:40-59 | when every live member has an index, the new index lies above all of them and is 1 or one more than some live member's index |
| `Teams.NextTeamIndexWithMissing` | data/actions/teamsAction.ts:40-59 | a live member without an index sorts first descending, so the new index is 1 |
| `Teams.InsertedMember` | data/actions/teamsAction.ts:62-70 | the inserted row carries the input's fields, with absent optional ones stored as null, and the computed index, and is live |
| `Teams.TeamStore.CreateTeamMember` | data/actions/teamsAction.ts:34-99 | an index-query error returns its message and inserts nothing; an insert error returns the prefixed message; success appends the row with the next index |
| `Teams.ApplyTeamPatch` | data/actions/teamsAction.ts:106-122 | an update never touches id, `created_at` or `deleted_at` |
| `Teams.TeamPatchProperties` | data/actions/teamsAction.ts:106-122 | each field is the patch's value when defined and the stored one otherwise; an empty patch changes nothing; patching is idempotent |
| `Teams.FindMember` | data/actions/teamsAction.ts:124-129 | the single-row read finds nothing exactly when no row has the id |
| `Teams.TeamStore.UpdateTeamMember` | data/actions/teamsAction.ts:101-142 | errors give the prefixed message with the table unchanged. So do a missing row and an empty patch, both as the single-row error. Otherwise only the rows with the id are patched |
| `Teams.SoftDelete` | data/actions/teamsAction.ts:147-150 | the delete sets `deleted_at` on the rows with the id and changes nothing else |
| `Teams.SoftDeleteHides` | data/actions/teamsAction.ts:144-162 | a deleted member keeps its row but leaves the live query; other members are unaffected |
| `Teams.TeamStore.DeleteTeamMember` | data/actions/teamsAction.ts:144-162 | an error gives the prefixed message with the table unchanged; success is the soft delete |
| `Speakers.LiveSpeakers` | data/actions/speakersAction.ts:20-24 | a speaker reaches the query exactly when it is in the table and not soft-deleted |
| `Speakers.IndexLeIsTotalPreorder` | data/actions/speakersAction.ts:23 | ordering by `order_index` is a total preorder |
| `Speakers.FetchSpeakersSpec` | data/actions/speakersAction.ts:18-32 | `fetchSpeakers` returns every live speaker once, by ascending index, or the store's error |
| `Speakers.MaxOrder` | data/actions/speakersAction.ts:158-163 | the largest index, which the descending `limit(1)` query reads, is held by some row and exceeded by none |
| `Speakers.NextSpeakerIndexRepeatsZero` | data/actions/speakersAction.ts:165-170 | as written, a largest index of 0 gives next index 0, an index a row already holds |
| `Speakers.FirstTwoSpeakersCollide` | data/actions/speakersAction.ts:165-170 | as written, the first two speakers added to an empty table both get index 0 |
| `Speakers.IntendedNextSpeakerIndexFresh` | data/actions/speakersAction.ts:167-169 | the intended index (largest plus one, 0 for an empty table) lies above every row's index and grows by one per addition |
| `Speakers.NextSpeakerIndexAgrees` | data/actions/speakersAction.ts:165-170 | the written and intended rules agree whenever the largest index is not 0 |
| `Speakers.GetMaxOrderIndex` | data/actions/speakersAction.ts:156-176 | any query error other than the no-row case gives 0 with the error. Otherwise the index lies above every row's index, soft-deleted rows included, and is 0 for an empty table (with the corrected index rule; see Findings) |
| `Speakers.InsertedSpeaker` | data/actions/speakersAction.ts:45-56 | the inserted speaker keeps name, title, photo and the given index; an empty or absent twitter or linkedin is stored as null |
| `Speakers.SpeakerStore.CreateSpeaker` | data/actions/speakersAction.ts:34-68 | an error is returned as is with the table unchanged; success appends exactly the inserted row |
| `Speakers.ApplySpeakerForm` | data/actions/speakersAction.ts:83-92 | name and title are always overwritten; twitter and linkedin are overwritten, empty becoming null; the photo changes only for a non-empty new one; id, index and timestamps are kept |
| `Speakers.SpeakerFormIdempotent` | data/actions/speakersAction.ts:83-92 | submitting the same form twice is submitting it once; without a new photo the stored one stays |
| `Speakers.FindSpeaker` | data/actions/speakersAction.ts:94-99 | the single-row read finds nothing exactly when no row has the id |
| `Speakers.SpeakerStore.UpdateSpeaker` | data/actions/speakersAction.ts:70-109 | errors and a missing row leave the table unchanged; otherwise only the rows with the id are rewritten |
| `Speakers.SoftDelete` | data/actions/speakersAction.ts:114-117 | the delete sets `deleted_at` on the rows with the id and changes nothing else |
| `Speakers.SoftDeleteHides` | data/actions/speakersAction.ts:111-127 | a deleted speaker leaves `fetchSpeakers` but still counts for the next index |
| `Speakers.SpeakerStore.DeleteSpeaker` | data/actions/speakersAction.ts:111-127 | an error is returned with the table unchanged; success is the soft delete |
| `ImageFiles.ValidateImageFile` | data/actions/speakersAction.ts:179-187 | a file is accepted exactly when it is at most 5 MiB and its type starts with `image/`. The size message wins for an oversized file, and the type message is given otherwise. The copy in aboutaction.ts is identical |
| `ImageFiles.SizeBoundary` | data/actions/speakersAction.ts:180-182 | exactly 5 MiB passes; one byte more gets the size message whatever the type |
| `AboutImages.IndexLeIsTotalPreorder` | data/actions/aboutaction.ts:18 | ordering by `order_index` is a total preorder |
| `AboutImages.FetchAboutImagesSpec` | data/actions/aboutaction.ts:13-26 | the fetch returns every row once (no deleted filter), by ascending slot, or the store's error |
| `AboutImages.SlotRows` | data/actions/aboutaction.ts:35-39 | the slot query returns exactly the rows whose index is the slot |
| `AboutImages.ExistingAt` | data/actions/aboutaction.ts:35-46 | the single-row check yields a row of the slot when it yields one, and under one-per-slot yields none only for an empty slot |
| `AboutImages.StorageKey` | data/actions/aboutaction.ts:47-48 | the derived key always starts with `about/` |
| `AboutImages.Slug` | data/actions/aboutaction.ts:54-56 | the slug contains no whitespace; how each character is handled is stated by `AboutImages.SlugSteps` |
| `AboutImages.SlugSteps` | data/actions/aboutaction.ts:54-56 | an empty name gives an empty slug; a character other than whitespace is lower-cased and kept in place; each maximal whitespace run becomes one `-` |
| `AboutImages.StorageKeyRoundTrip` | data/actions/aboutaction.ts:47-67 | for a file name without `/`, the key derived from the public URL is the key uploaded to |
| `AboutImages.SlugKeepsSlash` | data/actions/aboutaction.ts:54-56 | a `/` in the image name survives into the slug |
| `AboutImages.SlashInNameOrphansFile` | data/actions/aboutaction.ts:47-57 | as written, the name "a/b" gives key `about/1-a/b.png`, but the key derived from its URL is `about/b.png`, a different file |
| `AboutImages.IntendedKeyRoundTrip` | data/actions/aboutaction.ts:53-57 | with `/` flattened to `-`, the derived key is the uploaded key for every input, and the name is unchanged when it holds no `/` |
| `AboutImages.Flatten` | data/actions/aboutaction.ts:53-57 | flattening keeps the length, leaves no `/`, and changes no other character |
| `AboutImages.RemoveId` | data/actions/aboutaction.ts:97-100 | the hard delete keeps exactly the rows with another id |
| `AboutImages.UploadCheckFails` | data/actions/aboutaction.ts:35-43 | a failed check query ends the upload before any change |
| `AboutImages.UploadShape` | data/actions/aboutaction.ts:45-77 | past the check, a key already taken or a failed upload stops with the slot cleared and its message. A failed insert stops with the slot cleared and the new file stored but no row, an orphaned file. Otherwise the upload succeeds with the file stored and the new row appended |
| `AboutImages.ClearSlotSpec` | data/actions/aboutaction.ts:45-50 | clearing a one-per-slot table removes exactly the slot's row and, unless the ignored remove failed, its file |
| `AboutImages.UploadReplacesSlot` | data/actions/aboutaction.ts:28-85 | a successful upload leaves exactly the new row in its slot and keeps every other slot's rows. It stores the new key and removes the old file unless that remove failed (with the corrected file name, `/` flattened to `-`; see Findings) |
| `AboutImages.UploadKeepsOnePerSlot` | data/actions/aboutaction.ts:45-75 | every outcome of an upload keeps at most one image per slot, provided the ignored delete of the replaced row goes through |
| `AboutImages.FailedDeleteDoublesSlot` | data/actions/aboutaction.ts:45-50 | when that ignored delete fails and the rest succeeds, the call reports no error and the slot holds two images |
| `AboutImages.UploadGuard` | data/actions/aboutaction.ts:126-128 | the guard passes exactly when a file is given and the name is not blank after trimming; otherwise the fixed message |
| `AboutImages.DeleteOrder` | data/actions/aboutaction.ts:87-110 | the file goes first: a storage error changes nothing, a row error leaves the row without its file, success removes both |
| `AboutImages.DeleteRemovesUploadedFile` | data/actions/aboutaction.ts:87-102 | deleting an image stored under a `/`-free file name removes the very file uploaded |
| `AboutImages.DeleteRemovesUploadedRow` | data/actions/aboutaction.ts:87-102 | deleting a row an upload inserted removes that row and the file that upload stored (with the corrected file name, `/` flattened to `-`; see Findings) |
| `AboutImages.AboutStore.UploadAboutImage` | data/actions/aboutaction.ts:28-85 | the method, store call by store call, ends in the state and error of the upload specification (with the corrected file name, `/` flattened to `-`; see Findings) |
| `AboutImages.AboutStore.HandleImageUpload` | data/actions/aboutaction.ts:122-136 | a missing file or blank name, then an invalid file, is returned with nothing changed; otherwise the upload runs (with the corrected file name, `/` flattened to `-`; see Findings) |
| `AboutImages.AboutStore.DeleteAboutImage` | data/actions/aboutaction.ts:87-110 | the method ends in the state and error of the delete specification |
| `AboutPage.DecimalString` | app/dashboard/about/page.tsx:46 | a number prints as at least one digit, a single digit as itself |
| `AboutPage.FindAtIndex` | app/dashboard/about/page.tsx:37 | `find` returns an image of the list in the slot when it returns one |
| `AboutPage.FindAtIndexFirst` | app/dashboard/about/page.tsx:37 | `find` returns nothing exactly when no image is in the slot, and otherwise the first one there |
| `AboutPage.RenderError` | app/dashboard/about/page.tsx:14-27 | a fetch error renders only the error banner |
| `AboutPage.RenderGrid` | app/dashboard/about/page.tsx:36-74 | exactly four cards for slots 0 to 3. A card with an image shows it under its name with delete and edit; an empty card shows "Görsel " and i+1 with the upload form for slot i |
| `AboutPage.ShownImagesInRange` | app/dashboard/about/page.tsx:36-37 | only images of the table with slot 0 to 3 are shown, each on its own slot's card |
| `AboutPage.FetchedSlotShows` | app/dashboard/about/page.tsx:36-37 | the only image of a slot from 0 to 3 is what the page shows there, whatever the fetch order |
| `AboutPage.PageAfterUpload` | app/dashboard/about/page.tsx:36-69 | after a successful upload into slot 0 to 3, the page rendered from the fetch shows the new image on that card (with the corrected file name, `/` flattened to `-`; see Findings) |
| `PartnerList.LabelFallback` | components/partners/PartnerList.tsx:23-44 | the label helper returns, for each of the four types, its own label (not the raw string), and the colour helper a non-empty colour. For a type that names a property every JavaScript object inherits (`constructor`, `toString`, `__proto__`, ...) both return that inherited value. For any other type they return the raw string and "" |
| `PartnerList.Bucket` | components/partners/PartnerList.tsx:52-58 | a type's bucket holds exactly the partners of that type |
| `PartnerList.BucketConcat` | components/partners/PartnerList.tsx:55-56 | bucketing keeps input order: the bucket of a concatenation is the concatenation of the buckets |
| `PartnerList.GroupByType` | components/partners/PartnerList.tsx:52-58 | the reduce throws exactly when some partner's type names an inherited object property, because that value has no `push`. Otherwise it yields a key exactly for each type present, holding that type's partners in input order |
| `PartnerList.FourTypesNeverThrow` | components/partners/PartnerList.tsx:52-58 | a list whose partners all carry one of the four types never makes the grouping throw |
| `PartnerList.ShownTypes` | components/partners/PartnerList.tsx:70-73 | a listed type is shown exactly when it has a partner |
| `PartnerList.SectionsFromSpec` | components/partners/PartnerList.tsx:70-81 | section i is for the i-th listed type that has partners, with that type's bucket, its size as badge count, and its label and colour |
| `PartnerList.RenderPartnerList` | components/partners/PartnerList.tsx:46-81 | the list renders nothing exactly when the grouping throws. Otherwise it shows one section per non-empty tier, in the order main, diamond, gold, silver, each with its bucket and count |
| `PartnerList.PartnerShownIff` | components/partners/PartnerList.tsx:52-73 | once the grouping has gone through, a partner is shown exactly when its type is one of the four, and only in its own type's section; partners of any other type are never shown |
| `PartnerList.ShownTypesOrderFree` | components/partners/PartnerList.tsx:61-73 | which sections appear does not depend on the input order |
| `EditPartner.ToastText` | components/partners/EditPartnerDialog.tsx:129 | the error toast is the error's message, or the fixed text when that is empty |
| `EditPartner.UpdateDataFields` | components/partners/EditPartnerDialog.tsx:112-116 | title and type are sent only when changed; link only when changed and not cleared; logo only for a non-empty uploaded URL; nothing changed sends an empty payload |
| `EditPartner.FormOf` | components/partners/EditPartnerDialog.tsx:50-57 | the form shows the partner's title and type, its link or "" when missing, and a preview exactly when it has a logo |
| `EditPartner.ClearedLinkIsKept` | components/partners/EditPartnerDialog.tsx:114 | as written, clearing a stored link sends nothing, so the saved partner keeps the link and the form shows it again |
| `EditPartner.UpdateDataRoundTrip` | components/partners/EditPartnerDialog.tsx:111-119 | away from a cleared link, the saved partner reopens with exactly the submitted title, link and type |
| `EditPartner.IntendedUpdateDataRoundTrip` | components/partners/EditPartnerDialog.tsx:114 | sending a cleared link as null, the saved partner reopens with exactly the submitted fields for every input, and agrees with the written payload elsewhere |
| `EditPartner.IntendedUpdateDataEmptyIff` | components/partners/EditPartnerDialog.tsx:111-116 | the payload is empty exactly when the title, link and type equal the stored ones and no new logo URL came back |
| `EditPartner.EditPartnerDialog.constructor` | components/partners/EditPartnerDialog.tsx:42-46 | the dialog starts with empty fields, type silver, no file and no preview |
| `EditPartner.EditPartnerDialog.Load` | components/partners/EditPartnerDialog.tsx:50-57 | a partner's fields are loaded into the form and the chosen file is kept |
| `EditPartner.EditPartnerDialog.ResetForm` | components/partners/EditPartnerDialog.tsx:73-81 | the form returns to the partner's fields with no chosen file; without a partner nothing changes |
| `EditPartner.EditPartnerDialog.Submit` | components/partners/EditPartnerDialog.tsx:88-133 | no partner does nothing. A blank title is refused, and an upload error stops, both before any call. Otherwise only the changed fields are sent; a save with nothing changed sends an empty payload and fails like a missing row. Success resets the form, and a failure shows the prefixed store message (with the corrected payload: a cleared link is sent as null; see Findings) |
| `Signup.FieldError` | app/auth/signup/page.tsx:33-51 | a field shows nothing exactly when no issue is on it, and otherwise the message of an issue on it |
| `Signup.PasswordIssuesPaths` | app/auth/signup/page.tsx:36-45 | every password rule reports on the password field |
| `Signup.PasswordAcceptedIff` | app/auth/signup/page.tsx:36-45 | a password is accepted exactly when it has 8 or more characters, an A-Z, an a-z and a 0-9 |
| `Signup.PasswordFieldError` | app/auth/signup/page.tsx:36-45 | the password field shows nothing exactly for a strong password; otherwise the first failing rule in the order length, capital letter, small letter, digit |
| `Signup.ConfirmFieldError` | app/auth/signup/page.tsx:48-51 | a mismatching confirmation is reported on `confirmPassword`, whether or not the password passes, and that field shows nothing else |
| `Signup.FormAcceptedIff` | app/auth/signup/page.tsx:33-51 | the form is accepted exactly when the e-mail passes, the password is strong and the confirmation matches |
| `Signup.ErrorToastDistinguishes` | app/auth/signup/page.tsx:82-86 | a message containing "already registered" gives the fixed toast; any other gives "Registration failed: " followed by the message itself |
| `Signup.SubmitSpec` | app/auth/signup/page.tsx:68-90 | registration is attempted only for accepted values and succeeds exactly when the call does |
| `FaqPage.TruncateSpec` | app/dashboard/faq/page.tsx:161-164 | a text that fits is shown whole. A longer one becomes its first `maxLength` characters and "...", `maxLength`+3 long. Either way the result starts with the first min(length, `maxLength`) characters |
| `FaqPage.TruncateUnchangedIff` | app/dashboard/faq/page.tsx:161-164 | a text comes back unchanged exactly when it fits, or is three characters too long and already ends in "..." at the cut |
| `FaqPage.UpdatedShown` | app/dashboard/faq/page.tsx:252 | the updated column shows `updated_at`, or `created_at` when that is missing or empty |
| `FaqPage.FieldsGuard` | app/dashboard/faq/page.tsx:79-82 | the guard passes exactly when both question and answer hold a non-whitespace character |
| `FaqPage.FaqPageState.LoadFaqs` | app/dashboard/faq/page.tsx:67-76 | a fetched list replaces the shown one; a fetch error keeps it and shows the error |
| `FaqPage.FaqPageState.OpenEdit` | app/dashboard/faq/page.tsx:138-143 | the entry is selected and its texts are loaded into the fields |
| `FaqPage.FaqPageState.OpenDelete` | app/dashboard/faq/page.tsx:145-148 | the entry is selected for the delete confirmation; the list and the fields are left as they were |
| `FaqPage.FaqPageState.HandleCreate` | app/dashboard/faq/page.tsx:78-97 | blank fields are refused with no call; an error is shown with the fields kept; success clears the fields and reloads |
| `FaqPage.FaqPageState.HandleUpdate` | app/dashboard/faq/page.tsx:99-119 | no selection does nothing; blank fields are refused with no call; success clears the selection and reloads, keeping the fields |
| `FaqPage.FaqPageState.HandleDelete` | app/dashboard/faq/page.tsx:121-136 | no selection does nothing; otherwise the selected entry's delete is sent, and success clears the selection and reloads |
| `AddSpeaker.SubmitErrors` | app/dashboard/speakers/add-speaker-dialog.tsx:92-102 | the name key is present exactly when the name is blank, the title key exactly when the title is, and the photo key exactly when no file is chosen |
| `AddSpeaker.OrUndefined` | app/dashboard/speakers/add-speaker-dialog.tsx:126-127 | an empty handle is sent as undefined, any other as itself |
| `AddSpeaker.NewSpeakerOfStored` | app/dashboard/speakers/add-speaker-dialog.tsx:119-129 | the created speaker has the form's name and title, the uploaded URL and the given index; empty handles end up null |
| `AddSpeaker.AddSpeakerDialog.constructor` | app/dashboard/speakers/add-speaker-dialog.tsx:43-55 | the dialog starts with every field empty and no file, preview or error |
| `AddSpeaker.AddSpeakerDialog.ResetForm` | app/dashboard/speakers/add-speaker-dialog.tsx:146-156 | every field, the file, the preview and the errors are cleared |
| `AddSpeaker.AddSpeakerDialog.HandlePhotoChange` | app/dashboard/speakers/add-speaker-dialog.tsx:62-81 | a rejected file is not kept and its message is shown; an accepted one becomes the file and preview and clears the photo error; other fields are untouched |
| `AddSpeaker.AddSpeakerDialog.HandleSubmit` | app/dashboard/speakers/add-speaker-dialog.tsx:83-144 | any required-field error is shown and blocks every call, with every other field, the file and the preview kept; otherwise the submit proceeds |
| `AddSpeaker.AddSpeakerDialog.SubmitFields` | app/dashboard/speakers/add-speaker-dialog.tsx:109-143 | a failed upload or missing URL stops before the index lookup and create. A failed create changes nothing. Success appends the speaker with the uploaded URL and the next index (with the corrected index rule; see Findings), then clears the form. Failures keep the photo preview |
| `SocialLinks.StripHandleIdempotent` | components/teams/TeamMemberList.tsx:89-97 | stripping removes every `@` wherever it stands and keeps every other character, so stripping twice is stripping once |
| `SocialLinks.StripHandleDeletesAts` | components/teams/TeamMemberList.tsx:89-97 | stripping works piece by piece, and one character is dropped exactly when it is `@`; so the shown handle is the input with its `@`s deleted, the rest in order |
| `SocialLinks.HandleCellSpec` | components/teams/TeamMemberList.tsx:86-101 | a missing or empty handle shows "-". Otherwise the text has exactly one `@`, in front, and the link is the service address followed by the rest of the text |
| `SocialLinks.HandleCellIgnoresAt` | components/speakers/SpeakerList.tsx:85-100 | however many `@` a handle carries, the cell is that of the stripped handle |
| `SocialLinks.AtOnlyHandle` | components/speakers/SpeakerList.tsx:85-100 | a handle made only of `@` still gets a link, to the bare service address, shown as "@" |
| `SocialLinks.ProfileCell` | components/teams/TeamMemberList.tsx:103-116 | LinkedIn shows "Profil" linking to the stored value unchanged, or "-" when missing or empty |
| `TeamMemberList.MemberCellsSpec` | components/teams/TeamMemberList.tsx:86-133 | Twitter links to twitter.com and Telegram to t.me for the stripped handle, each shown behind one `@`; each of the three cells shows "-" exactly when its value is missing or empty |
| `SpeakerList.SpeakerCellsSpec` | components/speakers/SpeakerList.tsx:85-115 | Twitter links to twitter.com for the stripped handle, shown behind one `@`. LinkedIn links to the stored value. Each cell shows "-" exactly when its value is missing or empty |
| `Text.BlankIffAllWhitespace` | app/dashboard/faq/page.tsx:79 | a string is blank after `trim()` exactly when every character of it is whitespace |
| `Text.HyphenateKeepsNonWhitespace` | data/actions/aboutaction.ts:56 | `replace(/\s+/g, "-")` copies a character other than whitespace and continues after it |
| `Text.HyphenateRun` | data/actions/aboutaction.ts:56 | a maximal whitespace run becomes one `-`, and the empty string stays empty |
| `Text.RemoveAllAppend` | components/teams/TeamMemberList.tsx:89-92 | `replace(/@/g, "")` of a concatenation is the concatenation of the two results |

## Left out

- Photo and logo uploads: `uploadTeamMemberPhoto`, `uploadSpeakerPhoto` and `uploadPartnerLogo` name files with
  `Math.random` and only call storage. Their outcome is a parameter of the handlers that use them.
- Store I/O: every store call's outcome is a parameter. The error is a message or its absence, row ids and
  `created_at` come from the store, and `Date.now()` and ISO timestamps are opaque strings passed in.
- `createPartner` does not set `order_index`, so the new row takes the column default, which is a parameter.
  PostgreSQL collation is taken as code-point order of the type string.
- The e-mail format check of the sign-up schema belongs to the validation library; its verdict is the `emailValid`
  parameter. The `signup` call itself is not part of this model; its error is a parameter.
- The FAQ actions are not part of this model. The page's calls are recorded as the requests they send, and their
  results are parameters.
- Only what the page and dialog handlers do to their data is modelled. Left out are `formatDate`, toasts'
  display, `console` output, `revalidatePath`, `router.push`, `setTimeout`, loading, submitting and
  dialog-open flags, and `useTransition`.
- Left out as UI plumbing: the `FileReader` preview (its data URL is a parameter), the edit dialog's
  `handleLogoChange` and the add-speaker dialog's `handleChange`.
- `AddSpeaker.AddSpeakerDialog.SubmitFields`: the "Beklenmeyen bir hata oluştu" toast for an exception thrown
  outside the actions' own error returns is not modelled, because the actions modelled here return their errors.
- Concurrency: two reorder requests may interleave in the source, since it takes no lock. The model runs one call at a time.
- Strings are sequences of characters. UTF-16 code units and surrogate pairs are not distinguished. `toLowerCase`
  is modelled for A-Z only. `trim` and `\s` use the ECMAScript WhiteSpace and LineTerminator code points: tab,
  line feed, vertical tab, form feed, carriage return, space, U+00A0, U+1680, U+2000 to U+200A, U+2028, U+2029,
  U+202F, U+205F, U+3000 and U+FEFF. The Unicode `Zs` category is taken as that fixed list.
- An update with an empty body: `updatePartner` and `updateTeamMember` send only the defined fields, so an empty
  patch sends `{}`. PostgREST answers an update without columns with no rows, and `.single()` then reports its
  no-row error. The model takes that behaviour of the REST layer, which is not in the repository, as given.
- Plain-object lookups in the partner list: an inherited property's value (a function, or `Object.prototype`)
  is represented only by its name, `PartnerList.JsValue.Inherited`. How React would render such a label is not
  modelled, since the page asks for labels of the four types only.
- Storage's refusal of an upload to a key already taken is modelled with the fixed message `DuplicateMessage`,
  standing for the bucket's own text.
- `Partners.ReorderFailure`: the range queries of `updatePartnerOrder` set no order, and `getPartners` orders
  by type only. The database may return those rows, or rows of the same type, in any order. The model takes
  them in table order, and ties of `.order(...)` keep table order (a stable sort). The writes that stay after
  a failure are therefore the prefix of the snapshot in table order. The source fixes no such order. The
  successful outcome does not depend on the order (`Partners.ReorderSuccess`).
- `Partners.GetPartnersSpec`: states the result for a successful query only; a failed one is the fixed message,
  by the definition of `GetPartners`.
- `AboutImages.UploadKeepsOnePerSlot`: holds only when the delete of the replaced row goes through. The source
  ignores that delete's error, and `AboutImages.FailedDeleteDoublesSlot` shows the slot then holds two images.

## Findings

The operations of the model use the corrected definitions. The definitions as written are kept beside
them, with the lemma that exhibits each discrepancy.

| source | as written | input that shows it | evidently intended | confidence | as-written member | corrected member |
|---|---|---|---|---|---|---|
| data/actions/speakersAction.ts:169 | the next index is the largest index plus one only when that index is truthy, else 0 | a table whose largest `order_index` is 0, e.g. after the first speaker was added with index 0: the next speaker also gets 0 | the largest index plus one, and 0 for an empty table, so indices never repeat | high, not executed | `Speakers.NextSpeakerIndexRepeatsZero` | `Speakers.IntendedNextSpeakerIndexFresh` |
| components/partners/EditPartnerDialog.tsx:114 | a cleared link is sent as `undefined`, which `updatePartner` drops | a partner with link "x" edited to an empty link: the saved partner still has "x" | a cleared link is sent as null, so the stored link is removed | high, not executed | `EditPartner.ClearedLinkIsKept` | `EditPartner.IntendedUpdateDataRoundTrip` |
| data/actions/aboutaction.ts:53-57 | the slug keeps a `/` of the image name, so the file lands in a sub-folder | name "a/b", file "x.png", stamp "1": uploaded to `about/1-a/b.png`, later removed as `about/b.png`, so the file is orphaned | the file name stays one path segment, so the key derived from the URL is the uploaded key | medium, not executed | `AboutImages.SlashInNameOrphansFile` | `AboutImages.IntendedKeyRoundTrip` |

=== FILE: about.dfy ===
/**
 * The about-page image slots: the `about_images` table and the `images`
 * storage bucket, with `fetchAboutImages`, the replace-at-slot upload
 * `uploadAboutImage`, its form entry point `handleImageUpload`, and
 * `deleteAboutImage`.
 *
 * A stored file is addressed by its key in the bucket. The upload writes to
 * `about/<stamp>-<slug>.<ext>`; the row keeps the public URL of that key,
 * and the actions that remove a file derive the key back from the URL as
 * `about/` followed by the URL's last path segment. The operations below
 * use the corrected file name, in which a `/` of the name becomes `-`, so
 * that the derived key is always the uploaded one; `NewFileName` is the
 * name as written.
 */
module AboutImages {
  import opened Wrappers
  import opened Text
  import opened Store
  import opened ImageFiles
  import Ordering

  datatype AboutImage = AboutImage(id: Id, name: string, imageUrl: string, orderIndex: int)

  /** The table's rows and the bucket's keys. */
  datatype AboutState = AboutState(images: seq<AboutImage>, files: set<string>)

  /** `id` is the table's primary key. */
  ghost predicate UniqueIds(images: seq<AboutImage>) {
    forall i, j :: 0 <= i < j < |images| ==> images[i].id != images[j].id
  }

  /** No two images occupy the same slot. */
  ghost predicate AtMostOnePerSlot(images: seq<AboutImage>) {
    forall i, j :: 0 <= i < j < |images| ==> images[i].orderIndex != images[j].orderIndex
  }

  // ---------------------------------------------------------------- queries

  predicate IndexLe(a: AboutImage, b: AboutImage) {
    a.orderIndex <= b.orderIndex
  }

  lemma IndexLeIsTotalPreorder()
    ensures Ordering.TotalPreorder(IndexLe)
  {
  }

  /** `fetchAboutImages`: every row (deletion is hard, so there is no filter) by ascending slot. */
  function FetchAboutImages(images: seq<AboutImage>, queryError: Option<string>): Result<seq<AboutImage>> {
    if queryError.Some? then Err(queryError.value)
    else Ok(Ordering.SortBy(images, IndexLe))
  }

  /** The fetch returns every row once, by ascending slot, or the store's error. */
  lemma FetchAboutImagesSpec(images: seq<AboutImage>, queryError: Option<string>)
    ensures queryError.Some? ==> FetchAboutImages(images, queryError) == Err(queryError.value)
    ensures queryError.None? ==> FetchAboutImages(images, queryError).Ok?
    ensures queryError.None? ==> multiset(FetchAboutImages(images, queryError).value) == multiset(images)
    ensures queryError.None? ==> Ordering.SortedBy(FetchAboutImages(images, queryError).value, IndexLe)
  {
    if queryError.None? {
      IndexLeIsTotalPreorder();
      Ordering.SortBySorted(images, IndexLe);
    }
  }

  /** The rows in one slot, in table order: `.eq("order_index", slot)`. */
  function SlotRows(images: seq<AboutImage>, slot: int): (r: seq<AboutImage>)
    ensures forall x :: x in r <==> x in images && x.orderIndex == slot
    ensures |r| <= |images|
  {
    if images == [] then []
    else (if images[0].orderIndex == slot then [images[0]] else []) + SlotRows(images[1..], slot)
  }

  /**
   * What the `.single()` check query yields: the slot's row when there is
   * exactly one; none for an empty slot and also for a slot holding several
   * rows, since both are the tolerated PGRST116 error.
   */
  function ExistingAt(images: seq<AboutImage>, slot: int): (r: Option<AboutImage>)
    ensures r.Some? ==> r.value in images && r.value.orderIndex == slot
    ensures r.None? && AtMostOnePerSlot(images) ==> forall x :: x in images ==> x.orderIndex != slot
  {
    var rows := SlotRows(images, slot);
    if |rows| == 1 then
      assert rows[0] in rows;
      Some(rows[0])
    else
      assert AtMostOnePerSlot(images) ==> |rows| == 0 by {
        if AtMostOnePerSlot(images) {
          SlotRowsDistinct(images, slot);
        }
      }
      None
  }

  /** Under the one-per-slot invariant a slot's rows number at most one. */
  lemma {:induction false} SlotRowsDistinct(images: seq<AboutImage>, slot: int)
    requires AtMostOnePerSlot(images)
    ensures |SlotRows(images, slot)| <= 1
  {
    if images != [] {
      SlotRowsDistinct(images[1..], slot);
      if images[0].orderIndex == slot {
        forall x | x in images[1..] ensures x.orderIndex != slot {
          var k :| 0 <= k < |images[1..]| && images[1..][k] == x;
          assert images[k + 1] == x;
        }
        SlotRowsEmpty(images[1..], slot);
      }
    }
  }

  /** A slot no row occupies yields no rows. */
  lemma {:induction false} SlotRowsEmpty(images: seq<AboutImage>, slot: int)
    requires forall x :: x in images ==> x.orderIndex != slot
    ensures SlotRows(images, slot) == []
  {
    if images != [] {
      assert images[0] in images;
      forall x | x in images[1..] ensures x.orderIndex != slot {
        assert x in images;
      }
      SlotRowsEmpty(images[1..], slot);
    }
  }

  // ------------------------------------------------------------ storage keys

  /** The public URL the bucket gives a key; `base` is the bucket's address, without a trailing `/`. */
  function PublicUrl(base: string, key: string): string {
    base + "/" + key
  }

  /** The key the remove calls derive from a stored URL: `about/` plus the text after its last `/`. */
  function StorageKey(imageUrl: string): (key: string)
    ensures StartsWith(key, "about/")
  {
    "about/" + AfterLast(imageUrl, '/')
  }

  /** The file-name slug: lower-cased, each whitespace run replaced by `-`. */
  function Slug(name: string): (r: string)
    ensures forall i :: 0 <= i < |r| ==> !IsWhitespace(r[i])
  {
    Hyphenate(ToLower(name))
  }

  /**
   * The slug, character by character: it is empty for an empty name, a
   * character other than whitespace is lower-cased and kept in place, and a
   * maximal whitespace run becomes one `-`.
   */
  lemma SlugSteps(c: char, w: string, s: string)
    requires !IsWhitespace(c)
    requires w != [] && AllWhitespace(w)
    requires s == [] || !IsWhitespace(s[0])
    ensures Slug([]) == []
    ensures Slug([c] + s) == [LowerChar(c)] + Slug(s)
    ensures Slug(w + s) == "-" + Slug(s)
  {
    ToLowerAppend([c], s);
    LowerCharWhitespace(c);
    HyphenateKeepsNonWhitespace(LowerChar(c), ToLower(s));
    ToLowerAppend(w, s);
    assert ToLower(w) == w by {
      forall i | 0 <= i < |w| ensures ToLower(w)[i] == w[i] {
        assert IsWhitespace(w[i]);
      }
    }
    if s != [] {
      LowerCharWhitespace(s[0]);
    }
    HyphenateRun(w, ToLower(s));
  }

  /** The uploaded file's name: `<stamp>-<slug>.<extension of the original name>`. */
  function NewFileName(stamp: string, name: string, fileName: string): string {
    stamp + "-" + Slug(name) + "." + AfterLast(fileName, '.')
  }


  /** For a file name without `/`, the key derived from the public URL is the key uploaded to. */
  lemma StorageKeyRoundTrip(base: string, fileName: string)
    requires '/' !in fileName
    ensures StorageKey(PublicUrl(base, "about/" + fileName)) == "about/" + fileName
  {
    assert PublicUrl(base, "about/" + fileName) == (base + "/about") + ['/'] + fileName;
    AfterLastOfJoin(base + "/about", '/', fileName);
  }

  /** Slugging keeps the characters of the name other than letters and whitespace. */
  lemma SlugKeepsSlash(name: string)
    requires '/' in name
    ensures '/' in Slug(name)
  {
    var i :| 0 <= i < |name| && name[i] == '/';
    assert ToLower(name)[i] == '/';
    HyphenateKeeps(ToLower(name), i);
  }

  /** Trimming leading whitespace stops at or before the first character that is not whitespace. */
  lemma {:induction false} TrimStartKeeps(s: string, i: int)
    requires 0 <= i < |s| && !IsWhitespace(s[i])
    ensures |s| - |TrimStart(s)| <= i
  {
    if IsWhitespace(s[0]) {
      TrimStartKeeps(s[1..], i - 1);
    }
  }

  lemma {:induction false} HyphenateKeeps(s: string, i: int)
    requires 0 <= i < |s| && s[i] == '/'
    ensures '/' in Hyphenate(s)
    decreases |s|
  {
    if IsWhitespace(s[0]) {
      var t := TrimStart(s);
      var d := |s| - |t|;
      TrimStartKeeps(s, i);
      assert t[i - d] == s[i];
      HyphenateKeeps(t, i - d);
    } else if i > 0 {
      assert s[1..][i - 1] == s[i];
      HyphenateKeeps(s[1..], i - 1);
    }
  }

  lemma SlugOfSlashName()
    ensures Slug("a/b") == "a/b"
  {
    assert ToLower("a/b") == "a/b";
    HyphenateNoWhitespace("a/b");
  }

  lemma ExampleFileName()
    ensures NewFileName("1", "a/b", "x.png") == "1-a/b.png"
  {
    SlugOfSlashName();
    assert "x.png" == "x" + ['.'] + "png";
    AfterLastOfJoin("x", '.', "png");
    assert NewFileName("1", "a/b", "x.png") == "1" + "-" + "a/b" + "." + "png";
  }

  /**
   * As written, a name holding `/` yields a key whose derived key differs:
   * the slug keeps the `/`, so the remove calls later aim at another key and
   * the uploaded file is never removed.
   */
  lemma SlashInNameOrphansFile(base: string)
    ensures "about/" + NewFileName("1", "a/b", "x.png") == "about/1-a/b.png"
    ensures StorageKey(PublicUrl(base, "about/" + NewFileName("1", "a/b", "x.png"))) == "about/b.png"
    ensures StorageKey(PublicUrl(base, "about/" + NewFileName("1", "a/b", "x.png")))
         != "about/" + NewFileName("1", "a/b", "x.png")
  {
    ExampleKey();
    ExampleStorageKey(base);
    ExampleKeysDiffer();
  }

  lemma ExampleKey()
    ensures "about/" + NewFileName("1", "a/b", "x.png") == "about/1-a/b.png"
  {
    ExampleFileName();
  }

  lemma ExampleKeysDiffer()
    ensures "about/b.png" != "about/1-a/b.png"
  {
    assert |"about/b.png"| != |"about/1-a/b.png"|;
  }

  lemma ExampleStorageKey(base: string)
    ensures StorageKey(PublicUrl(base, "about/1-a/b.png")) == "about/b.png"
  {
    assert PublicUrl(base, "about/1-a/b.png") == (base + "/about/1-a") + ['/'] + "b.png";
    AfterLastOfJoin(base + "/about/1-a", '/', "b.png");
  }

  /** `s` with every `/` replaced by `-`. */
  function Flatten(s: string): (r: string)
    ensures |r| == |s| && '/' !in r
    ensures forall i :: 0 <= i < |s| ==> r[i] == if s[i] == '/' then '-' else s[i]
  {
    if s == [] then [] else [if s[0] == '/' then '-' else s[0]] + Flatten(s[1..])
  }

  /** The evidently intended file name: the same name with no `/` left in it, so it stays one path segment. */
  function IntendedFileName(stamp: string, name: string, fileName: string): string {
    Flatten(NewFileName(stamp, name, fileName))
  }

  /** Flattening a string without `/` changes nothing. */
  lemma FlattenNoSlash(s: string)
    requires '/' !in s
    ensures Flatten(s) == s
  {
    assert forall i :: 0 <= i < |s| ==> s[i] != '/';
  }

  /** The key an upload writes to, with the intended file name. */
  function UploadKey(stamp: string, name: string, fileName: string): string {
    "about/" + IntendedFileName(stamp, name, fileName)
  }

  /**
   * With the intended name the derived key is the uploaded key for every
   * input, and the intended name is the written one whenever that holds no `/`.
   */
  lemma IntendedKeyRoundTrip(base: string, stamp: string, name: string, fileName: string)
    ensures StorageKey(PublicUrl(base, "about/" + IntendedFileName(stamp, name, fileName)))
         == "about/" + IntendedFileName(stamp, name, fileName)
    ensures '/' !in NewFileName(stamp, name, fileName) ==>
      IntendedFileName(stamp, name, fileName) == NewFileName(stamp, name, fileName)
  {
    StorageKeyRoundTrip(base, IntendedFileName(stamp, name, fileName));
    if '/' !in NewFileName(stamp, name, fileName) {
      FlattenNoSlash(NewFileName(stamp, name, fileName));
    }
  }

  // ------------------------------------------------------------ upload

  const MissingInputMessage := "Lütfen resim adı ve resim seçiniz"

  /** The bucket's error for an upload to a key that is already taken (the upload does not overwrite). */
  const DuplicateMessage := "The resource already exists"

  /**
   * The store calls of one upload that fail. The remove and delete of the
   * replaced image are awaited but their errors are not read: they only
   * decide whether the old file and row are gone.
   */
  datatype UploadFaults = UploadFaults(
    checkError: Option<string>,
    removeFails: bool,
    deleteFails: bool,
    uploadError: Option<string>,
    insertError: Option<string>)

  /** `delete().eq("id", id)`: the rows with that id removed, the others kept in order. */
  function RemoveId(images: seq<AboutImage>, id: Id): (r: seq<AboutImage>)
    ensures forall x :: x in r <==> x in images && x.id != id
    ensures |r| <= |images|
  {
    if images == [] then []
    else (if images[0].id == id then [] else [images[0]]) + RemoveId(images[1..], id)
  }

  /** The state once the slot's current image, if the check found one, has been removed. */
  function ClearSlot(st: AboutState, slot: int, faults: UploadFaults): AboutState {
    match ExistingAt(st.images, slot)
    case None => st
    case Some(e) =>
      AboutState(
        if faults.deleteFails then st.images else RemoveId(st.images, e.id),
        if faults.removeFails then st.files else st.files - {StorageKey(e.imageUrl)})
  }

  /** `uploadAboutImage` as a function of the state before the call. */
  function Upload(st: AboutState, file: File, name: string, slot: int, stamp: string, base: string, newId: Id,
                  faults: UploadFaults): (r: (AboutState, Option<string>))
  {
    if faults.checkError.Some? then (st, faults.checkError)
    else
      var cleared := ClearSlot(st, slot, faults);
      var key := UploadKey(stamp, name, file.name);
      if key in cleared.files then (cleared, Some(DuplicateMessage))
      else if faults.uploadError.Some? then (cleared, faults.uploadError)
      else
        var stored := cleared.(files := cleared.files + {key});
        if faults.insertError.Some? then (stored, faults.insertError)
        else (stored.(images := stored.images + [NewRow(file, name, slot, stamp, base, newId)]), None)
  }

  /** A failed check query ends the upload before any change. */
  lemma UploadCheckFails(st: AboutState, file: File, name: string, slot: int, stamp: string, base: string,
                         newId: Id, faults: UploadFaults)
    requires faults.checkError.Some?
    ensures Upload(st, file, name, slot, stamp, base, newId, faults) == (st, faults.checkError)
  {
  }

  /** The new row an upload inserts. */
  function NewRow(file: File, name: string, slot: int, stamp: string, base: string, newId: Id): AboutImage {
    AboutImage(newId, name, PublicUrl(base, UploadKey(stamp, name, file.name)), slot)
  }

  /**
   * Past the check query an upload stops with the slot cleared when the key
   * is already taken or the upload fails; it stops with the file stored but
   * no row (an orphaned file) when the insert fails; otherwise it succeeds
   * with the file stored and the row appended.
   */
  lemma UploadShape(st: AboutState, file: File, name: string, slot: int, stamp: string, base: string,
                    newId: Id, faults: UploadFaults)
    requires faults.checkError.None?
    ensures var cleared := ClearSlot(st, slot, faults);
      var key := UploadKey(stamp, name, file.name);
      var r := Upload(st, file, name, slot, stamp, base, newId, faults);
      && (r.0.images == cleared.images || r.0.images == cleared.images + [NewRow(file, name, slot, stamp, base, newId)])
      && (r.1.None? ==> r.0 == AboutState(cleared.images + [NewRow(file, name, slot, stamp, base, newId)], cleared.files + {key}))
      && (key in cleared.files ==> r == (cleared, Some(DuplicateMessage)))
      && (key !in cleared.files && faults.uploadError.Some? ==> r == (cleared, faults.uploadError))
      && (key !in cleared.files && faults.uploadError.None? && faults.insertError.Some? ==>
            r == (cleared.(files := cleared.files + {key}), faults.insertError))
      && (key !in cleared.files && faults.uploadError.None? && faults.insertError.None? ==> r.1.None?)
  {
    var cleared := ClearSlot(st, slot, faults);
    var key := UploadKey(stamp, name, file.name);
    if key !in cleared.files && faults.uploadError.None? && faults.insertError.None? {
      assert Upload(st, file, name, slot, stamp, base, newId, faults).0
          == AboutState(cleared.images + [NewRow(file, name, slot, stamp, base, newId)], cleared.files + {key});
    }
  }

  /**
   * Clearing a slot of a one-per-slot table with unique ids removes exactly
   * the slot's row and, unless the ignored remove failed, its file.
   */
  lemma {:induction false} ClearSlotSpec(st: AboutState, slot: int, faults: UploadFaults)
    requires AtMostOnePerSlot(st.images) && UniqueIds(st.images) && !faults.deleteFails
    ensures forall x :: x in ClearSlot(st, slot, faults).images <==> x in st.images && x.orderIndex != slot
    ensures forall e :: e in st.images && e.orderIndex == slot && !faults.removeFails ==>
      ClearSlot(st, slot, faults).files == st.files - {StorageKey(e.imageUrl)}
  {
    match ExistingAt(st.images, slot)
    case None =>
    case Some(e) =>
      ClearFoundRow(st, e, slot, faults);
  }

  /** Clearing the row the check query found, when the slot holds exactly that row. */
  lemma {:induction false} ClearFoundRow(st: AboutState, e: AboutImage, slot: int, faults: UploadFaults)
    requires AtMostOnePerSlot(st.images) && UniqueIds(st.images) && !faults.deleteFails
    requires ExistingAt(st.images, slot) == Some(e)
    ensures forall x :: x in ClearSlot(st, slot, faults).images <==> x in st.images && x.orderIndex != slot
    ensures forall e' :: e' in st.images && e'.orderIndex == slot && !faults.removeFails ==>
      ClearSlot(st, slot, faults).files == st.files - {StorageKey(e'.imageUrl)}
  {
    var cleared := ClearSlot(st, slot, faults);
    assert cleared.images == RemoveId(st.images, e.id);
    assert !faults.removeFails ==> cleared.files == st.files - {StorageKey(e.imageUrl)};
    SlotRowIsFound(st.images, e, slot);
  }

  /**
   * In a one-per-slot table with unique ids, the row the check query finds
   * is the slot's only row, and its id belongs to no row of another slot.
   */
  lemma {:induction false} SlotRowIsFound(images: seq<AboutImage>, e: AboutImage, slot: int)
    requires AtMostOnePerSlot(images) && UniqueIds(images) && ExistingAt(images, slot) == Some(e)
    ensures forall x :: x in images ==> (x.id == e.id <==> x.orderIndex == slot)
    ensures forall x :: x in images && x.orderIndex == slot ==> x == e
  {
    forall x | x in images ensures x.id == e.id <==> x.orderIndex == slot {
      if x.id == e.id {
        SameIdSameRow(images, x, e);
      }
      if x.orderIndex == slot {
        SlotMember(images, x, slot);
      }
    }
    forall x | x in images && x.orderIndex == slot ensures x == e {
      SlotMember(images, x, slot);
    }
  }

  /** Under unique ids, two rows with the same id are the same row. */
  lemma SameIdSameRow(images: seq<AboutImage>, x: AboutImage, y: AboutImage)
    requires UniqueIds(images) && x in images && y in images && x.id == y.id
    ensures x == y
  {
    var i :| 0 <= i < |images| && images[i] == x;
    var j :| 0 <= j < |images| && images[j] == y;
    assert !(i < j) && !(j < i);
  }

  /**
   * A successful upload leaves exactly the new image in its slot, keeps every
   * other slot's rows, and stores the new key; the replaced image's row is
   * gone, and so is its file unless the ignored remove failed.
   */
  lemma UploadReplacesSlot(st: AboutState, file: File, name: string, slot: int, stamp: string, base: string,
                           newId: Id, faults: UploadFaults)
    requires AtMostOnePerSlot(st.images) && UniqueIds(st.images) && !faults.deleteFails
    requires Upload(st, file, name, slot, stamp, base, newId, faults).1.None?
    ensures var after := Upload(st, file, name, slot, stamp, base, newId, faults).0;
      && SlotRows(after.images, slot) == [NewRow(file, name, slot, stamp, base, newId)]
      && (forall x :: x in after.images && x.orderIndex != slot <==> x in st.images && x.orderIndex != slot)
      && UploadKey(stamp, name, file.name) in after.files
      && (forall e :: e in st.images && e.orderIndex == slot && !faults.removeFails ==>
            after.files == st.files - {StorageKey(e.imageUrl)} + {UploadKey(stamp, name, file.name)})
  {
    UploadShape(st, file, name, slot, stamp, base, newId, faults);
    ClearSlotSpec(st, slot, faults);
    var cleared := ClearSlot(st, slot, faults);
    SlotRowsAppend(cleared.images, NewRow(file, name, slot, stamp, base, newId), slot);
  }

  /** In a one-per-slot table, a row in a slot is the one the check query finds. */
  lemma SlotMember(images: seq<AboutImage>, e: AboutImage, slot: int)
    requires AtMostOnePerSlot(images) && e in images && e.orderIndex == slot
    ensures ExistingAt(images, slot) == Some(e)
  {
    SlotRowsDistinct(images, slot);
    assert e in SlotRows(images, slot);
  }

  /** Appending a row to a slot that holds no row makes that row the slot's only one. */
  lemma {:induction false} SlotRowsAppend(images: seq<AboutImage>, row: AboutImage, slot: int)
    requires row.orderIndex == slot
    requires forall x :: x in images ==> x.orderIndex != slot
    ensures SlotRows(images + [row], slot) == [row]
  {
    if images == [] {
      assert images + [row] == [row];
    } else {
      assert (images + [row])[1..] == images[1..] + [row];
      assert images[0] in images;
      SlotRowsAppend(images[1..], row, slot);
    }
  }

  /**
   * Every outcome of an upload keeps at most one image per slot, provided the
   * delete of the replaced row (whose error is ignored) goes through.
   */
  lemma UploadKeepsOnePerSlot(st: AboutState, file: File, name: string, slot: int, stamp: string, base: string,
                              newId: Id, faults: UploadFaults)
    requires AtMostOnePerSlot(st.images) && !faults.deleteFails
    ensures AtMostOnePerSlot(Upload(st, file, name, slot, stamp, base, newId, faults).0.images)
  {
    if faults.checkError.None? {
      UploadShape(st, file, name, slot, stamp, base, newId, faults);
      RemovePreservesOnePerSlot(st.images, slot, faults);
      AppendToFreeSlot(ClearSlot(st, slot, faults).images, NewRow(file, name, slot, stamp, base, newId));
    }
  }

  /**
   * The delete of the replaced row is awaited but its error is not read: when
   * it fails and the rest of the upload succeeds, the slot ends up holding two
   * images and the call still reports no error.
   */
  lemma FailedDeleteDoublesSlot(st: AboutState, file: File, name: string, slot: int, stamp: string, base: string,
                                newId: Id, faults: UploadFaults, e: AboutImage)
    requires faults.checkError.None? && faults.deleteFails
    requires faults.uploadError.None? && faults.insertError.None?
    requires ExistingAt(st.images, slot) == Some(e)
    requires UploadKey(stamp, name, file.name) !in ClearSlot(st, slot, faults).files
    ensures Upload(st, file, name, slot, stamp, base, newId, faults).1 == None
    ensures !AtMostOnePerSlot(Upload(st, file, name, slot, stamp, base, newId, faults).0.images)
  {
    var row := NewRow(file, name, slot, stamp, base, newId);
    assert ClearSlot(st, slot, faults).images == st.images;
    assert Upload(st, file, name, slot, stamp, base, newId, faults).0.images == st.images + [row];
    SecondRowInSlot(st.images, e, row);
  }

  /** Appending a row to a slot that already holds one puts two images in that slot. */
  lemma SecondRowInSlot(images: seq<AboutImage>, e: AboutImage, row: AboutImage)
    requires e in images && row.orderIndex == e.orderIndex
    ensures !AtMostOnePerSlot(images + [row])
  {
    var i :| 0 <= i < |images| && images[i] == e;
    assert (images + [row])[i] == e && (images + [row])[|images|] == row;
  }

  /** Appending a row to a slot no row holds keeps the table one-per-slot. */
  lemma AppendToFreeSlot(images: seq<AboutImage>, row: AboutImage)
    requires AtMostOnePerSlot(images)
    requires forall x :: x in images ==> x.orderIndex != row.orderIndex
    ensures AtMostOnePerSlot(images + [row])
  {
    var after := images + [row];
    forall i, j | 0 <= i < j < |after| ensures after[i].orderIndex != after[j].orderIndex {
      if j == |after| - 1 {
        assert after[i] in images;
      } else {
        assert after[i] == images[i] && after[j] == images[j];
      }
    }
  }

  /** Clearing a slot keeps the table one-per-slot and leaves the slot empty. */
  lemma RemovePreservesOnePerSlot(images: seq<AboutImage>, slot: int, faults: UploadFaults)
    requires AtMostOnePerSlot(images) && !faults.deleteFails
    ensures var cleared := ClearSlot(AboutState(images, {}), slot, faults).images;
      AtMostOnePerSlot(cleared) && forall x :: x in cleared ==> x.orderIndex != slot
  {
    match ExistingAt(images, slot)
    case None =>
    case Some(e) =>
      SubsequenceOnePerSlot(images, e.id);
      forall x | x in RemoveId(images, e.id) ensures x.orderIndex != slot {
        if x.orderIndex == slot {
          SlotMember(images, x, slot);
        }
      }
  }

  /** Removing rows keeps the table one-per-slot. */
  lemma {:induction false} SubsequenceOnePerSlot(images: seq<AboutImage>, id: Id)
    requires AtMostOnePerSlot(images)
    ensures AtMostOnePerSlot(RemoveId(images, id))
  {
    if images != [] {
      SubsequenceOnePerSlot(images[1..], id);
      var rest := RemoveId(images[1..], id);
      var r := RemoveId(images, id);
      if images[0].id != id {
        assert r == [images[0]] + rest;
        forall j | 1 <= j < |r| ensures r[0].orderIndex != r[j].orderIndex {
          assert r[j] in images[1..];
          var k :| 0 <= k < |images[1..]| && images[1..][k] == r[j];
          assert images[k + 1] == r[j];
        }
      }
    }
  }

  /** The upload's first check: a file and a name that is not blank. */
  function UploadGuard(file: Option<File>, name: string): (error: Option<string>)
    ensures error.None? <==> file.Some? && !AllWhitespace(name)
    ensures error.Some? ==> error == Some(MissingInputMessage)
  {
    BlankIffAllWhitespace(name);
    if file.None? || IsBlank(name) then Some(MissingInputMessage) else None
  }

  // ------------------------------------------------------------ delete

  /** `deleteAboutImage` as a function of the state before the call. */
  function Delete(st: AboutState, id: Id, imageUrl: string, storageError: Option<string>, dbError: Option<string>)
    : (r: (AboutState, Option<string>))
  {
    if storageError.Some? then (st, storageError)
    else
      var st1 := st.(files := st.files - {StorageKey(imageUrl)});
      if dbError.Some? then (st1, dbError)
      else (st1.(images := RemoveId(st1.images, id)), None)
  }

  /**
   * The file goes first: a storage error changes nothing, a row-delete error
   * leaves the row without its file, and success removes both.
   */
  lemma DeleteOrder(st: AboutState, id: Id, imageUrl: string, storageError: Option<string>, dbError: Option<string>)
    ensures storageError.Some? ==> Delete(st, id, imageUrl, storageError, dbError) == (st, storageError)
    ensures storageError.None? ==> StorageKey(imageUrl) !in Delete(st, id, imageUrl, storageError, dbError).0.files
    ensures storageError.None? && dbError.Some? ==>
      Delete(st, id, imageUrl, storageError, dbError).0.images == st.images
    ensures storageError.None? && dbError.None? ==>
      && Delete(st, id, imageUrl, storageError, dbError).1 == None
      && forall x :: x in Delete(st, id, imageUrl, storageError, dbError).0.images <==> x in st.images && x.id != id
  {
  }

  /** Deleting the row an upload inserted removes that row and the very file the upload stored. */
  lemma DeleteRemovesUploadedRow(st: AboutState, file: File, name: string, slot: int, stamp: string, base: string,
                                 newId: Id)
    ensures var row := NewRow(file, name, slot, stamp, base, newId);
      && UploadKey(stamp, name, file.name) !in Delete(st, row.id, row.imageUrl, None, None).0.files
      && row !in Delete(st, row.id, row.imageUrl, None, None).0.images
  {
    IntendedKeyRoundTrip(base, stamp, name, file.name);
  }

  /** Deleting an image uploaded under a `/`-free file name removes the very file that was uploaded. */
  lemma DeleteRemovesUploadedFile(st: AboutState, img: AboutImage, base: string, fileName: string)
    requires '/' !in fileName && img.imageUrl == PublicUrl(base, "about/" + fileName)
    ensures "about/" + fileName !in Delete(st, img.id, img.imageUrl, None, None).0.files
    ensures img !in Delete(st, img.id, img.imageUrl, None, None).0.images
  {
    StorageKeyRoundTrip(base, fileName);
  }

  // ------------------------------------------------------------ the store

  class AboutStore {
    var images: seq<AboutImage>
    var files: set<string>

    constructor (initial: AboutState)
      ensures images == initial.images && files == initial.files
    {
      images := initial.images;
      files := initial.files;
    }

    /** `uploadAboutImage`, one store call at a time. */
    method UploadAboutImage(file: File, name: string, slot: int, stamp: string, base: string, newId: Id,
                            faults: UploadFaults)
      returns (error: Option<string>)
      modifies this
      ensures (AboutState(images, files), error)
           == Upload(old(AboutState(images, files)), file, name, slot, stamp, base, newId, faults)
    {
      if faults.checkError.Some? {
        return faults.checkError;
      }
      var existing := ExistingAt(images, slot);
      if existing.Some? {
        if !faults.removeFails {
          files := files - {StorageKey(existing.value.imageUrl)};
        }
        if !faults.deleteFails {
          images := RemoveId(images, existing.value.id);
        }
      }
      var key := UploadKey(stamp, name, file.name);
      if key in files {
        return Some(DuplicateMessage);
      }
      if faults.uploadError.Some? {
        return faults.uploadError;
      }
      files := files + {key};
      if faults.insertError.Some? {
        return faults.insertError;
      }
      images := images + [NewRow(file, name, slot, stamp, base, newId)];
      return None;
    }

    /** `handleImageUpload`: the input guard, then the file check, then the upload. */
    method HandleImageUpload(file: Option<File>, name: string, cardIndex: int, stamp: string, base: string,
                             newId: Id, faults: UploadFaults)
      returns (error: Option<string>)
      modifies this
      ensures UploadGuard(file, name).Some? ==>
        error == UploadGuard(file, name) && images == old(images) && files == old(files)
      ensures UploadGuard(file, name).None? && ValidateImageFile(file.value).Some? ==>
        error == ValidateImageFile(file.value) && images == old(images) && files == old(files)
      ensures UploadGuard(file, name).None? && ValidateImageFile(file.value).None? ==>
        (AboutState(images, files), error)
        == Upload(old(AboutState(images, files)), file.value, name, cardIndex, stamp, base, newId, faults)
    {
      var guard := UploadGuard(file, name);
      if guard.Some? {
        return guard;
      }
      var validation := ValidateImageFile(file.value);
      if validation.Some? {
        return validation;
      }
      error := UploadAboutImage(file.value, name, cardIndex, stamp, base, newId, faults);
    }

    /** `deleteAboutImage`: the file first, then the row. */
    method DeleteAboutImage(id: Id, imageUrl: string, storageError: Option<string>, dbError: Option<string>)
      returns (error: Option<string>)
      modifies this
      ensures (AboutState(images, files), error)
           == Delete(old(AboutState(images, files)), id, imageUrl, storageError, dbError)
    {
      if storageError.Some? {
        return storageError;
      }
      files := files - {StorageKey(imageUrl)};
      if dbError.Some? {
        return dbError;
      }
      images := RemoveId(images, id);
      return None;
    }
  }
}

=== FILE: about_page.dfy ===
/**
 * The about page: four fixed image cards, each showing the fetched image
 * stored in its slot or, when the slot is empty, the upload form for it.
 */
module AboutPage {
  import opened Wrappers
  import opened AboutImages
  import Ordering

  const ErrorBannerText := "Görseller yüklenirken bir hata oluştu"
  const Heading := "About Sayfası Görselleri"
  const EmptyTitlePrefix := "Görsel "

  /** The slots the page renders, in order. */
  const Slots: seq<int> := [0, 1, 2, 3]

  /** What a card holds: the image with its delete and edit buttons, or the upload form for its slot. */
  datatype CardContent =
    | Shown(image: AboutImage)
    | UploadForm(cardIndex: int)

  datatype Card = Card(slot: int, title: string, content: CardContent)

  datatype Page =
    | ErrorBanner(text: string)
    | Grid(heading: string, cards: seq<Card>)

  /** The decimal digits of `n`. */
  function DecimalString(n: nat): (r: string)
    ensures |r| >= 1
    ensures n < 10 ==> r == ['0' + n as char]
  {
    if n < 10 then ['0' + n as char] else DecimalString(n / 10) + ['0' + (n % 10) as char]
  }

  /** `images.find(img => img.order_index === slot)`: the first image in that slot. */
  function FindAtIndex(images: seq<AboutImage>, slot: int): (r: Option<AboutImage>)
    ensures r.Some? ==> r.value in images && r.value.orderIndex == slot
  {
    if images == [] then None
    else if images[0].orderIndex == slot then Some(images[0])
    else FindAtIndex(images[1..], slot)
  }

  /**
   * The search finds nothing exactly when no image is in the slot, and
   * otherwise the image at the first position holding that slot.
   */
  lemma {:induction false} FindAtIndexFirst(images: seq<AboutImage>, slot: int)
    ensures FindAtIndex(images, slot).None? <==> forall k :: 0 <= k < |images| ==> images[k].orderIndex != slot
    ensures FindAtIndex(images, slot).Some? ==>
      exists k :: 0 <= k < |images| && images[k] == FindAtIndex(images, slot).value
        && images[k].orderIndex == slot
        && forall j :: 0 <= j < k ==> images[j].orderIndex != slot
  {
    if images != [] && images[0].orderIndex != slot {
      FindAtIndexFirst(images[1..], slot);
      assert forall k :: 1 <= k < |images| ==> images[1..][k - 1] == images[k];
      var rest := FindAtIndex(images[1..], slot);
      if rest.Some? {
        var k :| 0 <= k < |images[1..]| && images[1..][k] == rest.value && images[1..][k].orderIndex == slot
          && forall j :: 0 <= j < k ==> images[1..][j].orderIndex != slot;
        assert images[k + 1] == rest.value;
        forall j | 0 <= j < k + 1 ensures images[j].orderIndex != slot {
          if j > 0 {
            assert images[j] == images[1..][j - 1];
          }
        }
      }
    }
  }

  /** The card for one slot. */
  function RenderCard(images: seq<AboutImage>, slot: int): Card
    requires 0 <= slot
  {
    match FindAtIndex(images, slot)
    case Some(image) => Card(slot, image.name, Shown(image))
    case None => Card(slot, EmptyTitlePrefix + DecimalString(slot + 1), UploadForm(slot))
  }

  /** The page for the outcome of `fetchAboutImages`. */
  function Render(fetched: Result<seq<AboutImage>>): Page {
    match fetched
    case Err(_) => ErrorBanner(ErrorBannerText)
    case Ok(images) =>
      Grid(Heading, seq(|Slots|, i requires 0 <= i < |Slots| => RenderCard(images, Slots[i])))
  }

  /** A fetch error renders only the error banner. */
  lemma RenderError(message: string)
    ensures Render(Err(message)) == ErrorBanner(ErrorBannerText)
  {
  }

  /**
   * Without a fetch error the page has exactly four cards, for slots 0 to 3
   * in order. Card i shows the first image whose slot is i, titled with its
   * name and offering delete and edit; a card with no such image shows the
   * upload form for slot i and the title "Görsel " followed by i + 1.
   */
  lemma RenderGrid(images: seq<AboutImage>)
    ensures Render(Ok(images)).Grid? && |Render(Ok(images)).cards| == 4
    ensures forall i :: 0 <= i < 4 ==> Render(Ok(images)).cards[i].slot == i
    ensures forall i :: 0 <= i < 4 ==>
      match FindAtIndex(images, i)
      case Some(image) =>
        Render(Ok(images)).cards[i].content == Shown(image) && Render(Ok(images)).cards[i].title == image.name
      case None =>
        && Render(Ok(images)).cards[i].content == UploadForm(i)
        && Render(Ok(images)).cards[i].title == EmptyTitlePrefix + ['1' + i as char]
  {
  }

  /** Only images of the table with a slot from 0 to 3 are ever shown, each on the card of its own slot. */
  lemma ShownImagesInRange(images: seq<AboutImage>)
    ensures forall c :: c in Render(Ok(images)).cards && c.content.Shown? ==>
      c.content.image in images && c.content.image.orderIndex == c.slot && 0 <= c.slot <= 3
  {
    RenderGrid(images);
  }

  /** When an image is the only one in its slot, the slot's card shows it, whatever the images' order. */
  lemma FindOnly(images: seq<AboutImage>, x: AboutImage)
    requires x in images
    requires forall y :: y in images && y.orderIndex == x.orderIndex ==> y == x
    ensures FindAtIndex(images, x.orderIndex) == Some(x)
  {
    FindAtIndexFirst(images, x.orderIndex);
  }

  /** When the rows hold exactly one image in a slot from 0 to 3, the page built from the fetch shows it there. */
  lemma FetchedSlotShows(images: seq<AboutImage>, row: AboutImage)
    requires row in images && 0 <= row.orderIndex < 4
    requires forall y :: y in images && y.orderIndex == row.orderIndex ==> y == row
    ensures Render(FetchAboutImages(images, None)).cards[row.orderIndex].content == Shown(row)
  {
    FetchAboutImagesSpec(images, None);
    var fetched := FetchAboutImages(images, None).value;
    assert row in fetched by {
      assert row in multiset(images);
    }
    forall y | y in fetched && y.orderIndex == row.orderIndex ensures y == row {
      assert y in multiset(fetched);
    }
    FindOnly(fetched, row);
    RenderGrid(fetched);
  }

  /**
   * After a successful upload into a slot from 0 to 3, the page rendered from
   * the fetched rows shows the new image on that slot's card.
   */
  lemma PageAfterUpload(st: AboutState, file: ImageFiles.File, name: string, slot: int, stamp: string, base: string,
                        newId: Store.Id, faults: UploadFaults)
    requires AtMostOnePerSlot(st.images) && UniqueIds(st.images) && !faults.deleteFails
    requires Upload(st, file, name, slot, stamp, base, newId, faults).1.None?
    requires 0 <= slot < 4
    ensures var after := Upload(st, file, name, slot, stamp, base, newId, faults).0;
      Render(FetchAboutImages(after.images, None)).cards[slot].content
        == Shown(NewRow(file, name, slot, stamp, base, newId))
  {
    UploadReplacesSlot(st, file, name, slot, stamp, base, newId, faults);
    SoleSlotRowShows(Upload(st, file, name, slot, stamp, base, newId, faults).0.images,
                     NewRow(file, name, slot, stamp, base, newId));
  }

  /** A row that is the only row of its slot, from 0 to 3, is what the page shows there. */
  lemma SoleSlotRowShows(images: seq<AboutImage>, row: AboutImage)
    requires SlotRows(images, row.orderIndex) == [row] && 0 <= row.orderIndex < 4
    ensures Render(FetchAboutImages(images, None)).cards[row.orderIndex].content == Shown(row)
  {
    assert row in SlotRows(images, row.orderIndex);
    forall y | y in images && y.orderIndex == row.orderIndex ensures y == row {
      assert y in SlotRows(images, row.orderIndex);
    }
    FetchedSlotShows(images, row);
  }
}

=== FILE: add_speaker.dfy ===
/**
 * The add-speaker dialog: its form state, the photo picker that keeps only
 * files passing `validateImageFile`, the submit handler (required-field
 * errors, then photo upload, then the next index, then `createSpeaker`) and
 * `resetForm`.
 *
 * The photo upload picks a random file name, so its outcome is a parameter.
 */
module AddSpeaker {
  import opened Wrappers
  import opened Text
  import opened Store
  import opened ImageFiles
  import opened Speakers

  const NameRequiredMessage := "İsim alanı zorunludur"
  const TitleRequiredMessage := "Unvan alanı zorunludur"
  const PhotoRequiredMessage := "Fotoğraf alanı zorunludur"
  const PhotoUploadFailedMessage := "Fotoğraf yüklenirken bir hata oluştu"
  const CreateFailedMessage := "Konuşmacı eklenirken bir hata oluştu"
  const CreatedMessage := "Konuşmacı başarıyla eklendi"

  /** The per-field messages shown under the form; `None` shows nothing. */
  datatype FormErrors = FormErrors(name: Option<string>, title: Option<string>, photo: Option<string>)

  const NoErrors := FormErrors(None, None, None)

  /** What `uploadSpeakerPhoto` returned. */
  datatype PhotoUpload = PhotoUpload(url: Option<string>, failed: bool)

  datatype Toast = ErrorToast(message: string) | SuccessToast(message: string)

  /** The dialog's form state. */
  datatype FormFields = FormFields(name: string, title: string, twitter: string, linkedin: string,
                                   photoFile: Option<File>, errors: FormErrors)

  /**
   * The errors `handleSubmit` collects: a name key exactly when the name is
   * blank after trimming, a title key exactly when the title is, and a photo
   * key exactly when no file is chosen. A field is tested as all whitespace,
   * which is what blank after trimming amounts to.
   */
  function SubmitErrors(name: string, title: string, photoFile: Option<File>): (e: FormErrors)
    ensures e.name.Some? <==> IsBlank(name)
    ensures e.title.Some? <==> IsBlank(title)
    ensures e.photo.Some? <==> photoFile.None?
    ensures e.name.Some? ==> e.name.value == NameRequiredMessage
    ensures e.title.Some? ==> e.title.value == TitleRequiredMessage
    ensures e.photo.Some? ==> e.photo.value == PhotoRequiredMessage
  {
    BlankIffAllWhitespace(name);
    BlankIffAllWhitespace(title);
    FormErrors(
      if AllWhitespace(name) then Some(NameRequiredMessage) else None,
      if AllWhitespace(title) then Some(TitleRequiredMessage) else None,
      if photoFile.None? then Some(PhotoRequiredMessage) else None)
  }

  /** `Object.keys(errors).length > 0`. */
  predicate HasErrors(e: FormErrors) {
    e.name.Some? || e.title.Some? || e.photo.Some?
  }

  /** `s || undefined` for a text field. */
  function OrUndefined(s: string): (r: Option<string>)
    ensures r.None? <==> s == ""
    ensures r.Some? ==> r.value == s
  {
    if s != "" then Some(s) else None
  }

  /** The speaker `handleSubmit` asks `createSpeaker` to insert. */
  function NewSpeakerOf(name: string, title: string, twitter: string, linkedin: string, photoUrl: string,
                        orderIndex: int): NewSpeaker
  {
    NewSpeaker(name, title, photoUrl, OrUndefined(twitter), OrUndefined(linkedin), orderIndex)
  }

  /** Empty handles reach the table as null; the photo is the uploaded URL and the index the one given. */
  lemma NewSpeakerOfStored(name: string, title: string, twitter: string, linkedin: string, photoUrl: string,
                           orderIndex: int, id: Id, createdAt: string)
    ensures var s := InsertedSpeaker(NewSpeakerOf(name, title, twitter, linkedin, photoUrl, orderIndex), id, createdAt);
      && s.name == name && s.title == title && s.photo == photoUrl && s.orderIndex == orderIndex
      && (s.twitter.None? <==> twitter == "") && (s.twitter.Some? ==> s.twitter.value == twitter)
      && (s.linkedin.None? <==> linkedin == "") && (s.linkedin.Some? ==> s.linkedin.value == linkedin)
  {
  }

  class AddSpeakerDialog {
    var name: string
    var title: string
    var twitter: string
    var linkedin: string
    var photoFile: Option<File>
    var photoPreview: Option<string>
    var errors: FormErrors

    /** Every field empty, no file, no preview, no errors. */
    predicate Cleared()
      reads this
    {
      name == "" && title == "" && twitter == "" && linkedin == ""
      && photoFile == None && photoPreview == None && errors == NoErrors
    }

    constructor ()
      ensures Cleared()
    {
      name := "";
      title := "";
      twitter := "";
      linkedin := "";
      photoFile := None;
      photoPreview := None;
      errors := NoErrors;
    }

    /** `resetForm`. */
    method ResetForm()
      modifies this
      ensures Cleared()
    {
      name := "";
      title := "";
      twitter := "";
      linkedin := "";
      photoFile := None;
      photoPreview := None;
      errors := NoErrors;
    }

    /**
     * `handlePhotoChange`: a rejected file is not kept and its message is
     * shown under the photo field; an accepted one becomes the chosen file,
     * clears that message, and its data URL (read by the browser, here
     * `dataUrl`) becomes the preview.
     */
    method HandlePhotoChange(file: Option<File>, dataUrl: string)
      modifies this
      ensures name == old(name) && title == old(title) && twitter == old(twitter) && linkedin == old(linkedin)
      ensures errors.name == old(errors.name) && errors.title == old(errors.title)
      ensures file.None? ==> photoFile == old(photoFile) && photoPreview == old(photoPreview) && errors == old(errors)
      ensures file.Some? && ValidateImageFile(file.value).Some? ==>
        && photoFile == old(photoFile) && photoPreview == old(photoPreview)
        && errors.photo == ValidateImageFile(file.value)
      ensures file.Some? && ValidateImageFile(file.value).None? ==>
        photoFile == file && photoPreview == Some(dataUrl) && errors.photo == None
    {
      if file.None? {
        return;
      }
      var validation := ValidateImageFile(file.value);
      if validation.Some? {
        errors := errors.(photo := validation);
        return;
      }
      photoFile := file;
      errors := errors.(photo := None);
      photoPreview := Some(dataUrl);
    }

    /**
     * `handleSubmit`. Missing fields are reported and nothing is called.
     * Otherwise the photo is uploaded; a failed upload or a missing URL
     * stops before the index lookup. The index is `getMaxOrderIndex`'s
     * (its error is not read), and the speaker is created with it and the
     * uploaded URL. Success resets the form.
     */
    method HandleSubmit(store: SpeakerStore, upload: PhotoUpload, maxQueryError: Option<string>,
                        newId: Id, createdAt: string, insertError: Option<string>)
      returns (toast: Option<Toast>)
      requires store.Valid() && newId !in RowIds(store.rows)
      modifies this, store
      ensures store.Valid()
      ensures HasErrors(SubmitErrors(old(name), old(title), old(photoFile))) ==>
        && toast == None && store.rows == old(store.rows)
        && errors == SubmitErrors(old(name), old(title), old(photoFile))
        && name == old(name) && title == old(title) && twitter == old(twitter) && linkedin == old(linkedin)
        && photoFile == old(photoFile) && photoPreview == old(photoPreview)
      ensures !HasErrors(SubmitErrors(old(name), old(title), old(photoFile))) ==>
        toast.Some? && Submitted(toast.value, store, old(store.rows), old(Fields()), old(photoPreview), upload,
                                 maxQueryError, newId, createdAt, insertError)
    {
      var found := SubmitErrors(name, title, photoFile);
      if HasErrors(found) {
        ShowErrors(found);
        return None;
      }
      var t := SubmitFields(store, upload, maxQueryError, newId, createdAt, insertError);
      return Some(t);
    }

    /** Shows the required-field errors; every other field is left as it is. */
    method ShowErrors(found: FormErrors)
      modifies this
      ensures errors == found
      ensures name == old(name) && title == old(title) && twitter == old(twitter) && linkedin == old(linkedin)
      ensures photoFile == old(photoFile) && photoPreview == old(photoPreview)
    {
      errors := found;
    }

    /** The form's fields, as `handleSubmit` reads them. */
    function Fields(): FormFields
      reads this
    {
      FormFields(name, title, twitter, linkedin, photoFile, errors)
    }

    /**
     * What a submit past the required-field check leaves behind: on a failed
     * upload or a failed create an error toast, the table, the form and the
     * photo preview as they were; otherwise the success toast, the new row appended and the
     * form cleared.
     */
    ghost predicate Submitted(toast: Toast, store: SpeakerStore, before: seq<Speaker>, form: FormFields,
                              preview: Option<string>, upload: PhotoUpload, maxQueryError: Option<string>,
                              newId: Id, createdAt: string, insertError: Option<string>)
      reads this, store
    {
      if upload.failed || !Truthy(upload.url) then
        toast == ErrorToast(PhotoUploadFailedMessage) && store.rows == before && Fields() == form && photoPreview == preview
      else if insertError.Some? then
        toast == ErrorToast(CreateFailedMessage) && store.rows == before && Fields() == form && photoPreview == preview
      else
        var created := NewSpeakerOf(form.name, form.title, form.twitter, form.linkedin, upload.url.value,
                                    GetMaxOrderIndex(before, maxQueryError).0);
        && toast == SuccessToast(CreatedMessage)
        && store.rows == before + [InsertedSpeaker(created, newId, createdAt)]
        && Cleared()
    }

    /** The part of `handleSubmit` past the required-field check: upload, next index, create. */
    method SubmitFields(store: SpeakerStore, upload: PhotoUpload, maxQueryError: Option<string>,
                        newId: Id, createdAt: string, insertError: Option<string>)
      returns (toast: Toast)
      requires store.Valid() && newId !in RowIds(store.rows)
      modifies this, store
      ensures store.Valid()
      ensures Submitted(toast, store, old(store.rows), old(Fields()), old(photoPreview), upload, maxQueryError,
                        newId, createdAt, insertError)
    {
      if upload.failed || !Truthy(upload.url) {
        return ErrorToast(PhotoUploadFailedMessage);
      }
      var (orderIndex, _) := GetMaxOrderIndex(store.rows, maxQueryError);
      var created := NewSpeakerOf(name, title, twitter, linkedin, upload.url.value, orderIndex);
      var result := store.CreateSpeaker(created, newId, createdAt, insertError);
      if result.Err? {
        return ErrorToast(CreateFailedMessage);
      }
      ResetForm();
      return SuccessToast(CreatedMessage);
    }
  }
}

=== FILE: edit_partner.dfy ===
/**
 * The partner edit dialog: its form state, `resetForm`, and `handleSubmit`,
 * which checks the title, uploads a newly chosen logo, and sends
 * `updatePartner` only the fields that differ from the stored partner.
 */
module EditPartner {
  import opened Wrappers
  import opened Text
  import opened Store
  import opened Partners
  import ImageFiles

  const TitleRequiredMessage := "Sponsor adı zorunludur"
  /** The toast text when a thrown error carries no message. */
  const UpdateFailedMessage := "Sponsor güncellenirken bir hata oluştu"

  /** What `uploadPartnerLogo` returned: a public URL and an error, either possibly absent. */
  datatype LogoUpload = LogoUpload(url: Option<string>, error: Option<string>)

  /** How a submit ends. */
  datatype SubmitOutcome =
    | NoPartner               // no partner is being edited: nothing happens
    | Rejected(message: string)  // refused before any call
    | Failed(message: string)    // a call failed; the error toast shows `message`
    | Updated(partner: Partner)  // the update went through

  /** `error.message || fallback` for the thrown error. */
  function ToastText(message: string): (r: string)
    ensures r != ""
    ensures message != "" ==> r == message
  {
    if message != "" then message else UpdateFailedMessage
  }

  /**
   * The `updateData` object `handleSubmit` builds, as written: title, link and
   * type only when they differ from the stored partner (a missing link counts
   * as ""), a cleared link as `undefined`, and the logo only when the upload
   * returned a non-empty URL.
   */
  function UpdateData(p: Partner, title: string, link: string, ptype: string, logoUrl: Option<string>): PartnerPatch {
    PartnerPatch(
      if title != p.title then Some(title) else None,
      if Truthy(logoUrl) then Some(logoUrl) else None,
      if link != OrEmpty(p.link) && link != "" then Some(Some(link)) else None,
      if ptype != p.ptype then Some(ptype) else None)
  }

  /** Each field is in the payload exactly when the source's condition for it holds, and carries the form's value. */
  lemma UpdateDataFields(p: Partner, title: string, link: string, ptype: string, logoUrl: Option<string>)
    ensures UpdateData(p, title, link, ptype, logoUrl).title.Some? <==> title != p.title
    ensures UpdateData(p, title, link, ptype, logoUrl).ptype.Some? <==> ptype != p.ptype
    ensures UpdateData(p, title, link, ptype, logoUrl).link.Some? <==> link != OrEmpty(p.link) && link != ""
    ensures UpdateData(p, title, link, ptype, logoUrl).logo.Some? <==> Truthy(logoUrl)
    ensures title == p.title && link == OrEmpty(p.link) && ptype == p.ptype && !Truthy(logoUrl) ==>
      UpdateData(p, title, link, ptype, logoUrl) == EmptyPatch
  {
  }

  /** The form fields `resetForm` (and the initialising effect) derive from a partner. */
  datatype Form = Form(title: string, link: string, ptype: string, logoPreview: Option<string>)

  function FormOf(p: Partner): (f: Form)
    ensures f.title == p.title && f.ptype == p.ptype
    ensures f.link == "" <==> !Truthy(p.link)
    ensures f.logoPreview.Some? <==> Truthy(p.logo)
  {
    Form(p.title, OrEmpty(p.link), p.ptype, OrNull(p.logo))
  }

  /**
   * As written, clearing a stored link does not remove it: the payload omits
   * the link, so the saved partner keeps it and the reopened form shows it again.
   */
  lemma ClearedLinkIsKept(p: Partner)
    requires Truthy(p.link)
    ensures UpdateData(p, p.title, "", p.ptype, None) == EmptyPatch
    ensures ApplyPatch(p, UpdateData(p, p.title, "", p.ptype, None)).link == p.link
    ensures FormOf(ApplyPatch(p, UpdateData(p, p.title, "", p.ptype, None))).link != ""
  {
  }

  /** Away from a cleared link, the saved partner reopens with exactly the submitted fields. */
  lemma UpdateDataRoundTrip(p: Partner, title: string, link: string, ptype: string, logoUrl: Option<string>)
    requires link != "" || !Truthy(p.link)
    ensures var q := ApplyPatch(p, UpdateData(p, title, link, ptype, logoUrl));
      && FormOf(q).title == title && FormOf(q).link == link && FormOf(q).ptype == ptype
      && q.logo == (if Truthy(logoUrl) then logoUrl else p.logo)
  {
  }

  /** The evidently intended payload: a cleared link is sent as null, so the store clears it. */
  function IntendedUpdateData(p: Partner, title: string, link: string, ptype: string, logoUrl: Option<string>)
    : PartnerPatch
  {
    UpdateData(p, title, link, ptype, logoUrl).(
      link := if link != OrEmpty(p.link) then Some(if link == "" then None else Some(link)) else None)
  }

  /** With the intended payload the saved partner reopens with exactly the submitted fields, for every input. */
  lemma IntendedUpdateDataRoundTrip(p: Partner, title: string, link: string, ptype: string, logoUrl: Option<string>)
    ensures var q := ApplyPatch(p, IntendedUpdateData(p, title, link, ptype, logoUrl));
      && FormOf(q).title == title && FormOf(q).link == link && FormOf(q).ptype == ptype
      && q.logo == (if Truthy(logoUrl) then logoUrl else p.logo)
    ensures link != "" || !Truthy(p.link) ==>
      ApplyPatch(p, IntendedUpdateData(p, title, link, ptype, logoUrl))
      == ApplyPatch(p, UpdateData(p, title, link, ptype, logoUrl))
  {
  }

  /** The intended payload is empty exactly when nothing in the form differs from the stored partner. */
  lemma IntendedUpdateDataEmptyIff(p: Partner, title: string, link: string, ptype: string, logoUrl: Option<string>)
    ensures IntendedUpdateData(p, title, link, ptype, logoUrl) == EmptyPatch <==>
      title == p.title && link == OrEmpty(p.link) && ptype == p.ptype && !Truthy(logoUrl)
  {
  }

  // ------------------------------------------------------------ the dialog

  class EditPartnerDialog {
    var title: string
    var link: string
    var ptype: string
    var logo: Option<ImageFiles.File>
    var logoPreview: Option<string>

    function Fields(): Form
      reads this
    {
      Form(title, link, ptype, logoPreview)
    }

    /** The initial state: empty fields, type silver, no file. */
    constructor ()
      ensures Fields() == Form("", "", SilverType, None) && logo == None
    {
      title := "";
      link := "";
      ptype := SilverType;
      logo := None;
      logoPreview := None;
    }

    /** The effect that runs when the edited partner changes: loads its fields and keeps the chosen file. */
    method Load(partner: Option<Partner>)
      modifies this
      ensures partner.Some? ==> Fields() == FormOf(partner.value) && logo == old(logo)
      ensures partner.None? ==> Fields() == old(Fields()) && logo == old(logo)
    {
      if partner.Some? {
        title := partner.value.title;
        link := OrEmpty(partner.value.link);
        ptype := partner.value.ptype;
        logoPreview := OrNull(partner.value.logo);
      }
    }

    /** `resetForm`: the partner's fields again and no chosen file; without a partner, nothing. */
    method ResetForm(partner: Option<Partner>)
      modifies this
      ensures partner.Some? ==> Fields() == FormOf(partner.value) && logo == None
      ensures partner.None? ==> Fields() == old(Fields()) && logo == old(logo)
    {
      if partner.None? {
        return;
      }
      title := partner.value.title;
      link := OrEmpty(partner.value.link);
      ptype := partner.value.ptype;
      logo := None;
      logoPreview := OrNull(partner.value.logo);
    }

    /**
     * `handleSubmit`, sending the intended payload (a cleared link is sent as
     * null). The upload result and the store's failure are parameters. A save
     * with nothing changed sends an empty payload and fails like a missing row. On
     * success the dialog closes through `handleClose`, which resets the form
     * from the partner as it was before the update.
     */
    method Submit(partner: Option<Partner>, store: PartnerStore, upload: LogoUpload, updateError: Option<string>)
      returns (outcome: SubmitOutcome)
      requires store.Valid()
      modifies this, store
      ensures store.Valid()
      ensures partner.None? ==>
        outcome == NoPartner && store.rows == old(store.rows) && Fields() == old(Fields()) && logo == old(logo)
      ensures partner.Some? && AllWhitespace(old(title)) ==>
        outcome == Rejected(TitleRequiredMessage) && store.rows == old(store.rows)
        && Fields() == old(Fields()) && logo == old(logo)
      ensures partner.Some? && !AllWhitespace(old(title)) && old(logo).Some? && Truthy(upload.error) ==>
        outcome == Failed(upload.error.value) && store.rows == old(store.rows)
        && Fields() == old(Fields()) && logo == old(logo)
      ensures partner.Some? && !AllWhitespace(old(title)) && !(old(logo).Some? && Truthy(upload.error)) ==>
        var p := partner.value;
        var patch := IntendedUpdateData(p, old(title), old(link), old(ptype),
                                        if old(logo).Some? then OrNull(upload.url) else None);
        if updateError.None? && patch != EmptyPatch && p.id in RowIds(old(store.rows)) then
          && store.rows == PatchRows(old(store.rows), p.id, patch)
          && outcome == Updated(ApplyPatch(FindById(old(store.rows), p.id).value, patch))
          && Fields() == FormOf(p) && logo == None
        else
          && store.rows == old(store.rows)
          && outcome.Failed?
          && outcome.message == ToastText(Prefixed(UpdatePrefix, if updateError.Some? then updateError.value else NoRowMessage))
          && Fields() == old(Fields()) && logo == old(logo)
    {
      if partner.None? {
        return NoPartner;
      }
      BlankIffAllWhitespace(title);
      if IsBlank(title) {
        return Rejected(TitleRequiredMessage);
      }
      var logoUrl: Option<string> := None;
      if logo.Some? {
        if Truthy(upload.error) {
          return Failed(ToastText(upload.error.value));
        }
        logoUrl := OrNull(upload.url);
      }
      var patch := IntendedUpdateData(partner.value, title, link, ptype, logoUrl);
      var r := store.UpdatePartner(partner.value.id, patch, updateError);
      if r.Err? {
        return Failed(ToastText(r.error));
      }
      ResetForm(partner);
      return Updated(r.value);
    }
  }
}

=== FILE: faq_page.dfy ===
/**
 * The FAQ management page: the list it keeps, the question and answer
 * fields, the selected entry, the create, update and delete handlers, the
 * blank-field guard, and the table cells (truncated texts and the
 * "updated" column's fallback).
 *
 * The FAQ actions themselves are not part of this model: each call is
 * recorded as the request it sends, and its error and the reload's
 * outcome are parameters.
 */
module FaqPage {
  import opened Wrappers
  import opened Text

  const BlankFieldsMessage := "Lütfen soru ve cevap alanlarını doldurun"
  const CreatedMessage := "FAQ başarıyla eklendi"
  const UpdatedMessage := "FAQ başarıyla güncellendi"
  const DeletedMessage := "FAQ başarıyla silindi"
  const QuestionWidth := 70
  const AnswerWidth := 100
  const Ellipsis := "..."

  datatype Faq = Faq(id: string, questionText: string, answerText: string, createdAt: string, updatedAt: Option<string>)

  /** A call the page makes to the FAQ actions. */
  datatype FaqRequest =
    | Create(question: string, answer: string)
    | Update(id: string, question: string, answer: string)
    | Delete(id: string)

  datatype Toast = ErrorToast(message: string) | SuccessToast(message: string)

  // ------------------------------------------------------------ cells

  /** `truncateText`: the text itself when it fits, otherwise its first `maxLength` characters and "...". */
  function Truncate(text: string, maxLength: nat): string {
    if |text| <= maxLength then text else text[..maxLength] + Ellipsis
  }

  /**
   * A text that fits is shown whole; a longer one is cut to `maxLength`
   * characters followed by "...", so it is `maxLength` + 3 long. Either way
   * the cell starts with the first min(length, `maxLength`) characters.
   */
  lemma TruncateSpec(text: string, maxLength: nat)
    ensures |text| <= maxLength ==> Truncate(text, maxLength) == text
    ensures |text| > maxLength ==>
      |Truncate(text, maxLength)| == maxLength + 3 && Truncate(text, maxLength)[maxLength..] == Ellipsis
    ensures StartsWith(Truncate(text, maxLength), text[..if |text| <= maxLength then |text| else maxLength])
    ensures |Truncate(text, maxLength)| <= maxLength + 3
  {
    if |text| > maxLength {
      assert (text[..maxLength] + Ellipsis)[..maxLength] == text[..maxLength];
    } else {
      assert text[..|text|] == text;
    }
  }

  /**
   * A text comes back unchanged exactly when it fits, or when it is three
   * characters too long and already ends in "..." at the cut.
   */
  lemma TruncateUnchangedIff(text: string, maxLength: nat)
    ensures Truncate(text, maxLength) == text <==>
      |text| <= maxLength || (|text| == maxLength + 3 && text[maxLength..] == Ellipsis)
  {
    if |text| > maxLength {
      var r := text[..maxLength] + Ellipsis;
      if |text| == maxLength + 3 && text[maxLength..] == Ellipsis {
        assert text == text[..maxLength] + text[maxLength..];
      }
      if r == text {
        assert text[maxLength..] == r[maxLength..];
      }
    }
  }

  /** The "updated" column's date: `updated_at`, or `created_at` when that is missing or empty. */
  function UpdatedShown(faq: Faq): (r: string)
    ensures Truthy(faq.updatedAt) ==> r == faq.updatedAt.value
    ensures !Truthy(faq.updatedAt) ==> r == faq.createdAt
  {
    if Truthy(faq.updatedAt) then faq.updatedAt.value else faq.createdAt
  }

  /** One table row: question cut at 70, answer cut at 100, the creation date and the update date. */
  datatype Row = Row(question: string, answer: string, created: string, updated: string)

  function Rows(faqs: seq<Faq>): (rows: seq<Row>)
    ensures |rows| == |faqs|
    ensures forall k :: 0 <= k < |faqs| ==>
      rows[k] == Row(Truncate(faqs[k].questionText, QuestionWidth), Truncate(faqs[k].answerText, AnswerWidth),
                     faqs[k].createdAt, UpdatedShown(faqs[k]))
  {
    seq(|faqs|, k requires 0 <= k < |faqs| =>
      Row(Truncate(faqs[k].questionText, QuestionWidth), Truncate(faqs[k].answerText, AnswerWidth),
          faqs[k].createdAt, UpdatedShown(faqs[k])))
  }

  // ------------------------------------------------------------ handlers

  /** Both fields hold something besides whitespace. */
  predicate Filled(question: string, answer: string) {
    !AllWhitespace(question) && !AllWhitespace(answer)
  }

  /**
   * The shared guard of create and update, `!question.trim() || !answer.trim()`:
   * it passes exactly when both fields are filled. The handlers test `Filled`.
   */
  function FieldsGuard(question: string, answer: string): (error: Option<string>)
    ensures error.None? <==> Filled(question, answer)
    ensures error.Some? ==> error.value == BlankFieldsMessage
  {
    BlankIffAllWhitespace(question);
    BlankIffAllWhitespace(answer);
    if IsBlank(question) || IsBlank(answer) then Some(BlankFieldsMessage) else None
  }

  /** The toasts `loadFAQs` shows for a fetch outcome. */
  function LoadToasts(reload: Result<seq<Faq>>): seq<Toast> {
    if reload.Err? then [ErrorToast(reload.error)] else []
  }

  class FaqPageState {
    var faqs: seq<Faq>
    var selected: Option<Faq>
    var question: string
    var answer: string

    constructor ()
      ensures faqs == [] && selected == None && question == "" && answer == ""
    {
      faqs := [];
      selected := None;
      question := "";
      answer := "";
    }

    /** `loadFAQs`: the fetched list replaces the shown one; a fetch error keeps it and shows a toast. */
    method LoadFaqs(reload: Result<seq<Faq>>) returns (toasts: seq<Toast>)
      modifies this
      ensures faqs == (if reload.Ok? then reload.value else old(faqs))
      ensures selected == old(selected) && question == old(question) && answer == old(answer)
      ensures toasts == LoadToasts(reload)
    {
      if reload.Err? {
        return [ErrorToast(reload.error)];
      }
      faqs := reload.value;
      return [];
    }

    /** `openEditDialog`: select the entry and load its texts into the fields. */
    method OpenEdit(faq: Faq)
      modifies this
      ensures selected == Some(faq) && question == faq.questionText && answer == faq.answerText
      ensures faqs == old(faqs)
    {
      selected := Some(faq);
      question := faq.questionText;
      answer := faq.answerText;
    }

    /** `openDeleteAlert`: select the entry; the fields keep whatever they hold. */
    method OpenDelete(faq: Faq)
      modifies this
      ensures selected == Some(faq)
      ensures faqs == old(faqs) && question == old(question) && answer == old(answer)
    {
      selected := Some(faq);
    }

    /**
     * `handleCreate`. Blank fields are refused before any call. After a
     * successful create the fields are cleared and the list is reloaded.
     */
    method HandleCreate(createError: Option<string>, reload: Result<seq<Faq>>)
      returns (request: Option<FaqRequest>, toasts: seq<Toast>)
      modifies this
      ensures selected == old(selected)
      ensures !Filled(old(question), old(answer)) ==>
        && request == None && toasts == [ErrorToast(BlankFieldsMessage)]
        && faqs == old(faqs) && question == old(question) && answer == old(answer)
      ensures Filled(old(question), old(answer)) ==>
        request == Some(Create(old(question), old(answer)))
      ensures Filled(old(question), old(answer)) && createError.Some? ==>
        && toasts == [ErrorToast(createError.value)]
        && faqs == old(faqs) && question == old(question) && answer == old(answer)
      ensures Filled(old(question), old(answer)) && createError.None? ==>
        && toasts == [SuccessToast(CreatedMessage)] + LoadToasts(reload)
        && question == "" && answer == ""
        && faqs == (if reload.Ok? then reload.value else old(faqs))
    {
      if !Filled(question, answer) {
        return None, [ErrorToast(BlankFieldsMessage)];
      }
      request := Some(Create(question, answer));
      if createError.Some? {
        return request, [ErrorToast(createError.value)];
      }
      question := "";
      answer := "";
      var loaded := LoadFaqs(reload);
      toasts := [SuccessToast(CreatedMessage)] + loaded;
    }

    /**
     * `handleUpdate`. With no entry selected nothing happens; blank fields
     * are refused before any call. After a successful update the selection
     * is cleared and the list is reloaded; the fields keep their text.
     */
    method HandleUpdate(updateError: Option<string>, reload: Result<seq<Faq>>)
      returns (request: Option<FaqRequest>, toasts: seq<Toast>)
      modifies this
      ensures question == old(question) && answer == old(answer)
      ensures old(selected).None? ==>
        request == None && toasts == [] && faqs == old(faqs) && selected == old(selected)
      ensures old(selected).Some? && !Filled(old(question), old(answer)) ==>
        request == None && toasts == [ErrorToast(BlankFieldsMessage)] && faqs == old(faqs) && selected == old(selected)
      ensures old(selected).Some? && Filled(old(question), old(answer)) ==>
        request == Some(Update(old(selected).value.id, old(question), old(answer)))
      ensures old(selected).Some? && Filled(old(question), old(answer)) && updateError.Some? ==>
        toasts == [ErrorToast(updateError.value)] && faqs == old(faqs) && selected == old(selected)
      ensures old(selected).Some? && Filled(old(question), old(answer)) && updateError.None? ==>
        && toasts == [SuccessToast(UpdatedMessage)] + LoadToasts(reload)
        && selected == None
        && faqs == (if reload.Ok? then reload.value else old(faqs))
    {
      if selected.None? {
        return None, [];
      }
      if !Filled(question, answer) {
        return None, [ErrorToast(BlankFieldsMessage)];
      }
      request := Some(Update(selected.value.id, question, answer));
      if updateError.Some? {
        return request, [ErrorToast(updateError.value)];
      }
      selected := None;
      var loaded := LoadFaqs(reload);
      toasts := [SuccessToast(UpdatedMessage)] + loaded;
    }

    /**
     * `handleDelete`. With no entry selected nothing happens; there is no
     * field guard. After a successful delete the selection is cleared and the
     * list is reloaded.
     */
    method HandleDelete(deleteError: Option<string>, reload: Result<seq<Faq>>)
      returns (request: Option<FaqRequest>, toasts: seq<Toast>)
      modifies this
      ensures question == old(question) && answer == old(answer)
      ensures old(selected).None? ==>
        request == None && toasts == [] && faqs == old(faqs) && selected == old(selected)
      ensures old(selected).Some? ==> request == Some(Delete(old(selected).value.id))
      ensures old(selected).Some? && deleteError.Some? ==>
        toasts == [ErrorToast(deleteError.value)] && faqs == old(faqs) && selected == old(selected)
      ensures old(selected).Some? && deleteError.None? ==>
        && toasts == [SuccessToast(DeletedMessage)] + LoadToasts(reload)
        && selected == None
        && faqs == (if reload.Ok? then reload.value else old(faqs))
    {
      if selected.None? {
        return None, [];
      }
      request := Some(Delete(selected.value.id));
      if deleteError.Some? {
        return request, [ErrorToast(deleteError.value)];
      }
      selected := None;
      var loaded := LoadFaqs(reload);
      toasts := [SuccessToast(DeletedMessage)] + loaded;
    }
  }
}

=== FILE: image_files.dfy ===
/**
 * `validateImageFile`, the upload guard shared (as identical copies) by the
 * speaker and about-image actions.
 */
module ImageFiles {
  import opened Wrappers
  import opened Text

  /** The parts of a browser `File` the dashboard reads. */
  datatype File = File(name: string, size: int, mimeType: string)

  /** 5 MiB. */
  const MaxImageBytes := 5 * 1024 * 1024

  const TooLargeMessage := "Dosya boyutu 5MB'dan büyük olamaz"
  const NotImageMessage := "Sadece resim dosyaları yüklenebilir"

  predicate IsImageType(mimeType: string) {
    StartsWith(mimeType, "image/")
  }

  /** The error `validateImageFile` reports, or `None` for an acceptable image. */
  function ValidateImageFile(f: File): (error: Option<string>)
    ensures error == None <==> f.size <= MaxImageBytes && IsImageType(f.mimeType)
    ensures f.size > MaxImageBytes ==> error == Some(TooLargeMessage)
    ensures f.size <= MaxImageBytes && !IsImageType(f.mimeType) ==> error == Some(NotImageMessage)
  {
    if f.size > MaxImageBytes then Some(TooLargeMessage)
    else if !IsImageType(f.mimeType) then Some(NotImageMessage)
    else None
  }

  /** Exactly 5 MiB is accepted; one byte more is refused with the size message, even for a non-image. */
  lemma SizeBoundary(name: string, mimeType: string)
    ensures ValidateImageFile(File(name, MaxImageBytes, "image/png")) == None
    ensures ValidateImageFile(File(name, MaxImageBytes + 1, mimeType)) == Some(TooLargeMessage)
  {
  }
}

=== FILE: member_lists.dfy ===
/**
 * The link cells of the team-member and speaker tables: a handle cell
 * (Twitter, Telegram) links to the service's address for the handle with
 * every `@` removed and shows that handle behind a single `@`; a LinkedIn
 * cell links to the stored value as "Profil"; a missing or empty value
 * shows "-".
 */
module SocialLinks {
  import opened Wrappers
  import opened Text

  const TwitterBase := "https://twitter.com/"
  const TelegramBase := "https://t.me/"
  const ProfileText := "Profil"
  const Placeholder := "-"

  /** A table cell: a link with its address and text, or the placeholder text. */
  datatype Cell = Link(href: string, text: string) | Plain(text: string)

  /** `h.replace(/@/g, "")`. */
  function StripHandle(h: string): string {
    RemoveAll(h, '@')
  }

  /** Stripping removes every `@`, wherever it stands, so stripping twice is stripping once. */
  lemma StripHandleIdempotent(h: string)
    ensures '@' !in StripHandle(h)
    ensures forall c :: c in StripHandle(h) <==> c in h && c != '@'
    ensures StripHandle(StripHandle(h)) == StripHandle(h)
  {
    RemoveAllAbsent(StripHandle(h), '@');
  }

  /**
   * Stripping deletes the `@`s and nothing else: it works piece by piece, and
   * a single character is dropped exactly when it is `@`. So the handle shown
   * is the input with its `@`s deleted and every other character kept in order.
   */
  lemma StripHandleDeletesAts(a: string, b: string, x: char)
    ensures StripHandle(a + b) == StripHandle(a) + StripHandle(b)
    ensures StripHandle([x]) == if x == '@' then [] else [x]
  {
    RemoveAllAppend(a, b, '@');
    RemoveAllOne(x, '@');
  }

  /** A Twitter or Telegram cell for the service address `base`. */
  function HandleCell(base: string, value: Option<string>): Cell {
    if Truthy(value) then
      var handle := StripHandle(value.value);
      Link(base + handle, "@" + handle)
    else Plain(Placeholder)
  }

  /**
   * A missing or empty value shows "-". Otherwise the text carries exactly
   * one `@`, in front, and the address is the service's followed by the text
   * after that `@`.
   */
  lemma HandleCellSpec(base: string, value: Option<string>)
    ensures HandleCell(base, value) == Plain(Placeholder) <==> !Truthy(value)
    ensures Truthy(value) ==>
      var cell := HandleCell(base, value);
      && cell.Link?
      && |cell.text| >= 1 && cell.text[0] == '@' && '@' !in cell.text[1..]
      && cell.href == base + cell.text[1..]
  {
    if Truthy(value) {
      var handle := StripHandle(value.value);
      StripHandleIdempotent(value.value);
      assert ("@" + handle)[1..] == handle;
    }
  }

  /** However many `@` a handle carries, and wherever, the cell is that of the stripped handle. */
  lemma HandleCellIgnoresAt(base: string, h: string)
    requires StripHandle(h) != ""
    ensures HandleCell(base, Some(h)) == HandleCell(base, Some(StripHandle(h)))
    ensures HandleCell(base, Some(h)) == HandleCell(base, Some("@" + h))
  {
    StripHandleIdempotent(h);
    assert ("@" + h)[1..] == h;
  }

  /** A handle made only of `@` is not empty, so it still gets a link, to the bare service address. */
  lemma AtOnlyHandle(base: string)
    ensures HandleCell(base, Some("@@")) == Link(base, "@")
  {
    assert StripHandle("@@") == [];
  }

  /** The LinkedIn cell: "Profil" linking to the stored value unchanged, or "-". */
  function ProfileCell(value: Option<string>): (cell: Cell)
    ensures cell == Plain(Placeholder) <==> !Truthy(value)
    ensures Truthy(value) ==> cell.Link? && cell.href == value.value && cell.text == ProfileText
  {
    if Truthy(value) then Link(value.value, ProfileText) else Plain(Placeholder)
  }
}

/** The team-member table's link cells. */
module TeamMemberList {
  import opened Wrappers
  import opened SocialLinks
  import Teams

  datatype LinkCells = LinkCells(twitter: Cell, linkedin: Cell, telegram: Cell)

  function MemberCells(m: Teams.TeamMember): LinkCells {
    LinkCells(HandleCell(TwitterBase, m.twitter), ProfileCell(m.linkedin), HandleCell(TelegramBase, m.telegram))
  }

  /** One row per member, in the given order, each built from that member's own values. */
  function Rows(members: seq<Teams.TeamMember>): (rows: seq<LinkCells>)
    ensures |rows| == |members|
    ensures forall k :: 0 <= k < |members| ==> rows[k] == MemberCells(members[k])
  {
    seq(|members|, k requires 0 <= k < |members| => MemberCells(members[k]))
  }

  /**
   * Twitter links to twitter.com and Telegram to t.me, each for the handle
   * without `@` and shown with one leading `@`; each of the three cells shows
   * "-" exactly when its value is missing or empty.
   */
  lemma MemberCellsSpec(m: Teams.TeamMember)
    ensures MemberCells(m).twitter == Plain(Placeholder) <==> !Text.Truthy(m.twitter)
    ensures MemberCells(m).linkedin == Plain(Placeholder) <==> !Text.Truthy(m.linkedin)
    ensures MemberCells(m).telegram == Plain(Placeholder) <==> !Text.Truthy(m.telegram)
    ensures Text.Truthy(m.twitter) ==>
      MemberCells(m).twitter == Link(TwitterBase + StripHandle(m.twitter.value), "@" + StripHandle(m.twitter.value))
    ensures Text.Truthy(m.telegram) ==>
      MemberCells(m).telegram == Link(TelegramBase + StripHandle(m.telegram.value), "@" + StripHandle(m.telegram.value))
    ensures Text.Truthy(m.linkedin) ==> MemberCells(m).linkedin == Link(m.linkedin.value, ProfileText)
  {
    HandleCellSpec(TwitterBase, m.twitter);
    HandleCellSpec(TelegramBase, m.telegram);
  }
}

/** The speaker table's link cells. */
module SpeakerList {
  import opened Wrappers
  import opened SocialLinks
  import Speakers

  datatype LinkCells = LinkCells(twitter: Cell, linkedin: Cell)

  function SpeakerCells(s: Speakers.Speaker): LinkCells {
    LinkCells(HandleCell(TwitterBase, s.twitter), ProfileCell(s.linkedin))
  }

  /** One row per speaker, in the given order, each built from that speaker's own values. */
  function Rows(speakers: seq<Speakers.Speaker>): (rows: seq<LinkCells>)
    ensures |rows| == |speakers|
    ensures forall k :: 0 <= k < |speakers| ==> rows[k] == SpeakerCells(speakers[k])
  {
    seq(|speakers|, k requires 0 <= k < |speakers| => SpeakerCells(speakers[k]))
  }

  /**
   * The Twitter cell links to twitter.com for the handle without `@` and
   * shows exactly one leading `@`; both cells show "-" exactly when the
   * value is missing or empty; LinkedIn links to the stored value.
   */
  lemma SpeakerCellsSpec(s: Speakers.Speaker)
    ensures SpeakerCells(s).twitter == Plain(Placeholder) <==> !Text.Truthy(s.twitter)
    ensures SpeakerCells(s).linkedin == Plain(Placeholder) <==> !Text.Truthy(s.linkedin)
    ensures Text.Truthy(s.twitter) ==>
      var cell := SpeakerCells(s).twitter;
      && cell.href == TwitterBase + StripHandle(s.twitter.value)
      && cell.text[0] == '@' && '@' !in cell.text[1..]
    ensures Text.Truthy(s.linkedin) ==> SpeakerCells(s).linkedin == Link(s.linkedin.value, ProfileText)
  {
    HandleCellSpec(TwitterBase, s.twitter);
  }
}

=== FILE: ordering.dfy ===
/**
 * The ordering the store applies for `.order(column, { ascending: true })`: a
 * stable insertion sort by a total preorder, proved to return a sorted
 * permutation of its input.
 */
module Ordering {

  /** `le` is total and transitive on every pair and triple of values. */
  ghost predicate TotalPreorder<T(!new)>(le: (T, T) -> bool) {
    && (forall a, b :: le(a, b) || le(b, a))
    && (forall a, b, c :: le(a, b) && le(b, c) ==> le(a, c))
  }

  ghost predicate SortedBy<T>(s: seq<T>, le: (T, T) -> bool) {
    forall i, j :: 0 <= i < j < |s| ==> le(s[i], s[j])
  }

  /** Places `x` before the first element it is `le`. */
  function Insert<T>(x: T, s: seq<T>, le: (T, T) -> bool): (r: seq<T>)
    ensures multiset(r) == multiset(s) + multiset{x}
    ensures |r| == |s| + 1
  {
    if s == [] then [x]
    else if le(x, s[0]) then [x] + s
    else
      var t := Insert(x, s[1..], le);
      assert s == [s[0]] + s[1..];
      [s[0]] + t
  }

  /** `s` ordered by `le`; elements that compare equal keep their input order. */
  function SortBy<T>(s: seq<T>, le: (T, T) -> bool): (r: seq<T>)
    ensures multiset(r) == multiset(s)
    ensures |r| == |s|
  {
    if s == [] then []
    else
      assert s == [s[0]] + s[1..];
      Insert(s[0], SortBy(s[1..], le), le)
  }

  lemma {:induction false} InsertSorted<T(!new)>(x: T, s: seq<T>, le: (T, T) -> bool)
    requires TotalPreorder(le)
    requires SortedBy(s, le)
    ensures SortedBy(Insert(x, s, le), le)
  {
    if s != [] && !le(x, s[0]) {
      var t := Insert(x, s[1..], le);
      InsertSorted(x, s[1..], le);
      assert le(s[0], x);
      forall j | 0 <= j < |t| ensures le(s[0], t[j]) {
        assert t[j] in multiset(t);
        if t[j] != x {
          assert t[j] in multiset(s[1..]);
          var k :| 0 <= k < |s[1..]| && s[1..][k] == t[j];
          assert s[k + 1] == t[j];
        }
      }
      var r := [s[0]] + t;
      forall i, j | 0 <= i < j < |r| ensures le(r[i], r[j]) {
        if i == 0 {
          assert r[j] == t[j - 1];
        } else {
          assert r[i] == t[i - 1] && r[j] == t[j - 1];
        }
      }
    }
  }

  /** The sort returns its input ordered by `le`. */
  lemma {:induction false} SortBySorted<T(!new)>(s: seq<T>, le: (T, T) -> bool)
    requires TotalPreorder(le)
    ensures SortedBy(SortBy(s, le), le)
    ensures multiset(SortBy(s, le)) == multiset(s)
  {
    if s != [] {
      SortBySorted(s[1..], le);
      InsertSorted(s[0], SortBy(s[1..], le), le);
    }
  }

  /** The sort's first element is an element of the input and `le` every element of it. */
  lemma SortByFirst<T(!new)>(s: seq<T>, le: (T, T) -> bool)
    requires TotalPreorder(le)
    ensures SortBy(s, le) == [] <==> s == []
    ensures SortBy(s, le) != [] ==> SortBy(s, le)[0] in s
    ensures SortBy(s, le) != [] ==> forall x :: x in s ==> le(SortBy(s, le)[0], x)
  {
    var r := SortBy(s, le);
    SortBySorted(s, le);
    if r != [] {
      assert r[0] in multiset(r);
      forall x | x in s ensures le(r[0], x) {
        assert x in multiset(s);
        var j :| 0 <= j < |r| && r[j] == x;
        if j == 0 {
          assert le(x, x) || le(x, x);
        }
      }
    }
  }
}

=== FILE: partner_list.dfy ===
/**
 * The partner list view: partners are grouped by type into buckets that keep
 * their input order, and one section per non-empty bucket is shown, in the
 * fixed type order main, diamond, gold, silver, with a label, a badge colour
 * and a badge count.
 *
 * The grouping and the label and colour tables are plain JavaScript
 * objects, so a type string that names a property every object inherits
 * (`constructor`, `toString`, `__proto__`, ...) finds that inherited value
 * instead of nothing.
 */
module PartnerList {
  import opened Wrappers
  import opened Partners

  /** The order in which sections are shown. */
  const TypeOrder: seq<string> := [MainType, DiamondType, GoldType, SilverType]

  const TypeLabels: map<string, string> := map[
    MainType := "Main Sponsor",
    DiamondType := "Diamond Sponsor",
    GoldType := "Gold Sponsor",
    SilverType := "Silver Sponsor"]

  const TypeColors: map<string, string> := map[
    MainType := "bg-indigo-500 hover:bg-indigo-600",
    DiamondType := "bg-blue-500 hover:bg-blue-600",
    GoldType := "bg-amber-500 hover:bg-amber-600",
    SilverType := "bg-gray-400 hover:bg-gray-500"]

  /** The properties of `Object.prototype`: every plain object has them, and each holds a truthy value. */
  const InheritedKeys: set<string> := {
    "constructor", "__defineGetter__", "__defineSetter__", "hasOwnProperty", "__lookupGetter__",
    "__lookupSetter__", "isPrototypeOf", "propertyIsEnumerable", "toString", "valueOf", "__proto__",
    "toLocaleString"}

  /** What a property lookup on a plain object yields: a string, or the inherited value of that name. */
  datatype JsValue = Str(s: string) | Inherited(key: string)

  /** `table[key] || fallback` on an object literal holding the string entries of `table`. */
  function LookupOr(table: map<string, string>, key: string, fallback: string): JsValue {
    if key in table && table[key] != "" then Str(table[key])
    else if key in InheritedKeys then Inherited(key)
    else Str(fallback)
  }

  /** `getPartnerTypeLabel`: `typeLabels[type] || type`. */
  function Label(ptype: string): JsValue {
    LookupOr(TypeLabels, ptype, ptype)
  }

  /** `getPartnerTypeBadgeColor`: `typeColors[type] || ""`. */
  function BadgeColor(ptype: string): JsValue {
    LookupOr(TypeColors, ptype, "")
  }

  /** None of the four types names an inherited property. */
  lemma TypeOrderNotInherited()
    ensures forall t :: t in TypeOrder ==> t !in InheritedKeys
  {
  }

  /**
   * Each of the four types gets its own label, other than its raw string, and
   * a non-empty colour. A type that names an inherited property gets that
   * inherited value from both helpers. Any other type gets its raw string as
   * label and no colour.
   */
  lemma LabelFallback(ptype: string)
    ensures ptype in TypeOrder ==> Label(ptype).Str? && Label(ptype) != Str(ptype)
    ensures ptype in TypeOrder ==> BadgeColor(ptype).Str? && BadgeColor(ptype) != Str("")
    ensures Label(ptype) == Str(ptype) <==> ptype !in TypeOrder && ptype !in InheritedKeys
    ensures BadgeColor(ptype) == Str("") <==> ptype !in TypeOrder && ptype !in InheritedKeys
    ensures Label(ptype) == Inherited(ptype) <==> ptype in InheritedKeys
    ensures BadgeColor(ptype) == Inherited(ptype) <==> ptype in InheritedKeys
    ensures ptype == MainType ==> Label(ptype) == Str("Main Sponsor")
    ensures ptype == SilverType ==> BadgeColor(ptype) == Str("bg-gray-400 hover:bg-gray-500")
  {
    TypeOrderNotInherited();
    assert TypeLabels.Keys == TypeColors.Keys == set t | t in TypeOrder;
  }

  // ------------------------------------------------------------ grouping

  /** The partners of one type, in input order. */
  function Bucket(partners: seq<Partner>, ptype: string): (r: seq<Partner>)
    ensures forall p :: p in r <==> p in partners && p.ptype == ptype
    ensures |r| <= |partners|
  {
    if partners == [] then []
    else
      var init := partners[..|partners| - 1];
      var last := partners[|partners| - 1];
      assert partners == init + [last];
      Bucket(init, ptype) + (if last.ptype == ptype then [last] else [])
  }

  /** Bucketing keeps order: the bucket of a concatenation is the concatenation of the buckets. */
  lemma {:induction false} BucketConcat(a: seq<Partner>, b: seq<Partner>, ptype: string)
    ensures Bucket(a + b, ptype) == Bucket(a, ptype) + Bucket(b, ptype)
    decreases |b|
  {
    if b == [] {
      assert a + b == a;
    } else {
      var init := b[..|b| - 1];
      assert (a + b)[..|a + b| - 1] == a + init;
      BucketConcat(a, init, ptype);
    }
  }

  /** The reduce's accumulator: a key for every type present, holding that type's bucket. */
  ghost predicate GroupedBy(groups: map<string, seq<Partner>>, partners: seq<Partner>) {
    && (forall t :: t in groups <==> Bucket(partners, t) != [])
    && (forall t :: t in groups ==> groups[t] == Bucket(partners, t))
  }

  /** One step of the reduce: the partner's array, created when missing, gets the partner appended. */
  function Push(acc: map<string, seq<Partner>>, p: Partner): map<string, seq<Partner>> {
    acc[p.ptype := (if p.ptype in acc then acc[p.ptype] else []) + [p]]
  }

  lemma PushStep(acc: map<string, seq<Partner>>, partners: seq<Partner>, i: nat)
    requires i < |partners| && GroupedBy(acc, partners[..i])
    ensures GroupedBy(Push(acc, partners[i]), partners[..i + 1])
  {
    var pre, p, next := partners[..i], partners[i], partners[..i + 1];
    assert next[..|next| - 1] == pre;
    forall t ensures Bucket(next, t) == Bucket(pre, t) + (if p.ptype == t then [p] else []) {
    }
  }

  /** Some partner's type names an inherited property. */
  predicate HasInheritedType(partners: seq<Partner>) {
    exists i :: 0 <= i < |partners| && partners[i].ptype in InheritedKeys
  }

  /** A list whose partners all have one of the four types never makes the grouping throw. */
  lemma FourTypesNeverThrow(partners: seq<Partner>)
    requires forall i :: 0 <= i < |partners| ==> partners[i].ptype in TypeOrder
    ensures !HasInheritedType(partners)
  {
    TypeOrderNotInherited();
  }

  /**
   * The grouping `reduce`: each partner is pushed onto its type's array,
   * created on first use. For a type that names an inherited property the
   * accumulator already holds a truthy value without `push`, so the reduce
   * throws (`None`) at the first such partner. The four types never do
   * (`FourTypesNeverThrow`).
   */
  method GroupByType(partners: seq<Partner>) returns (groups: Option<map<string, seq<Partner>>>)
    ensures groups.None? <==> HasInheritedType(partners)
    ensures groups.Some? ==> GroupedBy(groups.value, partners)
  {
    var acc: map<string, seq<Partner>> := map[];
    for i := 0 to |partners|
      invariant GroupedBy(acc, partners[..i])
      invariant forall k :: 0 <= k < i ==> partners[k].ptype !in InheritedKeys
    {
      var p := partners[i];
      if p.ptype in InheritedKeys {
        assert partners[i].ptype in InheritedKeys;
        return None;
      }
      PushStep(acc, partners, i);
      acc := Push(acc, p);
    }
    assert partners[..|partners|] == partners;
    return Some(acc);
  }

  // ------------------------------------------------------------ sections

  datatype Section = Section(ptype: string, title: JsValue, badgeColor: JsValue, count: nat, partners: seq<Partner>)

  /** `typeOrder.map`: a section for each listed type whose group exists and is not empty. */
  function SectionsFrom(types: seq<string>, groups: map<string, seq<Partner>>): seq<Section> {
    if types == [] then []
    else
      var t := types[0];
      (if t in groups && |groups[t]| > 0 then [Section(t, Label(t), BadgeColor(t), |groups[t]|, groups[t])] else [])
      + SectionsFrom(types[1..], groups)
  }

  /** The listed types that have at least one partner, in listed order. */
  function ShownTypes(types: seq<string>, partners: seq<Partner>): (r: seq<string>)
    ensures forall t :: t in r <==> t in types && Bucket(partners, t) != []
  {
    if types == [] then []
    else (if Bucket(partners, types[0]) != [] then [types[0]] else []) + ShownTypes(types[1..], partners)
  }

  /** A section shows type `t`: that type's bucket, its size as the badge count, the type's label and colour. */
  predicate SectionFor(s: Section, t: string, partners: seq<Partner>) {
    && s.ptype == t
    && s.partners == Bucket(partners, t)
    && s.count == |s.partners| > 0
    && s.title == Label(t)
    && s.badgeColor == BadgeColor(t)
  }

  /**
   * Section i is for the i-th listed type that has partners; it holds that
   * type's bucket, counts it in its badge, and carries the type's label and colour.
   */
  lemma {:induction false} SectionsFromSpec(types: seq<string>, groups: map<string, seq<Partner>>, partners: seq<Partner>)
    requires GroupedBy(groups, partners)
    ensures |SectionsFrom(types, groups)| == |ShownTypes(types, partners)|
    ensures forall i :: 0 <= i < |SectionsFrom(types, groups)| ==>
      SectionFor(SectionsFrom(types, groups)[i], ShownTypes(types, partners)[i], partners)
  {
    if types != [] {
      var t := types[0];
      var head := if t in groups && |groups[t]| > 0 then [Section(t, Label(t), BadgeColor(t), |groups[t]|, groups[t])] else [];
      var shown := if Bucket(partners, t) != [] then [t] else [];
      assert SectionsFrom(types, groups) == head + SectionsFrom(types[1..], groups);
      assert ShownTypes(types, partners) == shown + ShownTypes(types[1..], partners);
      assert |head| == |shown|;
      assert forall i :: 0 <= i < |head| ==> SectionFor(head[i], shown[i], partners);
      SectionsFromSpec(types[1..], groups, partners);
      SectionsAppend(head, shown, SectionsFrom(types[1..], groups), ShownTypes(types[1..], partners), partners);
    }
  }

  /** Sections that each show their type still do once two runs of them are joined. */
  lemma SectionsAppend(head: seq<Section>, shown: seq<string>, tail: seq<Section>, shownTail: seq<string>,
                       partners: seq<Partner>)
    requires |head| == |shown| && |tail| == |shownTail|
    requires forall i :: 0 <= i < |head| ==> SectionFor(head[i], shown[i], partners)
    requires forall i :: 0 <= i < |tail| ==> SectionFor(tail[i], shownTail[i], partners)
    ensures forall i :: 0 <= i < |head + tail| ==> SectionFor((head + tail)[i], (shown + shownTail)[i], partners)
  {
    forall i | 0 <= i < |head + tail| ensures SectionFor((head + tail)[i], (shown + shownTail)[i], partners) {
      if i >= |head| {
        assert (head + tail)[i] == tail[i - |head|];
        assert (shown + shownTail)[i] == shownTail[i - |head|];
      }
    }
  }

  /**
   * The view: group, then emit the sections in type order. When the grouping
   * throws, the list renders nothing (`None`).
   */
  method RenderPartnerList(partners: seq<Partner>) returns (sections: Option<seq<Section>>)
    ensures sections.None? <==> HasInheritedType(partners)
    ensures sections.Some? ==> |sections.value| == |ShownTypes(TypeOrder, partners)|
    ensures sections.Some? ==> forall i :: 0 <= i < |sections.value| ==>
      SectionFor(sections.value[i], ShownTypes(TypeOrder, partners)[i], partners)
  {
    var groups := GroupByType(partners);
    if groups.None? {
      return None;
    }
    sections := Some(SectionsFrom(TypeOrder, groups.value));
    SectionsFromSpec(TypeOrder, groups.value, partners);
  }

  /**
   * A partner is shown exactly when its type is one of the four, and then
   * only in its own type's section.
   */
  lemma PartnerShownIff(partners: seq<Partner>, groups: map<string, seq<Partner>>, p: Partner)
    requires GroupedBy(groups, partners)
    ensures (exists i :: 0 <= i < |SectionsFrom(TypeOrder, groups)| && p in SectionsFrom(TypeOrder, groups)[i].partners)
        <==> p in partners && p.ptype in TypeOrder
    ensures forall i :: 0 <= i < |SectionsFrom(TypeOrder, groups)| && p in SectionsFrom(TypeOrder, groups)[i].partners ==>
      SectionsFrom(TypeOrder, groups)[i].ptype == p.ptype
  {
    var sections := SectionsFrom(TypeOrder, groups);
    var shown := ShownTypes(TypeOrder, partners);
    SectionsFromSpec(TypeOrder, groups, partners);
    if p in partners && p.ptype in TypeOrder {
      assert p in Bucket(partners, p.ptype);
      assert p.ptype in shown;
      var i :| 0 <= i < |shown| && shown[i] == p.ptype;
      assert p in sections[i].partners;
    }
    forall i | 0 <= i < |sections| && p in sections[i].partners
      ensures p in partners && p.ptype in TypeOrder
    {
      assert shown[i] in shown;
    }
  }

  /** Which sections appear depends only on which partners there are, not on their order. */
  lemma ShownTypesOrderFree(a: seq<Partner>, b: seq<Partner>)
    requires multiset(a) == multiset(b)
    ensures ShownTypes(TypeOrder, a) == ShownTypes(TypeOrder, b)
  {
    forall t ensures Bucket(a, t) != [] <==> Bucket(b, t) != [] {
      if Bucket(a, t) != [] {
        assert Bucket(a, t)[0] in Bucket(a, t);
        assert Bucket(a, t)[0] in multiset(b);
        assert Bucket(a, t)[0] in Bucket(b, t);
      }
      if Bucket(b, t) != [] {
        assert Bucket(b, t)[0] in Bucket(b, t);
        assert Bucket(b, t)[0] in multiset(a);
        assert Bucket(b, t)[0] in Bucket(a, t);
      }
    }
    SameBucketsSameTypes(TypeOrder, a, b);
  }

  lemma {:induction false} SameBucketsSameTypes(types: seq<string>, a: seq<Partner>, b: seq<Partner>)
    requires forall t :: Bucket(a, t) != [] <==> Bucket(b, t) != []
    ensures ShownTypes(types, a) == ShownTypes(types, b)
  {
    if types != [] {
      SameBucketsSameTypes(types[1..], a, b);
    }
  }
}

=== FILE: partners.dfy ===
/**
 * The `partners` table and its actions: the soft-delete filters of the two
 * queries, insertion, the defined-fields-only update, soft deletion and the
 * order re-sequencer `updatePartnerOrder`.
 *
 * The re-sequencer moves one partner to a new `order_index`: it reads the moved
 * row, returns at once when the index is unchanged, reads the live siblings of
 * the given type whose index lies between the old and the new one, shifts each
 * of them by one towards the old index, one write at a time, and writes the
 * moved row last. Writes are not transactional: the first failing write ends
 * the run and the earlier writes stay.
 */
module Partners {
  import opened Wrappers
  import opened Text
  import opened Store
  import Ordering

  const MainType := "main"
  const DiamondType := "diamond"
  const GoldType := "gold"
  const SilverType := "silver"

  /**
   * A row of `partners`. The type is kept as the stored string, since the
   * views must cope with values outside the enumeration. `order_index` is read
   * by the re-sequencer although the source's interface omits it.
   */
  datatype Partner = Partner(
    id: Id,
    title: string,
    logo: Option<string>,
    link: Option<string>,
    ptype: string,
    orderIndex: int,
    createdAt: string,
    deletedAt: Option<string>)

  predicate Live(p: Partner) {
    p.deletedAt.None?
  }

  /** `id` is the table's primary key. */
  ghost predicate UniqueIds(rows: seq<Partner>) {
    forall i, j :: 0 <= i < j < |rows| ==> rows[i].id != rows[j].id
  }

  function RowIds(rows: seq<Partner>): set<Id> {
    set k | 0 <= k < |rows| :: rows[k].id
  }

  // ---------------------------------------------------------------- queries

  /** The rows with `deleted_at` null, in table order. */
  function LiveRows(rows: seq<Partner>): (r: seq<Partner>)
    ensures forall p :: p in r <==> p in rows && Live(p)
    ensures |r| <= |rows|
  {
    if rows == [] then []
    else (if Live(rows[0]) then [rows[0]] else []) + LiveRows(rows[1..])
  }

  /** The live rows of one type, in table order. */
  function LiveOfType(rows: seq<Partner>, ptype: string): (r: seq<Partner>)
    ensures forall p :: p in r <==> p in rows && Live(p) && p.ptype == ptype
  {
    if rows == [] then []
    else (if Live(rows[0]) && rows[0].ptype == ptype then [rows[0]] else []) + LiveOfType(rows[1..], ptype)
  }

  predicate TypeLe(a: Partner, b: Partner) {
    LexLe(a.ptype, b.ptype)
  }

  lemma TypeLeIsTotalPreorder()
    ensures Ordering.TotalPreorder(TypeLe)
  {
    forall a: Partner, b: Partner ensures TypeLe(a, b) || TypeLe(b, a) {
      LexLeTotal(a.ptype, b.ptype);
    }
    forall a: Partner, b: Partner, c: Partner | TypeLe(a, b) && TypeLe(b, c) ensures TypeLe(a, c) {
      LexLeTransitive(a.ptype, b.ptype, c.ptype);
    }
  }

  const FetchError := "Sponsorlar yüklenirken bir hata oluştu"

  /** `getPartners`: live rows ordered by type; a failed query gives a fixed message. */
  function GetPartners(rows: seq<Partner>, queryError: Option<string>): Result<seq<Partner>> {
    if queryError.Some? then Err(FetchError)
    else Ok(Ordering.SortBy(LiveRows(rows), TypeLe))
  }

  /** `getPartnersByType`: live rows of the type; a failed query names the type. */
  function GetPartnersByType(rows: seq<Partner>, ptype: string, queryError: Option<string>): Result<seq<Partner>> {
    if queryError.Some? then Err(ptype + " sponsorları yüklenirken bir hata oluştu")
    else Ok(LiveOfType(rows, ptype))
  }

  /** `getPartners` returns exactly the live rows, each once, ordered by type. */
  lemma GetPartnersSpec(rows: seq<Partner>)
    ensures GetPartners(rows, None).Ok?
    ensures multiset(GetPartners(rows, None).value) == multiset(LiveRows(rows))
    ensures forall p :: p in GetPartners(rows, None).value <==> p in rows && Live(p)
    ensures Ordering.SortedBy(GetPartners(rows, None).value, TypeLe)
  {
    TypeLeIsTotalPreorder();
    var r := Ordering.SortBy(LiveRows(rows), TypeLe);
    Ordering.SortBySorted(LiveRows(rows), TypeLe);
    forall p ensures p in r <==> p in LiveRows(rows) {
      assert p in r <==> p in multiset(r);
      assert p in LiveRows(rows) <==> p in multiset(LiveRows(rows));
    }
  }

  // ----------------------------------------------------------- single writes

  /** `update({ order_index: v }).eq("id", id)`: every row with that id gets index `v`. */
  function SetOrder(rows: seq<Partner>, id: Id, v: int): (r: seq<Partner>)
    ensures |r| == |rows|
    ensures forall k :: 0 <= k < |rows| ==> r[k] == if rows[k].id == id then rows[k].(orderIndex := v) else rows[k]
  {
    seq(|rows|, k requires 0 <= k < |rows| => if rows[k].id == id then rows[k].(orderIndex := v) else rows[k])
  }

  /** `update({ deleted_at: stamp }).eq("id", id)`. */
  function SoftDelete(rows: seq<Partner>, id: Id, stamp: string): (r: seq<Partner>)
    ensures |r| == |rows|
    ensures forall k :: 0 <= k < |rows| ==> r[k] == if rows[k].id == id then rows[k].(deletedAt := Some(stamp)) else rows[k]
  {
    if rows == [] then []
    else [if rows[0].id == id then rows[0].(deletedAt := Some(stamp)) else rows[0]] + SoftDelete(rows[1..], id, stamp)
  }

  /** After a soft delete the queries no longer see that id, and see every other live row as before. */
  lemma {:induction false} SoftDeleteHides(rows: seq<Partner>, id: Id, stamp: string)
    ensures |SoftDelete(rows, id, stamp)| == |rows|
    ensures forall p :: p in LiveRows(SoftDelete(rows, id, stamp)) <==> p in LiveRows(rows) && p.id != id
    ensures forall t, p :: p in LiveOfType(SoftDelete(rows, id, stamp), t) <==> p in LiveOfType(rows, t) && p.id != id
  {
    if rows != [] {
      SoftDeleteHides(rows[1..], id, stamp);
      assert SoftDelete(rows, id, stamp)[1..] == SoftDelete(rows[1..], id, stamp);
    }
  }

  /** What `createPartner` passes to the store: absent logo and link become null. */
  datatype NewPartner = NewPartner(title: string, logo: Option<string>, link: Option<string>, ptype: string)

  /**
   * The inserted row. The insert does not set `order_index`, so the row gets the
   * column's default, which the model takes as `defaultOrderIndex`.
   */
  function InsertedRow(input: NewPartner, id: Id, createdAt: string, defaultOrderIndex: int): (p: Partner)
    ensures p.title == input.title && p.ptype == input.ptype
    ensures p.logo == input.logo && p.link == input.link
    ensures Live(p) && p.id == id && p.orderIndex == defaultOrderIndex
  {
    Partner(id, input.title, input.logo, input.link, input.ptype, defaultOrderIndex, createdAt, None)
  }

  /** The partial update `updatePartner` accepts; `None` is an undefined property, which is not written. */
  datatype PartnerPatch = PartnerPatch(
    title: Option<string>,
    logo: Option<Option<string>>,
    link: Option<Option<string>>,
    ptype: Option<string>)

  const EmptyPatch := PartnerPatch(None, None, None, None)

  /** The row after `updatePartner` has written the defined properties of `patch`. */
  function ApplyPatch(p: Partner, patch: PartnerPatch): (q: Partner)
    ensures q.id == p.id && q.createdAt == p.createdAt && q.deletedAt == p.deletedAt
    ensures q.orderIndex == p.orderIndex
  {
    p.(title := patch.title.GetOr(p.title),
       logo := patch.logo.GetOr(p.logo),
       link := patch.link.GetOr(p.link),
       ptype := patch.ptype.GetOr(p.ptype))
  }

  /** Only defined properties are written: an empty patch changes nothing, and patching is idempotent. */
  lemma PatchProperties(p: Partner, patch: PartnerPatch)
    ensures ApplyPatch(p, EmptyPatch) == p
    ensures ApplyPatch(ApplyPatch(p, patch), patch) == ApplyPatch(p, patch)
    ensures patch.title.Some? ==> ApplyPatch(p, patch).title == patch.title.value
    ensures patch.title.None? ==> ApplyPatch(p, patch).title == p.title
    ensures patch.logo.Some? ==> ApplyPatch(p, patch).logo == patch.logo.value
    ensures patch.logo.None? ==> ApplyPatch(p, patch).logo == p.logo
    ensures patch.link.Some? ==> ApplyPatch(p, patch).link == patch.link.value
    ensures patch.link.None? ==> ApplyPatch(p, patch).link == p.link
    ensures patch.ptype.Some? ==> ApplyPatch(p, patch).ptype == patch.ptype.value
    ensures patch.ptype.None? ==> ApplyPatch(p, patch).ptype == p.ptype
  {
  }

  function PatchRows(rows: seq<Partner>, id: Id, patch: PartnerPatch): (r: seq<Partner>)
    ensures |r| == |rows|
    ensures forall k :: 0 <= k < |rows| ==> r[k] == if rows[k].id == id then ApplyPatch(rows[k], patch) else rows[k]
  {
    seq(|rows|, k requires 0 <= k < |rows| => if rows[k].id == id then ApplyPatch(rows[k], patch) else rows[k])
  }

  /** The first row with the given id: the `.eq("id", id).single()` read. */
  function FindById(rows: seq<Partner>, id: Id): (r: Option<Partner>)
    ensures r.None? <==> id !in RowIds(rows)
    ensures r.Some? ==> r.value.id == id && r.value in rows
  {
    if rows == [] then None
    else if rows[0].id == id then Some(rows[0])
    else
      var r := FindById(rows[1..], id);
      assert RowIds(rows) == {rows[0].id} + RowIds(rows[1..]) by {
        forall x | x in RowIds(rows) ensures x in {rows[0].id} + RowIds(rows[1..]) {
          var k :| 0 <= k < |rows| && rows[k].id == x;
          if k > 0 { assert rows[1..][k - 1].id == x; }
        }
      }
      r
  }

  const CreatePrefix := "Sponsor eklenirken bir hata oluştu: "
  const UpdatePrefix := "Sponsor güncellenirken bir hata oluştu: "
  const DeletePrefix := "Sponsor silinirken bir hata oluştu: "
  const ReorderPrefix := "Sponsor sıralaması güncellenirken bir hata oluştu: "

  // ------------------------------------------------------------ re-sequencer

  /** The `select("id, order_index")` projection of one sibling. */
  datatype Item = Item(id: Id, orderIndex: int)

  function ItemIds(items: seq<Item>): set<Id> {
    set j | 0 <= j < |items| :: items[j].id
  }

  lemma ItemIdsAppend(a: seq<Item>, b: seq<Item>)
    ensures ItemIds(a + b) == ItemIds(a) + ItemIds(b)
  {
    forall x | x in ItemIds(b) ensures x in ItemIds(a + b) {
      var j :| 0 <= j < |b| && b[j].id == x;
      assert (a + b)[|a| + j].id == x;
    }
    forall x | x in ItemIds(a) ensures x in ItemIds(a + b) {
      var j :| 0 <= j < |a| && a[j].id == x;
      assert (a + b)[j].id == x;
    }
  }

  lemma RowIdsCons(rows: seq<Partner>)
    requires rows != []
    ensures RowIds(rows) == {rows[0].id} + RowIds(rows[1..])
  {
    forall x | x in RowIds(rows[1..]) ensures x in RowIds(rows) {
      var k :| 0 <= k < |rows[1..]| && rows[1..][k].id == x;
      assert rows[k + 1].id == x;
    }
    forall x | x in RowIds(rows) ensures x in {rows[0].id} + RowIds(rows[1..]) {
      var k :| 0 <= k < |rows| && rows[k].id == x;
      if k > 0 { assert rows[1..][k - 1].id == x; }
    }
  }

  ghost predicate DistinctItems(items: seq<Item>) {
    forall i, j :: 0 <= i < j < |items| ==> items[i].id != items[j].id
  }

  /** The store calls of one run that fail, each with the message the store reports. */
  datatype ReorderFaults = ReorderFaults(
    lookupError: Option<string>,
    rangeError: Option<string>,
    writeErrors: map<Id, string>)

  /** -1 for a forward move (old < new), +1 for a backward one. */
  function Delta(current: int, target: int): int {
    if current < target then -1 else 1
  }

  /**
   * The range query's filter: the given type, not soft-deleted, and
   * `current < order_index <= target` forward or `target <= order_index < current` backward.
   */
  predicate InShiftRange(p: Partner, ptype: string, current: int, target: int) {
    && p.ptype == ptype
    && Live(p)
    && (if current < target then current < p.orderIndex <= target else target <= p.orderIndex < current)
  }

  /** The siblings the range query returns, in table order (the query sets no order). */
  function Affected(rows: seq<Partner>, ptype: string, current: int, target: int): (items: seq<Item>)
    ensures |items| <= |rows|
    ensures ItemIds(items) <= RowIds(rows)
  {
    if rows == [] then []
    else
      var head := if InShiftRange(rows[0], ptype, current, target) then [Item(rows[0].id, rows[0].orderIndex)] else [];
      var tail := Affected(rows[1..], ptype, current, target);
      RowIdsCons(rows);
      ItemIdsAppend(head, tail);
      head + tail
  }

  /** The snapshot is the head's item, if it is in range, followed by the tail's snapshot. */
  lemma AffectedCons(rows: seq<Partner>, ptype: string, current: int, target: int)
    requires rows != []
    ensures Affected(rows, ptype, current, target)
      == (if InShiftRange(rows[0], ptype, current, target) then [Item(rows[0].id, rows[0].orderIndex)] else [])
         + Affected(rows[1..], ptype, current, target)
  {
  }

  /** Under unique ids, the head's id is none of the tail's. */
  lemma HeadIdNotInTail(rows: seq<Partner>)
    requires rows != [] && UniqueIds(rows)
    ensures rows[0].id !in RowIds(rows[1..])
  {
    forall k | 0 <= k < |rows[1..]| ensures rows[1..][k].id != rows[0].id {
      assert rows[1..][k] == rows[k + 1];
    }
  }

  /** With unique ids, no sibling appears twice in the snapshot. */
  lemma {:induction false} AffectedDistinct(rows: seq<Partner>, ptype: string, current: int, target: int)
    requires UniqueIds(rows)
    ensures DistinctItems(Affected(rows, ptype, current, target))
  {
    if rows != [] {
      var tail := Affected(rows[1..], ptype, current, target);
      AffectedCons(rows, ptype, current, target);
      AffectedDistinct(rows[1..], ptype, current, target);
      HeadIdNotInTail(rows);
      forall j | 0 <= j < |tail| ensures tail[j].id != rows[0].id {
        assert tail[j].id in ItemIds(tail);
      }
    }
  }

  /** With unique ids, a row's id is in the snapshot exactly when the row is in range. */
  lemma {:induction false} AffectedMembers(rows: seq<Partner>, ptype: string, current: int, target: int)
    requires UniqueIds(rows)
    ensures forall k :: 0 <= k < |rows| ==>
      (rows[k].id in ItemIds(Affected(rows, ptype, current, target)) <==> InShiftRange(rows[k], ptype, current, target))
  {
    if rows != [] {
      var items := Affected(rows, ptype, current, target);
      var tail := Affected(rows[1..], ptype, current, target);
      var head := if InShiftRange(rows[0], ptype, current, target) then [Item(rows[0].id, rows[0].orderIndex)] else [];
      AffectedCons(rows, ptype, current, target);
      AffectedMembers(rows[1..], ptype, current, target);
      ItemIdsAppend(head, tail);
      HeadIdNotInTail(rows);
      forall k | 0 <= k < |rows|
        ensures rows[k].id in ItemIds(items) <==> InShiftRange(rows[k], ptype, current, target)
      {
        if k > 0 {
          assert rows[k] == rows[1..][k - 1];
          assert rows[k].id != rows[0].id;
        }
      }
    }
  }

  /** With unique ids, each snapshot item carries its row's index. */
  lemma {:induction false} AffectedIndices(rows: seq<Partner>, ptype: string, current: int, target: int)
    requires UniqueIds(rows)
    ensures forall j, k :: 0 <= j < |Affected(rows, ptype, current, target)| && 0 <= k < |rows| ==>
      (Affected(rows, ptype, current, target)[j].id == rows[k].id ==>
         Affected(rows, ptype, current, target)[j].orderIndex == rows[k].orderIndex)
  {
    if rows != [] {
      var items := Affected(rows, ptype, current, target);
      var tail := Affected(rows[1..], ptype, current, target);
      var head := if InShiftRange(rows[0], ptype, current, target) then [Item(rows[0].id, rows[0].orderIndex)] else [];
      var h := |head|;
      AffectedCons(rows, ptype, current, target);
      AffectedIndices(rows[1..], ptype, current, target);
      HeadIdNotInTail(rows);
      forall j, k | 0 <= j < |items| && 0 <= k < |rows| && items[j].id == rows[k].id
        ensures items[j].orderIndex == rows[k].orderIndex
      {
        if j >= h {
          assert items[j] == tail[j - h];
          assert tail[j - h].id in ItemIds(tail);
          if k > 0 {
            assert rows[k] == rows[1..][k - 1];
          }
        } else {
          assert items[j] == head[0];
          assert k == 0;
        }
      }
    }
  }

  /**
   * With unique ids, the snapshot holds each in-range row once, with its
   * pre-move index, and nothing else.
   */
  lemma AffectedExactly(rows: seq<Partner>, ptype: string, current: int, target: int)
    requires UniqueIds(rows)
    ensures DistinctItems(Affected(rows, ptype, current, target))
    ensures forall k :: 0 <= k < |rows| ==>
      (rows[k].id in ItemIds(Affected(rows, ptype, current, target)) <==> InShiftRange(rows[k], ptype, current, target))
    ensures forall j, k :: 0 <= j < |Affected(rows, ptype, current, target)| && 0 <= k < |rows| ==>
      (Affected(rows, ptype, current, target)[j].id == rows[k].id ==>
         Affected(rows, ptype, current, target)[j].orderIndex == rows[k].orderIndex)
  {
    AffectedDistinct(rows, ptype, current, target);
    AffectedMembers(rows, ptype, current, target);
    AffectedIndices(rows, ptype, current, target);
  }

  /** The result of running part of the sequence: the rows as they now are, and the error that stopped it. */
  datatype Run = Run(rows: seq<Partner>, error: Option<string>)

  /**
   * The sibling loop: each item's row is written with `item.orderIndex + delta`
   * (the snapshot's index, not the current one), one write at a time; the
   * first failing write stops the loop with its message.
   */
  function ShiftAll(rows: seq<Partner>, items: seq<Item>, delta: int, faults: ReorderFaults): (r: Run)
    decreases |items|
    ensures |r.rows| == |rows|
    ensures forall k :: 0 <= k < |rows| ==> r.rows[k] == rows[k].(orderIndex := r.rows[k].orderIndex)
    ensures forall k :: 0 <= k < |rows| && rows[k].id !in ItemIds(items) ==> r.rows[k] == rows[k]
  {
    if items == [] then Run(rows, None)
    else
      var n := |items| - 1;
      var prev := ShiftAll(rows, items[..n], delta, faults);
      assert items == items[..n] + [items[n]];
      ItemIdsAppend(items[..n], [items[n]]);
      if prev.error.Some? then prev
      else if items[n].id in faults.writeErrors then Run(prev.rows, Some(faults.writeErrors[items[n].id]))
      else Run(SetOrder(prev.rows, items[n].id, items[n].orderIndex + delta), None)
  }

  /** The position of the first item whose write fails, or `|items|` when none does. */
  function FirstFailure(items: seq<Item>, faults: ReorderFaults): (i: nat)
    ensures i <= |items|
    ensures forall j :: 0 <= j < i ==> items[j].id !in faults.writeErrors
    ensures i < |items| ==> items[i].id in faults.writeErrors
  {
    if items == [] then 0
    else if items[0].id in faults.writeErrors then 0
    else 1 + FirstFailure(items[1..], faults)
  }

  /** When no write of the loop fails, each item's row ends at its snapshot index plus `delta`. */
  lemma {:induction false} ShiftAllSucceeds(rows: seq<Partner>, items: seq<Item>, delta: int, faults: ReorderFaults)
    requires DistinctItems(items)
    requires forall j :: 0 <= j < |items| ==> items[j].id !in faults.writeErrors
    ensures ShiftAll(rows, items, delta, faults).error == None
    ensures forall j, k :: 0 <= j < |items| && 0 <= k < |rows| ==>
      (items[j].id == rows[k].id ==>
         ShiftAll(rows, items, delta, faults).rows[k] == rows[k].(orderIndex := items[j].orderIndex + delta))
  {
    if items != [] {
      var n := |items| - 1;
      ShiftAllSucceeds(rows, items[..n], delta, faults);
      var r := ShiftAll(rows, items, delta, faults);
      forall j, k | 0 <= j < |items| && 0 <= k < |rows| && items[j].id == rows[k].id
        ensures r.rows[k] == rows[k].(orderIndex := items[j].orderIndex + delta)
      {
        if j < n {
          assert items[..n][j] == items[j];
          assert items[j].id != items[n].id;
        } else {
          assert rows[k].id !in ItemIds(items[..n]);
        }
      }
    }
  }

  /**
   * The loop fails exactly when some item's write fails; it then reports the
   * first such item's message and has committed exactly the writes before it.
   */
  lemma {:induction false} ShiftAllFailure(rows: seq<Partner>, items: seq<Item>, delta: int, faults: ReorderFaults)
    ensures ShiftAll(rows, items, delta, faults).error.None? <==> FirstFailure(items, faults) == |items|
    ensures FirstFailure(items, faults) < |items| ==>
      && ShiftAll(rows, items, delta, faults).error == Some(faults.writeErrors[items[FirstFailure(items, faults)].id])
      && ShiftAll(rows, items, delta, faults).rows == ShiftAll(rows, items[..FirstFailure(items, faults)], delta, faults).rows
  {
    if items != [] {
      var n := |items| - 1;
      var i := FirstFailure(items, faults);
      var a := FirstFailure(items[..n], faults);
      ShiftAllFailure(rows, items[..n], delta, faults);
      forall j | 0 <= j < a ensures items[j].id !in faults.writeErrors {
        assert items[..n][j] == items[j];
      }
      if a < n {
        assert items[..n][a] == items[a];
      }
      if a < n {
        assert items[..n][..a] == items[..a];
      }
    }
  }

  /** One more step of the sibling loop after a prefix that succeeded. */
  lemma ShiftAllStep(rows: seq<Partner>, items: seq<Item>, i: nat, delta: int, faults: ReorderFaults)
    requires i < |items|
    requires ShiftAll(rows, items[..i], delta, faults).error.None?
    ensures var prev := ShiftAll(rows, items[..i], delta, faults).rows;
      ShiftAll(rows, items[..i + 1], delta, faults)
      == if items[i].id in faults.writeErrors then Run(prev, Some(faults.writeErrors[items[i].id]))
         else Run(SetOrder(prev, items[i].id, items[i].orderIndex + delta), None)
  {
    assert items[..i + 1][..i] == items[..i];
    assert items[..i + 1][i] == items[i];
  }

  /** Once a prefix of the loop has failed, the rest of the items change nothing. */
  lemma {:induction false} ShiftAllStops(rows: seq<Partner>, items: seq<Item>, m: nat, delta: int, faults: ReorderFaults)
    requires m <= |items|
    requires ShiftAll(rows, items[..m], delta, faults).error.Some?
    ensures ShiftAll(rows, items, delta, faults) == ShiftAll(rows, items[..m], delta, faults)
    decreases |items| - m
  {
    if m < |items| {
      var n := |items| - 1;
      assert items[..n][..m] == items[..m];
      ShiftAllStops(rows, items[..n], m, delta, faults);
    } else {
      assert items[..m] == items;
    }
  }

  predicate Member(p: Partner, ptype: string) {
    p.ptype == ptype && Live(p)
  }

  /**
   * Where a move from `current` to `target` sends a sibling's index: one step
   * towards `current` when it lies between the two, otherwise nowhere.
   */
  function ShiftIndex(v: int, current: int, target: int): int {
    if (current < target && current < v <= target) || (target < current && target <= v < current)
    then v + Delta(current, target)
    else v
  }

  /** The moved row's index after a successful run, as a function of its pre-move row. */
  function MovedIndex(p: Partner, partnerId: Id, ptype: string, current: int, target: int): int {
    if p.id == partnerId then target
    else if Member(p, ptype) then ShiftIndex(p.orderIndex, current, target)
    else p.orderIndex
  }

  datatype Outcome = Outcome(rows: seq<Partner>, error: Option<string>)

  /** `updatePartnerOrder` as a function of the table before the call and the store's faults. */
  function Reorder(rows: seq<Partner>, partnerId: Id, target: int, ptype: string, faults: ReorderFaults): (o: Outcome)
    ensures |o.rows| == |rows|
  {
    if faults.lookupError.Some? then Outcome(rows, Some(Prefixed(ReorderPrefix, faults.lookupError.value)))
    else match FindById(rows, partnerId)
      case None => Outcome(rows, Some(Prefixed(ReorderPrefix, NoRowMessage)))
      case Some(p) =>
        if p.orderIndex == target then Outcome(rows, None)
        else if faults.rangeError.Some? then Outcome(rows, Some(Prefixed(ReorderPrefix, faults.rangeError.value)))
        else
          var run := ShiftAll(rows, Affected(rows, ptype, p.orderIndex, target), Delta(p.orderIndex, target), faults);
          if run.error.Some? then Outcome(run.rows, Some(Prefixed(ReorderPrefix, run.error.value)))
          else if partnerId in faults.writeErrors then
            Outcome(run.rows, Some(Prefixed(ReorderPrefix, faults.writeErrors[partnerId])))
          else Outcome(SetOrder(run.rows, partnerId, target), None)
  }

  /** Moving a partner to the index it already has writes nothing and reports no error. */
  lemma ReorderSameIndex(rows: seq<Partner>, p: Partner, ptype: string, faults: ReorderFaults)
    requires faults.lookupError.None?
    requires FindById(rows, p.id) == Some(p)
    ensures Reorder(rows, p.id, p.orderIndex, ptype, faults) == Outcome(rows, None)
  {
  }

  /** A missing partner is an error, with the action's prefix, before any write. */
  lemma ReorderMissing(rows: seq<Partner>, partnerId: Id, target: int, ptype: string, faults: ReorderFaults)
    requires partnerId !in RowIds(rows)
    ensures Reorder(rows, partnerId, target, ptype, faults).rows == rows
    ensures Reorder(rows, partnerId, target, ptype, faults).error.Some?
    ensures StartsWith(Reorder(rows, partnerId, target, ptype, faults).error.value, ReorderPrefix)
  {
  }

  /** A row with the moved id is the moved row itself. */
  lemma OnlyMovedRowHasId(rows: seq<Partner>, p: Partner, k: int)
    requires UniqueIds(rows) && FindById(rows, p.id) == Some(p)
    requires 0 <= k < |rows| && rows[k].id == p.id
    ensures rows[k] == p
  {
    var m :| 0 <= m < |rows| && rows[m] == p;
    assert m == k;
  }

  /** No write to an in-range sibling fails. */
  predicate SiblingWritesSucceed(rows: seq<Partner>, ptype: string, current: int, target: int, faults: ReorderFaults) {
    forall k :: 0 <= k < |rows| && InShiftRange(rows[k], ptype, current, target) ==> rows[k].id !in faults.writeErrors
  }

  /** Under unique ids, the snapshot's write faults are exactly those of the in-range rows. */
  lemma SnapshotFaults(rows: seq<Partner>, ptype: string, current: int, target: int, faults: ReorderFaults)
    requires UniqueIds(rows)
    ensures (FirstFailure(Affected(rows, ptype, current, target), faults) == |Affected(rows, ptype, current, target)|)
      <==> SiblingWritesSucceed(rows, ptype, current, target, faults)
  {
    var items := Affected(rows, ptype, current, target);
    AffectedExactly(rows, ptype, current, target);
    var i := FirstFailure(items, faults);
    if i < |items| {
      assert items[i].id in ItemIds(items);
      assert items[i].id in RowIds(rows);
      var k :| 0 <= k < |rows| && rows[k].id == items[i].id;
      assert InShiftRange(rows[k], ptype, current, target);
    } else {
      forall k | 0 <= k < |rows| && InShiftRange(rows[k], ptype, current, target)
        ensures rows[k].id !in faults.writeErrors
      {
        var j :| 0 <= j < |items| && items[j].id == rows[k].id;
      }
    }
  }

  /** The store calls of a real move, once the lookup and the range query have succeeded. */
  lemma ReorderMoveUnfold(rows: seq<Partner>, p: Partner, target: int, ptype: string, faults: ReorderFaults)
    requires faults.lookupError.None? && faults.rangeError.None?
    requires FindById(rows, p.id) == Some(p) && p.orderIndex != target
    ensures var run := ShiftAll(rows, Affected(rows, ptype, p.orderIndex, target), Delta(p.orderIndex, target), faults);
      Reorder(rows, p.id, target, ptype, faults)
      == if run.error.Some? then Outcome(run.rows, Some(Prefixed(ReorderPrefix, run.error.value)))
         else if p.id in faults.writeErrors then Outcome(run.rows, Some(Prefixed(ReorderPrefix, faults.writeErrors[p.id])))
         else Outcome(SetOrder(run.rows, p.id, target), None)
  {
  }

  /** A failed lookup or range query ends a real move with an error. */
  lemma ReorderQueryError(rows: seq<Partner>, p: Partner, target: int, ptype: string, faults: ReorderFaults)
    requires faults.lookupError.Some? || faults.rangeError.Some?
    requires FindById(rows, p.id) == Some(p) && p.orderIndex != target
    ensures Reorder(rows, p.id, target, ptype, faults).error.Some?
  {
  }

  /** The sibling loop succeeds exactly when no in-range sibling's write fails. */
  lemma ShiftAllSucceedsIff(rows: seq<Partner>, ptype: string, current: int, target: int, faults: ReorderFaults)
    requires UniqueIds(rows)
    ensures ShiftAll(rows, Affected(rows, ptype, current, target), Delta(current, target), faults).error.None? <==>
      SiblingWritesSucceed(rows, ptype, current, target, faults)
  {
    SnapshotFaults(rows, ptype, current, target, faults);
    ShiftAllFailure(rows, Affected(rows, ptype, current, target), Delta(current, target), faults);
  }

  /** Once both queries have succeeded, a real move succeeds exactly when no write fails. */
  lemma ReorderWritesSucceedIff(rows: seq<Partner>, p: Partner, target: int, ptype: string, faults: ReorderFaults)
    requires UniqueIds(rows)
    requires faults.lookupError.None? && faults.rangeError.None?
    requires FindById(rows, p.id) == Some(p) && p.orderIndex != target
    ensures Reorder(rows, p.id, target, ptype, faults).error.None? <==>
      && p.id !in faults.writeErrors
      && ShiftAll(rows, Affected(rows, ptype, p.orderIndex, target), Delta(p.orderIndex, target), faults).error.None?
  {
    ReorderMoveUnfold(rows, p, target, ptype, faults);
  }

  /** A real move succeeds exactly when none of the store calls it makes fails. */
  lemma ReorderSucceedsIff(rows: seq<Partner>, p: Partner, target: int, ptype: string, faults: ReorderFaults)
    requires UniqueIds(rows)
    requires FindById(rows, p.id) == Some(p) && p.orderIndex != target
    ensures Reorder(rows, p.id, target, ptype, faults).error.None? <==>
      && faults.lookupError.None? && faults.rangeError.None? && p.id !in faults.writeErrors
      && SiblingWritesSucceed(rows, ptype, p.orderIndex, target, faults)
  {
    if faults.lookupError.Some? || faults.rangeError.Some? {
      ReorderQueryError(rows, p, target, ptype, faults);
    } else {
      ShiftAllSucceedsIff(rows, ptype, p.orderIndex, target, faults);
      ReorderWritesSucceedIff(rows, p, target, ptype, faults);
    }
  }

  /** The sibling writes alone put every other row at `MovedIndex` and leave the moved row alone. */
  lemma ShiftedSiblings(rows: seq<Partner>, p: Partner, target: int, ptype: string, faults: ReorderFaults)
    requires UniqueIds(rows)
    requires FindById(rows, p.id) == Some(p) && p.orderIndex != target
    requires SiblingWritesSucceed(rows, ptype, p.orderIndex, target, faults)
    ensures var run := ShiftAll(rows, Affected(rows, ptype, p.orderIndex, target), Delta(p.orderIndex, target), faults);
      forall k :: 0 <= k < |rows| ==>
        run.rows[k] == if rows[k].id == p.id then rows[k]
                       else rows[k].(orderIndex := MovedIndex(rows[k], p.id, ptype, p.orderIndex, target))
  {
    var items := Affected(rows, ptype, p.orderIndex, target);
    var delta := Delta(p.orderIndex, target);
    AffectedExactly(rows, ptype, p.orderIndex, target);
    SnapshotFaults(rows, ptype, p.orderIndex, target, faults);
    assert forall j :: 0 <= j < |items| ==> items[j].id !in faults.writeErrors;
    ShiftAllSucceeds(rows, items, delta, faults);
    var run := ShiftAll(rows, items, delta, faults).rows;
    forall k | 0 <= k < |rows|
      ensures run[k] == if rows[k].id == p.id then rows[k]
                        else rows[k].(orderIndex := MovedIndex(rows[k], p.id, ptype, p.orderIndex, target))
    {
      ShiftedRow(rows, items, run, p, target, ptype, k);
    }
  }

  /**
   * One row after the sibling loop, for any snapshot that holds exactly the
   * in-range rows with their indices and whose writes all succeeded.
   */
  lemma {:induction false} ShiftedRow(rows: seq<Partner>, items: seq<Item>, run: seq<Partner>, p: Partner, target: int, ptype: string,
                   k: int)
    requires UniqueIds(rows)
    requires FindById(rows, p.id) == Some(p) && p.orderIndex != target
    requires 0 <= k < |rows| && |run| == |rows|
    requires rows[k].id in ItemIds(items) <==> InShiftRange(rows[k], ptype, p.orderIndex, target)
    requires forall j :: 0 <= j < |items| && items[j].id == rows[k].id ==> items[j].orderIndex == rows[k].orderIndex
    requires rows[k].id !in ItemIds(items) ==> run[k] == rows[k]
    requires forall j :: 0 <= j < |items| && items[j].id == rows[k].id ==>
      run[k] == rows[k].(orderIndex := items[j].orderIndex + Delta(p.orderIndex, target))
    ensures run[k] == if rows[k].id == p.id then rows[k]
                      else rows[k].(orderIndex := MovedIndex(rows[k], p.id, ptype, p.orderIndex, target))
  {
    if rows[k].id == p.id {
      OnlyMovedRowHasId(rows, p, k);
    } else if rows[k].id in ItemIds(items) {
      var j :| 0 <= j < |items| && items[j].id == rows[k].id;
      assert run[k] == rows[k].(orderIndex := items[j].orderIndex + Delta(p.orderIndex, target));
    }
  }

  /** The sibling writes followed by the moved row's write put every row at `MovedIndex`. */
  lemma ShiftThenSet(rows: seq<Partner>, p: Partner, target: int, ptype: string, faults: ReorderFaults)
    requires UniqueIds(rows)
    requires FindById(rows, p.id) == Some(p) && p.orderIndex != target
    requires SiblingWritesSucceed(rows, ptype, p.orderIndex, target, faults)
    ensures var items := Affected(rows, ptype, p.orderIndex, target);
      var moved := SetOrder(ShiftAll(rows, items, Delta(p.orderIndex, target), faults).rows, p.id, target);
      forall k :: 0 <= k < |rows| ==> moved[k] == rows[k].(orderIndex := MovedIndex(rows[k], p.id, ptype, p.orderIndex, target))
  {
    ShiftedSiblings(rows, p, target, ptype, faults);
  }

  /**
   * After a successful real move every row ends at `MovedIndex`: the moved row
   * at the target, the in-range live siblings of the type shifted by one
   * towards the old index, everything else as it was; no other field changes.
   */
  lemma ReorderSuccess(rows: seq<Partner>, p: Partner, target: int, ptype: string, faults: ReorderFaults)
    requires UniqueIds(rows)
    requires FindById(rows, p.id) == Some(p) && p.orderIndex != target
    requires Reorder(rows, p.id, target, ptype, faults).error.None?
    ensures forall k :: 0 <= k < |rows| ==>
      Reorder(rows, p.id, target, ptype, faults).rows[k]
        == rows[k].(orderIndex := MovedIndex(rows[k], p.id, ptype, p.orderIndex, target))
  {
    ReorderSuccessRows(rows, p, target, ptype, faults);
    ShiftThenSet(rows, p, target, ptype, faults);
  }

  /** A successful real move is the sibling writes followed by the write of the moved row. */
  lemma ReorderSuccessRows(rows: seq<Partner>, p: Partner, target: int, ptype: string, faults: ReorderFaults)
    requires UniqueIds(rows)
    requires FindById(rows, p.id) == Some(p) && p.orderIndex != target
    requires Reorder(rows, p.id, target, ptype, faults).error.None?
    ensures SiblingWritesSucceed(rows, ptype, p.orderIndex, target, faults)
    ensures Reorder(rows, p.id, target, ptype, faults).rows
         == SetOrder(ShiftAll(rows, Affected(rows, ptype, p.orderIndex, target), Delta(p.orderIndex, target), faults).rows,
                     p.id, target)
  {
    ReorderSucceedsIff(rows, p, target, ptype, faults);
    ReorderMoveUnfold(rows, p, target, ptype, faults);
  }

  /**
   * A failed move reports an error with the action's prefix and never writes
   * the moved row; the table is either untouched or holds exactly the sibling
   * writes before the first failing one: earlier shifts stay.
   */
  lemma ReorderFailure(rows: seq<Partner>, p: Partner, target: int, ptype: string, faults: ReorderFaults)
    requires UniqueIds(rows)
    requires FindById(rows, p.id) == Some(p)
    requires Reorder(rows, p.id, target, ptype, faults).error.Some?
    ensures StartsWith(Reorder(rows, p.id, target, ptype, faults).error.value, ReorderPrefix)
    ensures forall k :: 0 <= k < |rows| && rows[k].id == p.id ==> Reorder(rows, p.id, target, ptype, faults).rows[k] == rows[k]
    ensures var items := Affected(rows, ptype, p.orderIndex, target);
      || Reorder(rows, p.id, target, ptype, faults).rows == rows
      || Reorder(rows, p.id, target, ptype, faults).rows
         == ShiftAll(rows, items[..FirstFailure(items, faults)], Delta(p.orderIndex, target), faults).rows
  {
    var items := Affected(rows, ptype, p.orderIndex, target);
    var delta := Delta(p.orderIndex, target);
    AffectedExactly(rows, ptype, p.orderIndex, target);
    forall k | 0 <= k < |rows| && rows[k].id == p.id ensures rows[k].id !in ItemIds(items) {
      OnlyMovedRowHasId(rows, p, k);
    }
    if faults.lookupError.None? && p.orderIndex != target && faults.rangeError.None? {
      ShiftAllFailure(rows, items, delta, faults);
      assert items[..|items|] == items;
    }
  }

  /** When every row with the id has index `v`, the lookup finds one of them, with index `v`. */
  lemma FindByIdIndex(rows: seq<Partner>, id: Id, v: int)
    requires id in RowIds(rows)
    requires forall k :: 0 <= k < |rows| && rows[k].id == id ==> rows[k].orderIndex == v
    ensures FindById(rows, id).Some? && FindById(rows, id).value.orderIndex == v
  {
    var q := FindById(rows, id).value;
    var k :| 0 <= k < |rows| && rows[k] == q;
  }

  /** Repeating a successful move is a no-op. */
  lemma ReorderIdempotent(rows: seq<Partner>, p: Partner, target: int, ptype: string, faults: ReorderFaults)
    requires UniqueIds(rows)
    requires FindById(rows, p.id) == Some(p)
    requires Reorder(rows, p.id, target, ptype, faults).error.None?
    requires faults.lookupError.None?
    ensures Reorder(Reorder(rows, p.id, target, ptype, faults).rows, p.id, target, ptype, faults)
         == Outcome(Reorder(rows, p.id, target, ptype, faults).rows, None)
  {
    var o := Reorder(rows, p.id, target, ptype, faults);
    if p.orderIndex != target {
      ReorderSuccess(rows, p, target, ptype, faults);
      var m :| 0 <= m < |rows| && rows[m] == p;
      assert o.rows[m].id == p.id;
      FindByIdIndex(o.rows, p.id, target);
    }
  }

  // ------------------------------------------------------------ the invariant

  /** The number of live rows of the type. */
  function GroupSize(rows: seq<Partner>, ptype: string): nat {
    if rows == [] then 0
    else (if Member(rows[0], ptype) then 1 else 0) + GroupSize(rows[1..], ptype)
  }

  /**
   * The live rows of the type carry pairwise distinct indices in
   * `lo .. lo + size - 1`; with as many rows as slots this is a permutation of
   * that range.
   */
  ghost predicate Contiguous(rows: seq<Partner>, ptype: string, lo: int) {
    && (forall k :: 0 <= k < |rows| && Member(rows[k], ptype) ==>
          lo <= rows[k].orderIndex < lo + GroupSize(rows, ptype))
    && (forall i, j :: 0 <= i < j < |rows| && Member(rows[i], ptype) && Member(rows[j], ptype) ==>
          rows[i].orderIndex != rows[j].orderIndex)
  }

  lemma {:induction false} GroupSizeSameMembers(a: seq<Partner>, b: seq<Partner>, ptype: string)
    requires |a| == |b|
    requires forall k :: 0 <= k < |a| ==> (Member(a[k], ptype) <==> Member(b[k], ptype))
    ensures GroupSize(a, ptype) == GroupSize(b, ptype)
  {
    if a != [] {
      GroupSizeSameMembers(a[1..], b[1..], ptype);
    }
  }

  /** The shift sends no sibling onto the target and no two siblings onto one index. */
  lemma ShiftIndexInjective(x: int, y: int, current: int, target: int)
    requires current != target && x != current && y != current
    ensures ShiftIndex(x, current, target) != target
    ensures x != y ==> ShiftIndex(x, current, target) != ShiftIndex(y, current, target)
  {
  }

  /** Moving the row at `current` to `target` keeps every sibling in `lo .. hi - 1` when both ends are there. */
  lemma ShiftIndexWithin(v: int, current: int, target: int, lo: int, hi: int)
    requires lo <= v < hi && lo <= current < hi && lo <= target < hi
    ensures lo <= ShiftIndex(v, current, target) < hi
  {
  }

  /** The index map of a move keeps the group contiguous. */
  lemma MoveKeepsContiguous(rows: seq<Partner>, moved: seq<Partner>, p: Partner, target: int, lo: int)
    requires UniqueIds(rows)
    requires FindById(rows, p.id) == Some(p) && Member(p, p.ptype) && p.orderIndex != target
    requires Contiguous(rows, p.ptype, lo)
    requires lo <= target < lo + GroupSize(rows, p.ptype)
    requires |moved| == |rows|
    requires forall k :: 0 <= k < |rows| ==> moved[k] == rows[k].(orderIndex := MovedIndex(rows[k], p.id, p.ptype, p.orderIndex, target))
    ensures Contiguous(moved, p.ptype, lo)
  {
    var t := p.ptype;
    var cur := p.orderIndex;
    var n := GroupSize(rows, t);
    GroupSizeSameMembers(rows, moved, t);
    var m :| 0 <= m < |rows| && rows[m] == p;
    forall k | 0 <= k < |rows| && Member(moved[k], t)
      ensures lo <= moved[k].orderIndex < lo + n
    {
      if rows[k].id != p.id {
        ShiftIndexWithin(rows[k].orderIndex, cur, target, lo, lo + n);
      }
    }
    forall k | 0 <= k < |rows| && Member(rows[k], t) && rows[k].id != p.id
      ensures rows[k].orderIndex != cur
    {
      assert k != m;
    }
    forall i, j | 0 <= i < j < |rows| && Member(moved[i], t) && Member(moved[j], t)
      ensures moved[i].orderIndex != moved[j].orderIndex
    {
      if rows[i].id == p.id {
        ShiftIndexInjective(rows[j].orderIndex, rows[j].orderIndex, cur, target);
      } else if rows[j].id == p.id {
        ShiftIndexInjective(rows[i].orderIndex, rows[i].orderIndex, cur, target);
      } else {
        ShiftIndexInjective(rows[i].orderIndex, rows[j].orderIndex, cur, target);
      }
    }
  }

  /**
   * A successful move of a live row of the type to an index inside the
   * group's range keeps the group contiguous.
   */
  lemma ReorderKeepsContiguous(rows: seq<Partner>, p: Partner, target: int, faults: ReorderFaults, lo: int)
    requires UniqueIds(rows)
    requires FindById(rows, p.id) == Some(p) && Member(p, p.ptype)
    requires Contiguous(rows, p.ptype, lo)
    requires lo <= target < lo + GroupSize(rows, p.ptype)
    requires Reorder(rows, p.id, target, p.ptype, faults).error.None?
    ensures Contiguous(Reorder(rows, p.id, target, p.ptype, faults).rows, p.ptype, lo)
  {
    if p.orderIndex != target {
      ReorderSuccess(rows, p, target, p.ptype, faults);
      MoveKeepsContiguous(rows, Reorder(rows, p.id, target, p.ptype, faults).rows, p, target, lo);
    }
  }

  /** Rewriting fields other than `id` keeps the ids unique. */
  lemma SameIdsUnique(a: seq<Partner>, b: seq<Partner>)
    requires UniqueIds(a) && |a| == |b|
    requires forall k :: 0 <= k < |a| ==> b[k].id == a[k].id
    ensures UniqueIds(b)
  {
  }

  // ------------------------------------------------------------ the table

  /** The `partners` table as the actions see it. */
  class PartnerStore {
    var rows: seq<Partner>

    ghost predicate Valid()
      reads this
    {
      UniqueIds(rows)
    }

    constructor (initial: seq<Partner>)
      requires UniqueIds(initial)
      ensures Valid() && rows == initial
    {
      rows := initial;
    }

    /**
     * `createPartner`: inserts the row (`newId` and `createdAt` are the store's)
     * and returns it, or reports the insert's error and changes nothing.
     */
    method CreatePartner(input: NewPartner, newId: Id, createdAt: string, defaultOrderIndex: int, insertError: Option<string>)
      returns (r: Result<Partner>)
      requires Valid() && newId !in RowIds(rows)
      modifies this
      ensures Valid()
      ensures insertError.Some? ==> r == Err(Prefixed(CreatePrefix, insertError.value)) && rows == old(rows)
      ensures insertError.None? ==>
        r == Ok(InsertedRow(input, newId, createdAt, defaultOrderIndex)) && rows == old(rows) + [r.value]
    {
      if insertError.Some? {
        return Err(Prefixed(CreatePrefix, insertError.value));
      }
      var row := InsertedRow(input, newId, createdAt, defaultOrderIndex);
      rows := rows + [row];
      return Ok(row);
    }

    /**
     * `updatePartner`: writes the defined properties of `patch` to the row with
     * that id and returns it. A missing row is the `.single()` error. So is an
     * empty patch: an update body with no columns is answered with no rows,
     * and no row is written.
     */
    method UpdatePartner(id: Id, patch: PartnerPatch, updateError: Option<string>) returns (r: Result<Partner>)
      requires Valid()
      modifies this
      ensures Valid()
      ensures updateError.Some? ==> r == Err(Prefixed(UpdatePrefix, updateError.value)) && rows == old(rows)
      ensures updateError.None? && (patch == EmptyPatch || id !in RowIds(old(rows))) ==>
        r == Err(Prefixed(UpdatePrefix, NoRowMessage)) && rows == old(rows)
      ensures updateError.None? && patch != EmptyPatch && id in RowIds(old(rows)) ==>
        rows == PatchRows(old(rows), id, patch) && r == Ok(ApplyPatch(FindById(old(rows), id).value, patch))
    {
      if updateError.Some? {
        return Err(Prefixed(UpdatePrefix, updateError.value));
      }
      var found := FindById(rows, id);
      if patch == EmptyPatch || found.None? {
        return Err(Prefixed(UpdatePrefix, NoRowMessage));
      }
      rows := PatchRows(rows, id, patch);
      return Ok(ApplyPatch(found.value, patch));
    }

    /** `deletePartner`: sets `deleted_at` on the rows with that id; no matching row is not an error. */
    method DeletePartner(id: Id, stamp: string, updateError: Option<string>) returns (error: Option<string>)
      requires Valid()
      modifies this
      ensures Valid()
      ensures updateError.Some? ==> error == Some(Prefixed(DeletePrefix, updateError.value)) && rows == old(rows)
      ensures updateError.None? ==> error == None && rows == SoftDelete(old(rows), id, stamp)
    {
      if updateError.Some? {
        return Some(Prefixed(DeletePrefix, updateError.value));
      }
      rows := SoftDelete(rows, id, stamp);
      return None;
    }

    /**
     * The sibling loop of `updatePartnerOrder`: writes each snapshot item's
     * index plus `delta`, in order, and stops at the first failing write.
     */
    method ShiftSiblings(items: seq<Item>, delta: int, faults: ReorderFaults) returns (error: Option<string>)
      modifies this
      ensures Run(rows, error) == ShiftAll(old(rows), items, delta, faults)
    {
      ghost var start := rows;
      assert items[..0] == [];
      for i := 0 to |items|
        invariant ShiftAll(start, items[..i], delta, faults) == Run(rows, None)
      {
        var item := items[i];
        ShiftAllStep(start, items, i, delta, faults);
        if item.id in faults.writeErrors {
          ShiftAllStops(start, items, i + 1, delta, faults);
          return Some(faults.writeErrors[item.id]);
        }
        rows := SetOrder(rows, item.id, item.orderIndex + delta);
      }
      assert items[..|items|] == items;
      return None;
    }

    /** `updatePartnerOrder`, one store call at a time. */
    method UpdatePartnerOrder(partnerId: Id, newOrderIndex: int, partnerType: string, faults: ReorderFaults)
      returns (error: Option<string>)
      requires Valid()
      modifies this
      ensures Valid()
      ensures rows == Reorder(old(rows), partnerId, newOrderIndex, partnerType, faults).rows
      ensures error == Reorder(old(rows), partnerId, newOrderIndex, partnerType, faults).error
    {
      if faults.lookupError.Some? {
        return Some(Prefixed(ReorderPrefix, faults.lookupError.value));
      }
      var current := FindById(rows, partnerId);
      if current.None? {
        return Some(Prefixed(ReorderPrefix, NoRowMessage));
      }
      var currentOrderIndex := current.value.orderIndex;
      if currentOrderIndex == newOrderIndex {
        return None;
      }
      if faults.rangeError.Some? {
        return Some(Prefixed(ReorderPrefix, faults.rangeError.value));
      }
      ghost var start := rows;
      var affectedItems := Affected(rows, partnerType, currentOrderIndex, newOrderIndex);
      var delta := Delta(currentOrderIndex, newOrderIndex);
      ReorderMoveUnfold(start, current.value, newOrderIndex, partnerType, faults);
      var shiftError := ShiftSiblings(affectedItems, delta, faults);
      SameIdsUnique(start, rows);
      if shiftError.Some? {
        return Some(Prefixed(ReorderPrefix, shiftError.value));
      }
      if partnerId in faults.writeErrors {
        return Some(Prefixed(ReorderPrefix, faults.writeErrors[partnerId]));
      }
      rows := SetOrder(rows, partnerId, newOrderIndex);
      SameIdsUnique(start, rows);
      return None;
    }
  }
}

=== FILE: signup.dfy ===
/**
 * The sign-up form: the schema's password rules and confirmation check, the
 * field errors the form shows, and the toast a failed registration produces.
 *
 * The schema checks every string rule (a failing rule does not stop the
 * later ones) and then runs the password/confirmation comparison, which is
 * attached to the `confirmPassword` field. The form shows, for each field,
 * the first issue reported for it.
 */
module Signup {
  import opened Wrappers
  import opened Text

  const EmailMessage := "Please enter a valid email address"
  const MinLengthMessage := "Password must be at least 8 characters long"
  const UppercaseMessage := "Password must contain at least one uppercase letter"
  const LowercaseMessage := "Password must contain at least one lowercase letter"
  const DigitMessage := "Password must contain at least one number"
  const MismatchMessage := "Passwords do not match"

  const MinPasswordLength := 8

  const AlreadyRegisteredMarker := "already registered"
  const AlreadyRegisteredToast := "This email is already registered"
  const FailurePrefix := "Registration failed: "
  const SuccessToast := "Registration successful! Please check your email to verify your account."

  datatype Values = Values(email: string, password: string, confirmPassword: string)

  /** One schema issue: the field it belongs to and its message. */
  datatype Issue = Issue(path: string, message: string)

  /** `/[A-Z]/`: some ASCII capital letter. */
  predicate HasUpper(s: string) {
    exists i :: 0 <= i < |s| && 'A' <= s[i] <= 'Z'
  }

  /** `/[a-z]/`: some ASCII small letter. */
  predicate HasLower(s: string) {
    exists i :: 0 <= i < |s| && 'a' <= s[i] <= 'z'
  }

  /** `/[0-9]/`: some ASCII digit. */
  predicate HasDigit(s: string) {
    exists i :: 0 <= i < |s| && '0' <= s[i] <= '9'
  }

  /** The four password rules together. */
  predicate StrongPassword(pw: string) {
    |pw| >= MinPasswordLength && HasUpper(pw) && HasLower(pw) && HasDigit(pw)
  }

  /** The password field's issues, in the schema's rule order. */
  function PasswordIssues(pw: string): seq<Issue> {
    (if |pw| < MinPasswordLength then [Issue("password", MinLengthMessage)] else [])
    + (if !HasUpper(pw) then [Issue("password", UppercaseMessage)] else [])
    + (if !HasLower(pw) then [Issue("password", LowercaseMessage)] else [])
    + (if !HasDigit(pw) then [Issue("password", DigitMessage)] else [])
  }

  /**
   * Every issue of the schema: the e-mail format (decided by the validation
   * library, here `emailValid`), the password rules, then the comparison.
   */
  function Validate(v: Values, emailValid: bool): seq<Issue> {
    (if emailValid then [] else [Issue("email", EmailMessage)])
    + PasswordIssues(v.password)
    + (if v.password != v.confirmPassword then [Issue("confirmPassword", MismatchMessage)] else [])
  }

  /** The message the form shows under a field: that of the field's first issue. */
  function FieldError(issues: seq<Issue>, path: string): (r: Option<string>)
    ensures r.None? <==> forall k :: 0 <= k < |issues| ==> issues[k].path != path
    ensures r.Some? ==> exists k :: 0 <= k < |issues| && issues[k] == Issue(path, r.value)
  {
    if issues == [] then None
    else if issues[0].path == path then Some(issues[0].message)
    else
      var r := FieldError(issues[1..], path);
      assert forall k :: 1 <= k < |issues| ==> issues[k] == issues[1..][k - 1];
      r
  }

  /** The first issue of a field is found whatever issues of other fields come before it. */
  lemma {:induction false} FieldErrorSkips(a: seq<Issue>, b: seq<Issue>, path: string)
    requires forall k :: 0 <= k < |a| ==> a[k].path != path
    ensures FieldError(a + b, path) == FieldError(b, path)
  {
    if a == [] {
      assert a + b == b;
    } else {
      assert (a + b)[1..] == a[1..] + b;
      FieldErrorSkips(a[1..], b, path);
    }
  }

  /** Every password issue belongs to the password field. */
  lemma PasswordIssuesPaths(pw: string)
    ensures forall k :: 0 <= k < |PasswordIssues(pw)| ==> PasswordIssues(pw)[k].path == "password"
  {
  }

  /** A password is accepted exactly when all four rules hold. */
  lemma PasswordAcceptedIff(pw: string)
    ensures PasswordIssues(pw) == [] <==> StrongPassword(pw)
  {
  }

  /**
   * The password field shows the first failing rule in the order length,
   * capital letter, small letter, digit; a short password always shows the
   * length message.
   */
  lemma PasswordFieldError(v: Values, emailValid: bool)
    ensures FieldError(Validate(v, emailValid), "password").None? <==> StrongPassword(v.password)
    ensures |v.password| < MinPasswordLength ==>
      FieldError(Validate(v, emailValid), "password") == Some(MinLengthMessage)
    ensures |v.password| >= MinPasswordLength && !HasUpper(v.password) ==>
      FieldError(Validate(v, emailValid), "password") == Some(UppercaseMessage)
    ensures |v.password| >= MinPasswordLength && HasUpper(v.password) && !HasLower(v.password) ==>
      FieldError(Validate(v, emailValid), "password") == Some(LowercaseMessage)
    ensures |v.password| >= MinPasswordLength && HasUpper(v.password) && HasLower(v.password) && !HasDigit(v.password) ==>
      FieldError(Validate(v, emailValid), "password") == Some(DigitMessage)
    ensures StrongPassword(v.password) ==> FieldError(Validate(v, emailValid), "password").None?
  {
    var emailPart: seq<Issue> := if emailValid then [] else [Issue("email", EmailMessage)];
    var confirmPart: seq<Issue> :=
      if v.password != v.confirmPassword then [Issue("confirmPassword", MismatchMessage)] else [];
    assert Validate(v, emailValid) == emailPart + (PasswordIssues(v.password) + confirmPart);
    FieldErrorSkips(emailPart, PasswordIssues(v.password) + confirmPart, "password");
    if StrongPassword(v.password) {
      assert PasswordIssues(v.password) + confirmPart == confirmPart;
    }
  }

  /**
   * A confirmation that differs from the password is reported under
   * `confirmPassword`, whether or not the password itself passes, and the
   * confirmation field shows nothing else.
   */
  lemma ConfirmFieldError(v: Values, emailValid: bool)
    ensures FieldError(Validate(v, emailValid), "confirmPassword")
         == (if v.password != v.confirmPassword then Some(MismatchMessage) else None)
  {
    var confirmPart: seq<Issue> :=
      if v.password != v.confirmPassword then [Issue("confirmPassword", MismatchMessage)] else [];
    var emailPart: seq<Issue> := if emailValid then [] else [Issue("email", EmailMessage)];
    var before := emailPart + PasswordIssues(v.password);
    assert Validate(v, emailValid) == before + confirmPart;
    PasswordIssuesPaths(v.password);
    assert |"email"| != |"confirmPassword"| && |"password"| != |"confirmPassword"|;
    forall k | 0 <= k < |before| ensures before[k].path != "confirmPassword" {
      if k < |emailPart| {
        assert before[k] == emailPart[k];
      } else {
        assert before[k] == PasswordIssues(v.password)[k - |emailPart|];
      }
    }
    FieldErrorSkips(before, confirmPart, "confirmPassword");
    if v.password == v.confirmPassword {
      assert confirmPart == [];
    }
  }

  /** The form is submitted exactly when the e-mail passes, the password is strong and the confirmation matches. */
  lemma FormAcceptedIff(v: Values, emailValid: bool)
    ensures Validate(v, emailValid) == [] <==>
      emailValid && StrongPassword(v.password) && v.password == v.confirmPassword
  {
  }

  /** The error toast for a failed registration. */
  function ErrorToast(message: string): string {
    if Contains(message, AlreadyRegisteredMarker) then AlreadyRegisteredToast else FailurePrefix + message
  }

  /** The two kinds of toast never coincide, and a failure toast gives back the store's message. */
  lemma ErrorToastDistinguishes(message: string)
    ensures Contains(message, AlreadyRegisteredMarker) ==> ErrorToast(message) == AlreadyRegisteredToast
    ensures StartsWith(ErrorToast(message), FailurePrefix) <==> !Contains(message, AlreadyRegisteredMarker)
    ensures !Contains(message, AlreadyRegisteredMarker) ==> ErrorToast(message)[|FailurePrefix|..] == message
  {
    if Contains(message, AlreadyRegisteredMarker) {
      assert ErrorToast(message)[0] != FailurePrefix[0];
    } else {
      assert (FailurePrefix + message)[..|FailurePrefix|] == FailurePrefix;
    }
  }

  datatype SignupOutcome =
    | ShowErrors(issues: seq<Issue>)  // the schema refused the values; no call is made
    | Registered(toast: string)
    | Refused(toast: string)

  /** A submit: the schema, then the registration call, whose error is `signupError`. */
  function Submit(v: Values, emailValid: bool, signupError: Option<string>): SignupOutcome {
    var issues := Validate(v, emailValid);
    if issues != [] then ShowErrors(issues)
    else if signupError.Some? then Refused(ErrorToast(signupError.value))
    else Registered(SuccessToast)
  }

  /** Registration is attempted only for accepted values, and succeeds exactly when the call does. */
  lemma SubmitSpec(v: Values, emailValid: bool, signupError: Option<string>)
    ensures Submit(v, emailValid, signupError).ShowErrors? <==>
      !(emailValid && StrongPassword(v.password) && v.password == v.confirmPassword)
    ensures Submit(v, emailValid, signupError) == Registered(SuccessToast) <==>
      emailValid && StrongPassword(v.password) && v.password == v.confirmPassword && signupError.None?
  {
    FormAcceptedIff(v, emailValid);
  }
}

=== FILE: speakers.dfy ===
/**
 * The `speakers` table and its actions: the live-rows query ordered by
 * `order_index`, the insert and update payload rules, the soft delete, and
 * `getMaxOrderIndex`, the next-index query the add-speaker dialog uses.
 *
 * These actions return the store's error itself, without a prefix; the model
 * carries its message.
 */
module Speakers {
  import opened Wrappers
  import opened Text
  import opened Store
  import Ordering

  datatype Speaker = Speaker(
    id: Id,
    name: string,
    title: string,
    photo: string,
    twitter: Option<string>,
    linkedin: Option<string>,
    orderIndex: int,
    createdAt: string,
    deletedAt: Option<string>)

  predicate Live(s: Speaker) {
    s.deletedAt.None?
  }

  /** `id` is the table's primary key. */
  ghost predicate UniqueIds(rows: seq<Speaker>) {
    forall i, j :: 0 <= i < j < |rows| ==> rows[i].id != rows[j].id
  }

  function RowIds(rows: seq<Speaker>): set<Id> {
    set k | 0 <= k < |rows| :: rows[k].id
  }

  // ---------------------------------------------------------------- queries

  /** `.is("deleted_at", null)`: the live rows, in table order. */
  function LiveSpeakers(rows: seq<Speaker>): (r: seq<Speaker>)
    ensures forall s :: s in r <==> s in rows && Live(s)
  {
    if rows == [] then []
    else (if Live(rows[0]) then [rows[0]] else []) + LiveSpeakers(rows[1..])
  }

  predicate IndexLe(a: Speaker, b: Speaker) {
    a.orderIndex <= b.orderIndex
  }

  lemma IndexLeIsTotalPreorder()
    ensures Ordering.TotalPreorder(IndexLe)
  {
  }

  /** `fetchSpeakers`: the live rows by ascending `order_index`, or the store's error. */
  function FetchSpeakers(rows: seq<Speaker>, queryError: Option<string>): Result<seq<Speaker>> {
    if queryError.Some? then Err(queryError.value)
    else Ok(Ordering.SortBy(LiveSpeakers(rows), IndexLe))
  }

  /** `fetchSpeakers` returns exactly the live speakers, each once, by ascending `order_index`. */
  lemma FetchSpeakersSpec(rows: seq<Speaker>, queryError: Option<string>)
    ensures queryError.Some? ==> FetchSpeakers(rows, queryError) == Err(queryError.value)
    ensures queryError.None? ==> FetchSpeakers(rows, queryError).Ok?
    ensures queryError.None? ==> multiset(FetchSpeakers(rows, queryError).value) == multiset(LiveSpeakers(rows))
    ensures queryError.None? ==> forall s :: s in FetchSpeakers(rows, queryError).value <==> s in rows && Live(s)
    ensures queryError.None? ==> Ordering.SortedBy(FetchSpeakers(rows, queryError).value, IndexLe)
  {
    if queryError.None? {
      IndexLeIsTotalPreorder();
      var r := Ordering.SortBy(LiveSpeakers(rows), IndexLe);
      Ordering.SortBySorted(LiveSpeakers(rows), IndexLe);
      forall s ensures s in r <==> s in LiveSpeakers(rows) {
        assert s in r <==> s in multiset(r);
        assert s in LiveSpeakers(rows) <==> s in multiset(LiveSpeakers(rows));
      }
    }
  }

  // ------------------------------------------------------------ next index

  /** The largest `order_index` of the table, soft-deleted rows included. */
  function MaxOrder(rows: seq<Speaker>): (m: int)
    requires rows != []
    ensures forall k :: 0 <= k < |rows| ==> rows[k].orderIndex <= m
    ensures exists k :: 0 <= k < |rows| && rows[k].orderIndex == m
  {
    if |rows| == 1 then rows[0].orderIndex
    else
      var rest := MaxOrder(rows[1..]);
      assert forall k :: 1 <= k < |rows| ==> rows[k] == rows[1..][k - 1];
      if rows[0].orderIndex >= rest then rows[0].orderIndex else rest
  }

  /**
   * `getMaxOrderIndex` as written: the `.limit(1).single()` query on all rows
   * by descending index; no row is the tolerated PGRST116 case and gives 0; a
   * top index that is truthy (non-zero) gives it plus one, a top index of 0
   * gives 0.
   */
  function NextSpeakerIndex(rows: seq<Speaker>): int {
    if rows == [] then 0
    else if MaxOrder(rows) != 0 then MaxOrder(rows) + 1
    else 0
  }


  /**
   * As written, the next index collides with an existing one whenever the
   * largest index is 0: the first speaker gets 0 and so does every later one.
   */
  lemma NextSpeakerIndexRepeatsZero(rows: seq<Speaker>)
    requires rows != [] && MaxOrder(rows) == 0
    ensures NextSpeakerIndex(rows) == 0
    ensures exists k :: 0 <= k < |rows| && rows[k].orderIndex == NextSpeakerIndex(rows)
  {
  }

  /** The first two speakers added to an empty table both receive index 0. */
  lemma FirstTwoSpeakersCollide(first: Speaker)
    requires first.orderIndex == NextSpeakerIndex([])
    ensures NextSpeakerIndex([]) == 0
    ensures NextSpeakerIndex([first]) == first.orderIndex
  {
  }

  /** The evidently intended rule: the largest index plus one, 0 for an empty table. */
  function IntendedNextSpeakerIndex(rows: seq<Speaker>): int {
    if rows == [] then 0 else MaxOrder(rows) + 1
  }

  /** The intended index lies above every row's index, so repeated additions never collide. */
  lemma IntendedNextSpeakerIndexFresh(rows: seq<Speaker>, s: Speaker)
    ensures forall k :: 0 <= k < |rows| ==> rows[k].orderIndex < IntendedNextSpeakerIndex(rows)
    ensures rows == [] ==> IntendedNextSpeakerIndex(rows) == 0
    ensures s.orderIndex == IntendedNextSpeakerIndex(rows) ==>
      IntendedNextSpeakerIndex(rows + [s]) == IntendedNextSpeakerIndex(rows) + 1
  {
    if s.orderIndex == IntendedNextSpeakerIndex(rows) {
      var t := rows + [s];
      assert t[|rows|] == s;
      forall j | 0 <= j < |t| ensures t[j].orderIndex <= s.orderIndex {
        if j < |rows| {
          assert t[j] == rows[j];
        }
      }
      assert MaxOrder(t) == s.orderIndex;
    }
  }

  /** Where the two rules agree: whenever the largest index is not 0. */
  lemma NextSpeakerIndexAgrees(rows: seq<Speaker>)
    requires rows == [] || MaxOrder(rows) != 0
    ensures NextSpeakerIndex(rows) == IntendedNextSpeakerIndex(rows)
  {
  }

  /**
   * The pair `getMaxOrderIndex` returns, with the intended index rule: a
   * query error other than the tolerated no-row case gives index 0 with that
   * error; otherwise the index lies above every row's, soft-deleted rows
   * included, and is 0 for an empty table.
   */
  function GetMaxOrderIndex(rows: seq<Speaker>, queryError: Option<string>): (r: (int, Option<string>))
    ensures queryError.Some? ==> r == (0, queryError)
    ensures queryError.None? ==> r.1 == None && r.0 == IntendedNextSpeakerIndex(rows)
    ensures queryError.None? ==> forall k :: 0 <= k < |rows| ==> rows[k].orderIndex < r.0
    ensures queryError.None? && rows == [] ==> r.0 == 0
  {
    if queryError.Some? then (0, queryError)
    else
      IntendedNextSpeakerIndexFresh(rows, Speaker("", "", "", "", None, None, 0, "", None));
      (IntendedNextSpeakerIndex(rows), None)
  }

  // ------------------------------------------------------------ writes

  /** What `createSpeaker` receives; the caller supplies the index. */
  datatype NewSpeaker = NewSpeaker(
    name: string,
    title: string,
    photo: string,
    twitter: Option<string>,
    linkedin: Option<string>,
    orderIndex: int)

  /** The inserted row: empty or absent twitter and linkedin become null. */
  function InsertedSpeaker(input: NewSpeaker, id: Id, createdAt: string): (s: Speaker)
    ensures s.name == input.name && s.title == input.title && s.photo == input.photo
    ensures s.twitter == OrNull(input.twitter) && s.linkedin == OrNull(input.linkedin)
    ensures s.twitter.None? <==> !Truthy(input.twitter)
    ensures s.orderIndex == input.orderIndex && Live(s) && s.id == id
  {
    Speaker(id, input.name, input.title, input.photo, OrNull(input.twitter), OrNull(input.linkedin),
            input.orderIndex, createdAt, None)
  }

  /** What `updateSpeaker` receives. */
  datatype SpeakerForm = SpeakerForm(
    name: string,
    title: string,
    photo: Option<string>,
    twitter: Option<string>,
    linkedin: Option<string>)

  /**
   * The row after `updateSpeaker`: name and title always overwritten, twitter
   * and linkedin overwritten with empty mapped to null, the photo only when a
   * non-empty one is given.
   */
  function ApplySpeakerForm(s: Speaker, form: SpeakerForm): (q: Speaker)
    ensures q.id == s.id && q.orderIndex == s.orderIndex && q.createdAt == s.createdAt && q.deletedAt == s.deletedAt
    ensures q.name == form.name && q.title == form.title
    ensures q.twitter == OrNull(form.twitter) && q.linkedin == OrNull(form.linkedin)
    ensures q.photo == if Truthy(form.photo) then form.photo.value else s.photo
  {
    s.(name := form.name,
       title := form.title,
       twitter := OrNull(form.twitter),
       linkedin := OrNull(form.linkedin),
       photo := if Truthy(form.photo) then form.photo.value else s.photo)
  }

  /** Submitting the same form twice is submitting it once; a form without a new photo keeps the stored one. */
  lemma SpeakerFormIdempotent(s: Speaker, form: SpeakerForm)
    ensures ApplySpeakerForm(ApplySpeakerForm(s, form), form) == ApplySpeakerForm(s, form)
    ensures !Truthy(form.photo) ==> ApplySpeakerForm(s, form).photo == s.photo
  {
  }

  function UpdateSpeakers(rows: seq<Speaker>, id: Id, form: SpeakerForm): (r: seq<Speaker>)
    ensures |r| == |rows|
    ensures forall k :: 0 <= k < |rows| ==> r[k] == if rows[k].id == id then ApplySpeakerForm(rows[k], form) else rows[k]
  {
    seq(|rows|, k requires 0 <= k < |rows| => if rows[k].id == id then ApplySpeakerForm(rows[k], form) else rows[k])
  }

  /**
   * `update({ deleted_at: stamp }).eq("id", id)`: the shape of
   * `Partners.SoftDelete`, over speaker rows. Each table's row type has its own
   * fields, so each module keeps its own copy.
   */
  function SoftDelete(rows: seq<Speaker>, id: Id, stamp: string): (r: seq<Speaker>)
    ensures |r| == |rows|
    ensures forall k :: 0 <= k < |rows| ==> r[k] == if rows[k].id == id then rows[k].(deletedAt := Some(stamp)) else rows[k]
  {
    if rows == [] then []
    else [if rows[0].id == id then rows[0].(deletedAt := Some(stamp)) else rows[0]] + SoftDelete(rows[1..], id, stamp)
  }

  /**
   * A soft-deleted speaker drops out of `fetchSpeakers` but stays in the
   * table, where `getMaxOrderIndex` still counts it.
   */
  lemma {:induction false} SoftDeleteHides(rows: seq<Speaker>, id: Id, stamp: string)
    ensures forall s :: s in LiveSpeakers(SoftDelete(rows, id, stamp)) <==> s in LiveSpeakers(rows) && s.id != id
    ensures IntendedNextSpeakerIndex(SoftDelete(rows, id, stamp)) == IntendedNextSpeakerIndex(rows)
  {
    if rows != [] {
      SoftDeleteHides(rows[1..], id, stamp);
      assert SoftDelete(rows, id, stamp)[1..] == SoftDelete(rows[1..], id, stamp);
      MaxOrderSameIndices(rows, SoftDelete(rows, id, stamp));
    }
  }

  /** Tables with the same indices position by position have the same largest index. */
  lemma MaxOrderSameIndices(a: seq<Speaker>, b: seq<Speaker>)
    requires a != [] && |a| == |b|
    requires forall k :: 0 <= k < |a| ==> a[k].orderIndex == b[k].orderIndex
    ensures MaxOrder(a) == MaxOrder(b)
  {
    var ka :| 0 <= ka < |a| && a[ka].orderIndex == MaxOrder(a);
    var kb :| 0 <= kb < |b| && b[kb].orderIndex == MaxOrder(b);
    assert a[kb].orderIndex <= MaxOrder(a);
    assert b[ka].orderIndex <= MaxOrder(b);
  }

  /** The first row with the given id: the `.eq("id", id).single()` read, as `Partners.FindById` over speaker rows. */
  function FindSpeaker(rows: seq<Speaker>, id: Id): (r: Option<Speaker>)
    ensures r.None? <==> id !in RowIds(rows)
    ensures r.Some? ==> r.value.id == id && r.value in rows
  {
    if rows == [] then None
    else if rows[0].id == id then Some(rows[0])
    else
      var r := FindSpeaker(rows[1..], id);
      assert RowIds(rows) == {rows[0].id} + RowIds(rows[1..]) by {
        forall x | x in RowIds(rows) ensures x in {rows[0].id} + RowIds(rows[1..]) {
          var k :| 0 <= k < |rows| && rows[k].id == x;
          if k > 0 { assert rows[1..][k - 1].id == x; }
        }
      }
      r
  }

  /** Rewriting fields other than `id` keeps the ids unique. */
  lemma SameIdsUnique(a: seq<Speaker>, b: seq<Speaker>)
    requires UniqueIds(a) && |a| == |b|
    requires forall k :: 0 <= k < |a| ==> b[k].id == a[k].id
    ensures UniqueIds(b)
  {
  }

  /** The `speakers` table as the actions see it. */
  class SpeakerStore {
    var rows: seq<Speaker>

    ghost predicate Valid()
      reads this
    {
      UniqueIds(rows)
    }

    constructor (initial: seq<Speaker>)
      requires UniqueIds(initial)
      ensures Valid() && rows == initial
    {
      rows := initial;
    }

    /** `createSpeaker`: inserts the row, or returns the store's error and changes nothing. */
    method CreateSpeaker(input: NewSpeaker, newId: Id, createdAt: string, insertError: Option<string>)
      returns (r: Result<Speaker>)
      requires Valid() && newId !in RowIds(rows)
      modifies this
      ensures Valid()
      ensures insertError.Some? ==> r == Err(insertError.value) && rows == old(rows)
      ensures insertError.None? ==> r == Ok(InsertedSpeaker(input, newId, createdAt)) && rows == old(rows) + [r.value]
    {
      if insertError.Some? {
        return Err(insertError.value);
      }
      var row := InsertedSpeaker(input, newId, createdAt);
      rows := rows + [row];
      return Ok(row);
    }

    /** `updateSpeaker`: a missing row is the `.single()` error. */
    method UpdateSpeaker(id: Id, form: SpeakerForm, updateError: Option<string>) returns (r: Result<Speaker>)
      requires Valid()
      modifies this
      ensures Valid()
      ensures updateError.Some? ==> r == Err(updateError.value) && rows == old(rows)
      ensures updateError.None? && id !in RowIds(old(rows)) ==> r == Err(NoRowMessage) && rows == old(rows)
      ensures updateError.None? && id in RowIds(old(rows)) ==>
        rows == UpdateSpeakers(old(rows), id, form) && r == Ok(ApplySpeakerForm(FindSpeaker(old(rows), id).value, form))
    {
      if updateError.Some? {
        return Err(updateError.value);
      }
      var found := FindSpeaker(rows, id);
      if found.None? {
        return Err(NoRowMessage);
      }
      ghost var before := rows;
      rows := UpdateSpeakers(rows, id, form);
      SameIdsUnique(before, rows);
      return Ok(ApplySpeakerForm(found.value, form));
    }

    /** `deleteSpeaker`: sets `deleted_at` on the rows with that id. */
    method DeleteSpeaker(id: Id, stamp: string, updateError: Option<string>) returns (error: Option<string>)
      requires Valid()
      modifies this
      ensures Valid()
      ensures updateError.Some? ==> error == updateError && rows == old(rows)
      ensures updateError.None? ==> error == None && rows == SoftDelete(old(rows), id, stamp)
    {
      if updateError.Some? {
        return updateError;
      }
      ghost var before := rows;
      rows := SoftDelete(rows, id, stamp);
      SameIdsUnique(before, rows);
      return None;
    }
  }
}

=== FILE: store.dfy ===
/**
 * What every data action shares about the backing store: row ids, the message
 * the store gives for a `.single()` query that matched no row, and the
 * `error?.message || "Bilinmeyen hata"` fallback of the actions' error strings.
 */
module Store {

  /** Row ids are opaque strings generated by the store. */
  type Id = string

  /** PostgREST's message (code PGRST116) for a `.single()` query that matched no row. */
  const NoRowMessage := "JSON object requested, multiple (or no) rows returned"

  const UnknownError := "Bilinmeyen hata"

  /** `error?.message || "Bilinmeyen hata"`. */
  function Describe(message: string): (r: string)
    ensures r != ""
    ensures message != "" ==> r == message
  {
    if message == "" then UnknownError else message
  }

  /** An action's error string: its fixed prefix followed by the described store message. */
  function Prefixed(prefix: string, message: string): (r: string)
    ensures |r| > |prefix| && r[..|prefix|] == prefix
  {
    prefix + Describe(message)
  }
}

=== FILE: teams.dfy ===
/**
 * The `teams` table and its actions: the live-rows query ordered by
 * `order_index`, the next-index rule of `createTeamMember`, the
 * defined-fields-only `updateTeamMember` and the soft delete.
 *
 * `order_index` is optional on a team member. The store orders with
 * PostgreSQL's defaults: ascending puts missing indices last, descending
 * puts them first.
 */
module Teams {
  import opened Wrappers
  import opened Store
  import Ordering

  datatype TeamMember = TeamMember(
    id: Id,
    photo: Option<string>,
    name: string,
    title: string,
    twitter: Option<string>,
    linkedin: Option<string>,
    telegram: Option<string>,
    orderIndex: Option<int>,
    createdAt: string,
    deletedAt: Option<string>)

  predicate Live(m: TeamMember) {
    m.deletedAt.None?
  }

  /** `id` is the table's primary key. */
  ghost predicate UniqueIds(rows: seq<TeamMember>) {
    forall i, j :: 0 <= i < j < |rows| ==> rows[i].id != rows[j].id
  }

  function RowIds(rows: seq<TeamMember>): set<Id> {
    set k | 0 <= k < |rows| :: rows[k].id
  }

  // ---------------------------------------------------------------- queries

  /** `.is("deleted_at", null)`: the live rows, in table order. */
  function LiveMembers(rows: seq<TeamMember>): (r: seq<TeamMember>)
    ensures forall m :: m in r <==> m in rows && Live(m)
  {
    if rows == [] then []
    else (if Live(rows[0]) then [rows[0]] else []) + LiveMembers(rows[1..])
  }

  /** Ascending `order_index`, missing indices last. */
  predicate AscNullsLast(a: TeamMember, b: TeamMember) {
    match (a.orderIndex, b.orderIndex)
    case (Some(x), Some(y)) => x <= y
    case (Some(_), None) => true
    case (None, None) => true
    case (None, Some(_)) => false
  }

  /** Descending `order_index`, missing indices first. */
  predicate DescNullsFirst(a: TeamMember, b: TeamMember) {
    match (a.orderIndex, b.orderIndex)
    case (Some(x), Some(y)) => x >= y
    case (Some(_), None) => false
    case (None, _) => true
  }

  lemma OrdersAreTotalPreorders()
    ensures Ordering.TotalPreorder(AscNullsLast)
    ensures Ordering.TotalPreorder(DescNullsFirst)
  {
  }

  const FetchError := "Takım üyeleri yüklenirken bir hata oluştu"

  /** `getTeamMembers`. */
  function GetTeamMembers(rows: seq<TeamMember>, queryError: Option<string>): Result<seq<TeamMember>> {
    if queryError.Some? then Err(FetchError)
    else Ok(Ordering.SortBy(LiveMembers(rows), AscNullsLast))
  }

  /**
   * `getTeamMembers` returns exactly the live members, each once, in ascending
   * `order_index` with members without an index at the end; a failed query
   * gives the fixed message.
   */
  lemma GetTeamMembersSpec(rows: seq<TeamMember>, queryError: Option<string>)
    ensures queryError.Some? ==> GetTeamMembers(rows, queryError) == Err(FetchError)
    ensures queryError.None? ==> GetTeamMembers(rows, queryError).Ok?
    ensures queryError.None? ==> multiset(GetTeamMembers(rows, queryError).value) == multiset(LiveMembers(rows))
    ensures queryError.None? ==> forall m :: m in GetTeamMembers(rows, queryError).value <==> m in rows && Live(m)
    ensures queryError.None? ==> Ordering.SortedBy(GetTeamMembers(rows, queryError).value, AscNullsLast)
  {
    if queryError.None? {
      OrdersAreTotalPreorders();
      var r := Ordering.SortBy(LiveMembers(rows), AscNullsLast);
      Ordering.SortBySorted(LiveMembers(rows), AscNullsLast);
      forall m ensures m in r <==> m in LiveMembers(rows) {
        assert m in r <==> m in multiset(r);
        assert m in LiveMembers(rows) <==> m in multiset(LiveMembers(rows));
      }
    }
  }

  // ------------------------------------------------------------ next index

  /**
   * `createTeamMember`'s new index: the first live row by descending
   * `order_index` (the `.limit(1)` query), its index or 0 when it has none,
   * plus one; 1 when there are no live rows.
   */
  function NextTeamIndex(rows: seq<TeamMember>): int {
    var top := Ordering.SortBy(LiveMembers(rows), DescNullsFirst);
    if top == [] then 1 else top[0].orderIndex.GetOr(0) + 1
  }

  /** The descending query's first row is a live member, at or above every live member. */
  lemma TopOfDescending(rows: seq<TeamMember>)
    ensures var top := Ordering.SortBy(LiveMembers(rows), DescNullsFirst);
      && (top == [] <==> forall m :: m in rows ==> !Live(m))
      && (top != [] ==> top[0] in rows && Live(top[0]))
      && (top != [] ==> forall m :: m in rows && Live(m) ==> DescNullsFirst(top[0], m))
  {
    OrdersAreTotalPreorders();
    var live := LiveMembers(rows);
    Ordering.SortByFirst(live, DescNullsFirst);
    if live != [] {
      assert live[0] in live;
    }
  }

  /** With no live member the new member gets index 1. */
  lemma NextTeamIndexEmpty(rows: seq<TeamMember>)
    requires forall m :: m in rows ==> !Live(m)
    ensures NextTeamIndex(rows) == 1
  {
    TopOfDescending(rows);
  }

  /**
   * When every live member has an index, the new index is the largest of them
   * plus one, so it lies strictly above each of them.
   */
  lemma NextTeamIndexAboveAll(rows: seq<TeamMember>)
    requires forall m :: m in rows && Live(m) ==> m.orderIndex.Some?
    ensures forall m :: m in rows && Live(m) ==> m.orderIndex.value < NextTeamIndex(rows)
    ensures NextTeamIndex(rows) == 1
      || exists m :: m in rows && Live(m) && NextTeamIndex(rows) == m.orderIndex.value + 1
  {
    TopOfDescending(rows);
  }

  /**
   * A live member without an index sorts first in the descending query, so
   * the new index is 1 whatever the other members hold.
   */
  lemma NextTeamIndexWithMissing(rows: seq<TeamMember>, m: TeamMember)
    requires m in rows && Live(m) && m.orderIndex.None?
    ensures NextTeamIndex(rows) == 1
  {
    TopOfDescending(rows);
  }

  // ------------------------------------------------------------ writes

  /** What `createTeamMember` receives; an absent optional field is stored as null. */
  datatype NewTeamMember = NewTeamMember(
    name: string,
    title: string,
    photo: Option<string>,
    twitter: Option<string>,
    linkedin: Option<string>,
    telegram: Option<string>)

  /** The inserted row: the input's fields, the computed index, live. */
  function InsertedMember(input: NewTeamMember, id: Id, createdAt: string, orderIndex: int): (m: TeamMember)
    ensures m.name == input.name && m.title == input.title
    ensures m.photo == input.photo && m.twitter == input.twitter
    ensures m.linkedin == input.linkedin && m.telegram == input.telegram
    ensures m.orderIndex == Some(orderIndex) && Live(m) && m.id == id && m.createdAt == createdAt
  {
    TeamMember(id, input.photo, input.name, input.title, input.twitter, input.linkedin, input.telegram,
               Some(orderIndex), createdAt, None)
  }

  /** The partial update `updateTeamMember` accepts; `None` is an undefined property, which is not written. */
  datatype TeamPatch = TeamPatch(
    name: Option<string>,
    title: Option<string>,
    photo: Option<string>,
    twitter: Option<string>,
    linkedin: Option<string>,
    telegram: Option<string>,
    orderIndex: Option<int>)

  const EmptyTeamPatch := TeamPatch(None, None, None, None, None, None, None)

  /** The row after the defined properties of `patch` are written. */
  function ApplyTeamPatch(m: TeamMember, patch: TeamPatch): (q: TeamMember)
    ensures q.id == m.id && q.createdAt == m.createdAt && q.deletedAt == m.deletedAt
  {
    TeamMember(
      m.id,
      if patch.photo.Some? then patch.photo else m.photo,
      patch.name.GetOr(m.name),
      patch.title.GetOr(m.title),
      if patch.twitter.Some? then patch.twitter else m.twitter,
      if patch.linkedin.Some? then patch.linkedin else m.linkedin,
      if patch.telegram.Some? then patch.telegram else m.telegram,
      if patch.orderIndex.Some? then patch.orderIndex else m.orderIndex,
      m.createdAt,
      m.deletedAt)
  }

  /**
   * Each field is the patch's value when defined and the stored one
   * otherwise; an empty patch changes nothing and patching is idempotent.
   */
  lemma TeamPatchProperties(m: TeamMember, patch: TeamPatch)
    ensures ApplyTeamPatch(m, EmptyTeamPatch) == m
    ensures ApplyTeamPatch(ApplyTeamPatch(m, patch), patch) == ApplyTeamPatch(m, patch)
    ensures ApplyTeamPatch(m, patch).name == patch.name.GetOr(m.name)
    ensures ApplyTeamPatch(m, patch).title == patch.title.GetOr(m.title)
    ensures patch.photo.Some? ==> ApplyTeamPatch(m, patch).photo == patch.photo
    ensures patch.photo.None? ==> ApplyTeamPatch(m, patch).photo == m.photo
    ensures patch.orderIndex.Some? ==> ApplyTeamPatch(m, patch).orderIndex == patch.orderIndex
    ensures patch.orderIndex.None? ==> ApplyTeamPatch(m, patch).orderIndex == m.orderIndex
    ensures patch.twitter.Some? ==> ApplyTeamPatch(m, patch).twitter == patch.twitter
    ensures patch.twitter.None? ==> ApplyTeamPatch(m, patch).twitter == m.twitter
    ensures patch.linkedin.Some? ==> ApplyTeamPatch(m, patch).linkedin == patch.linkedin
    ensures patch.linkedin.None? ==> ApplyTeamPatch(m, patch).linkedin == m.linkedin
    ensures patch.telegram.Some? ==> ApplyTeamPatch(m, patch).telegram == patch.telegram
    ensures patch.telegram.None? ==> ApplyTeamPatch(m, patch).telegram == m.telegram
  {
  }

  function PatchMembers(rows: seq<TeamMember>, id: Id, patch: TeamPatch): (r: seq<TeamMember>)
    ensures |r| == |rows|
    ensures forall k :: 0 <= k < |rows| ==> r[k] == if rows[k].id == id then ApplyTeamPatch(rows[k], patch) else rows[k]
  {
    seq(|rows|, k requires 0 <= k < |rows| => if rows[k].id == id then ApplyTeamPatch(rows[k], patch) else rows[k])
  }

  /**
   * `update({ deleted_at: stamp }).eq("id", id)`: the shape of
   * `Partners.SoftDelete`, over team-member rows. Each table's row type has its own
   * fields, so each module keeps its own copy.
   */
  function SoftDelete(rows: seq<TeamMember>, id: Id, stamp: string): (r: seq<TeamMember>)
    ensures |r| == |rows|
    ensures forall k :: 0 <= k < |rows| ==> r[k] == if rows[k].id == id then rows[k].(deletedAt := Some(stamp)) else rows[k]
  {
    if rows == [] then []
    else [if rows[0].id == id then rows[0].(deletedAt := Some(stamp)) else rows[0]] + SoftDelete(rows[1..], id, stamp)
  }

  /** A soft-deleted member stays in the table but no longer reaches the live query; others are unaffected. */
  lemma {:induction false} SoftDeleteHides(rows: seq<TeamMember>, id: Id, stamp: string)
    ensures forall m :: m in LiveMembers(SoftDelete(rows, id, stamp)) <==> m in LiveMembers(rows) && m.id != id
    ensures RowIds(SoftDelete(rows, id, stamp)) == RowIds(rows)
  {
    if rows != [] {
      SoftDeleteHides(rows[1..], id, stamp);
      assert SoftDelete(rows, id, stamp)[1..] == SoftDelete(rows[1..], id, stamp);
    }
    var r := SoftDelete(rows, id, stamp);
    forall x | x in RowIds(rows) ensures x in RowIds(r) {
      var k :| 0 <= k < |rows| && rows[k].id == x;
      assert r[k].id == x;
    }
  }

  /** The first row with the given id: the `.eq("id", id).single()` read, as `Partners.FindById` over team-member rows. */
  function FindMember(rows: seq<TeamMember>, id: Id): (r: Option<TeamMember>)
    ensures r.None? <==> id !in RowIds(rows)
    ensures r.Some? ==> r.value.id == id && r.value in rows
  {
    if rows == [] then None
    else if rows[0].id == id then Some(rows[0])
    else
      var r := FindMember(rows[1..], id);
      assert RowIds(rows) == {rows[0].id} + RowIds(rows[1..]) by {
        forall x | x in RowIds(rows) ensures x in {rows[0].id} + RowIds(rows[1..]) {
          var k :| 0 <= k < |rows| && rows[k].id == x;
          if k > 0 { assert rows[1..][k - 1].id == x; }
        }
      }
      r
  }

  const OrderPrefix := "Sıralama indeksi alınamadı: "
  const CreatePrefix := "Takım üyesi eklenirken bir hata oluştu: "
  const UpdatePrefix := "Takım üyesi güncellenirken bir hata oluştu: "
  const DeletePrefix := "Takım üyesi silinirken bir hata oluştu: "

  /** Rewriting fields other than `id` keeps the ids unique. */
  lemma SameIdsUnique(a: seq<TeamMember>, b: seq<TeamMember>)
    requires UniqueIds(a) && |a| == |b|
    requires forall k :: 0 <= k < |a| ==> b[k].id == a[k].id
    ensures UniqueIds(b)
  {
  }

  /** The `teams` table as the actions see it. */
  class TeamStore {
    var rows: seq<TeamMember>

    ghost predicate Valid()
      reads this
    {
      UniqueIds(rows)
    }

    constructor (initial: seq<TeamMember>)
      requires UniqueIds(initial)
      ensures Valid() && rows == initial
    {
      rows := initial;
    }

    /**
     * `createTeamMember`: reads the next index, then inserts. A failed index
     * query reports its own message and inserts nothing; a failed insert
     * reports the create message. `newId` and `createdAt` are the store's.
     */
    method CreateTeamMember(input: NewTeamMember, newId: Id, createdAt: string,
                            orderError: Option<string>, insertError: Option<string>)
      returns (r: Result<TeamMember>)
      requires Valid() && newId !in RowIds(rows)
      modifies this
      ensures Valid()
      ensures orderError.Some? ==> r == Err(OrderPrefix + orderError.value) && rows == old(rows)
      ensures orderError.None? && insertError.Some? ==>
        r == Err(Prefixed(CreatePrefix, insertError.value)) && rows == old(rows)
      ensures orderError.None? && insertError.None? ==>
        && r == Ok(InsertedMember(input, newId, createdAt, NextTeamIndex(old(rows))))
        && rows == old(rows) + [r.value]
    {
      if orderError.Some? {
        return Err(OrderPrefix + orderError.value);
      }
      var newOrderIndex := NextTeamIndex(rows);
      if insertError.Some? {
        return Err(Prefixed(CreatePrefix, insertError.value));
      }
      var row := InsertedMember(input, newId, createdAt, newOrderIndex);
      rows := rows + [row];
      return Ok(row);
    }

    /**
     * `updateTeamMember`: writes the defined properties. A missing row is the
     * `.single()` error, and so is an empty patch, whose update body has no
     * columns and is answered with no rows.
     */
    method UpdateTeamMember(id: Id, patch: TeamPatch, updateError: Option<string>) returns (r: Result<TeamMember>)
      requires Valid()
      modifies this
      ensures Valid()
      ensures updateError.Some? ==> r == Err(Prefixed(UpdatePrefix, updateError.value)) && rows == old(rows)
      ensures updateError.None? && (patch == EmptyTeamPatch || id !in RowIds(old(rows))) ==>
        r == Err(Prefixed(UpdatePrefix, NoRowMessage)) && rows == old(rows)
      ensures updateError.None? && patch != EmptyTeamPatch && id in RowIds(old(rows)) ==>
        rows == PatchMembers(old(rows), id, patch) && r == Ok(ApplyTeamPatch(FindMember(old(rows), id).value, patch))
    {
      if updateError.Some? {
        return Err(Prefixed(UpdatePrefix, updateError.value));
      }
      var found := FindMember(rows, id);
      if patch == EmptyTeamPatch || found.None? {
        return Err(Prefixed(UpdatePrefix, NoRowMessage));
      }
      ghost var before := rows;
      rows := PatchMembers(rows, id, patch);
      SameIdsUnique(before, rows);
      return Ok(ApplyTeamPatch(found.value, patch));
    }

    /** `deleteTeamMember`: sets `deleted_at` on the rows with that id; no matching row is not an error. */
    method DeleteTeamMember(id: Id, stamp: string, updateError: Option<string>) returns (error: Option<string>)
      requires Valid()
      modifies this
      ensures Valid()
      ensures updateError.Some? ==> error == Some(Prefixed(DeletePrefix, updateError.value)) && rows == old(rows)
      ensures updateError.None? ==> error == None && rows == SoftDelete(old(rows), id, stamp)
    {
      if updateError.Some? {
        return Some(Prefixed(DeletePrefix, updateError.value));
      }
      ghost var before := rows;
      rows := SoftDelete(rows, id, stamp);
      SameIdsUnique(before, rows);
      return None;
    }
  }
}

=== FILE: text.dfy ===
/**
 * The JavaScript string operations the dashboard relies on, over `seq<char>`:
 * `trim`, the `\s` character class, `startsWith`, `includes`, `replace(/@/g, "")`,
 * `split(sep).pop()`, `toLowerCase` (ASCII letters only) and `replace(/\s+/g, "-")`,
 * plus JavaScript truthiness of optional strings.
 */
module Text {
  import opened Wrappers

  /** ECMAScript WhiteSpace and LineTerminator code points: what `trim` removes and `\s` matches. */
  predicate IsWhitespace(c: char) {
    c == '\t' || c == '\n' || c == '\U{000B}' || c == '\U{000C}' || c == '\r' || c == ' '
    || c == '\U{00A0}' || c == '\U{1680}' || ('\U{2000}' <= c <= '\U{200A}')
    || c == '\U{2028}' || c == '\U{2029}' || c == '\U{202F}' || c == '\U{205F}'
    || c == '\U{3000}' || c == '\U{FEFF}'
  }

  predicate AllWhitespace(s: string) {
    forall i :: 0 <= i < |s| ==> IsWhitespace(s[i])
  }

  /** `s.trimStart()`: the longest suffix of `s` that does not start with whitespace. */
  function TrimStart(s: string): (r: string)
    ensures |r| <= |s| && r == s[|s| - |r|..]
    ensures AllWhitespace(s[..|s| - |r|])
    ensures r == [] || !IsWhitespace(r[0])
  {
    if s != [] && IsWhitespace(s[0]) then
      var r := TrimStart(s[1..]);
      assert s[1..][|s| - 1 - |r|..] == s[|s| - |r|..];
      var lead := s[..|s| - |r|];
      forall i | 0 <= i < |lead| ensures IsWhitespace(lead[i]) {
        if i > 0 {
          assert lead[i] == s[1..][..|s| - 1 - |r|][i - 1];
        }
      }
      r
    else s
  }

  /** `s.trimEnd()`: the longest prefix of `s` that does not end with whitespace. */
  function TrimEnd(s: string): (r: string)
    ensures |r| <= |s| && r == s[..|r|]
    ensures AllWhitespace(s[|r|..])
    ensures r == [] || !IsWhitespace(r[|r| - 1])
  {
    if s != [] && IsWhitespace(s[|s| - 1]) then
      var r := TrimEnd(s[..|s| - 1]);
      assert s[..|s| - 1][..|r|] == s[..|r|];
      var trail := s[|r|..];
      forall i | 0 <= i < |trail| ensures IsWhitespace(trail[i]) {
        if i < |s| - 1 - |r| {
          assert trail[i] == s[..|s| - 1][|r|..][i];
        }
      }
      r
    else s
  }

  /** `s.trim()`. */
  function Trim(s: string): string {
    TrimEnd(TrimStart(s))
  }

  /** JavaScript's `!s.trim()`: the string is empty once trimmed. */
  predicate IsBlank(s: string) {
    Trim(s) == ""
  }

  /** A string is blank exactly when every one of its characters is whitespace. */
  lemma BlankIffAllWhitespace(s: string)
    ensures IsBlank(s) <==> AllWhitespace(s)
  {
    var t := TrimStart(s);
    if IsBlank(s) {
      assert t[0..] == t;
      assert s[..|s| - |t|] == s;
    }
  }

  /** `s.startsWith(p)`. */
  predicate StartsWith(s: string, p: string) {
    |p| <= |s| && s[..|p|] == p
  }

  /** `s.includes(sub)`. */
  predicate Contains(s: string, sub: string) {
    StartsWith(s, sub) || (s != [] && Contains(s[1..], sub))
  }

  /** `s.replace(/c/g, "")`: every occurrence of `c` removed, the rest kept in order. */
  function RemoveAll(s: string, c: char): (r: string)
    ensures c !in r
    ensures forall x :: x in r <==> x in s && x != c
    ensures |r| <= |s|
  {
    if s == [] then []
    else if s[0] == c then RemoveAll(s[1..], c)
    else [s[0]] + RemoveAll(s[1..], c)
  }

  /** Removal works piece by piece: removing from a concatenation concatenates the removals. */
  lemma {:induction false} RemoveAllAppend(a: string, b: string, c: char)
    ensures RemoveAll(a + b, c) == RemoveAll(a, c) + RemoveAll(b, c)
  {
    if a == [] {
      assert a + b == b;
    } else {
      assert (a + b)[0] == a[0];
      assert (a + b)[1..] == a[1..] + b;
      RemoveAllAppend(a[1..], b, c);
    }
  }

  /** A single character is dropped exactly when it is `c`. */
  lemma RemoveAllOne(x: char, c: char)
    ensures RemoveAll([x], c) == if x == c then [] else [x]
  {
    assert [x][1..] == [];
  }

  /** Removing a character that does not occur changes nothing. */
  lemma {:induction false} RemoveAllAbsent(s: string, c: char)
    requires c !in s
    ensures RemoveAll(s, c) == s
  {
    if s != [] {
      assert s[0] != c;
      assert c !in s[1..];
      RemoveAllAbsent(s[1..], c);
      assert [s[0]] + s[1..] == s;
    }
  }

  /** `s.split([sep]).pop()`: the text after the last `sep`, or all of `s` when there is none. */
  function AfterLast(s: string, sep: char): (r: string)
    ensures sep !in r
    ensures |r| <= |s| && r == s[|s| - |r|..]
    ensures |r| < |s| ==> s[|s| - |r| - 1] == sep
  {
    if s == [] then []
    else if s[|s| - 1] == sep then []
    else
      var r := AfterLast(s[..|s| - 1], sep);
      assert s[..|s| - 1][|s| - 1 - |r|..] == s[|s| - 1 - |r|..|s| - 1];
      r + [s[|s| - 1]]
  }

  /** The text after the last `sep` of `p + [sep] + x` is `x` whenever `x` holds no `sep`. */
  lemma {:induction false} AfterLastOfJoin(p: string, sep: char, x: string)
    requires sep !in x
    ensures AfterLast(p + [sep] + x, sep) == x
  {
    var s := p + [sep] + x;
    assert s[|s| - |x| - 1] == sep;
    assert s[|s| - |x|..] == x;
  }

  /** ASCII `toLowerCase` of one character. */
  function LowerChar(c: char): char {
    if 'A' <= c <= 'Z' then (c as int - 'A' as int + 'a' as int) as char else c
  }

  /** `s.toLowerCase()` restricted to ASCII letters. */
  function ToLower(s: string): (r: string)
    ensures |r| == |s|
    ensures forall i :: 0 <= i < |s| ==> r[i] == LowerChar(s[i])
  {
    if s == [] then [] else [LowerChar(s[0])] + ToLower(s[1..])
  }

  /** `s.replace(/\s+/g, "-")`: each maximal run of whitespace becomes one `-`. */
  function Hyphenate(s: string): (r: string)
    ensures forall i :: 0 <= i < |r| ==> !IsWhitespace(r[i])
    ensures |r| <= |s|
  {
    if s == [] then []
    else if IsWhitespace(s[0]) then "-" + Hyphenate(TrimStart(s))
    else [s[0]] + Hyphenate(s[1..])
  }

  /** `toLowerCase` works piece by piece. */
  lemma ToLowerAppend(a: string, b: string)
    ensures ToLower(a + b) == ToLower(a) + ToLower(b)
  {
    assert forall i :: 0 <= i < |a + b| ==> ToLower(a + b)[i] == (ToLower(a) + ToLower(b))[i];
  }

  /** Lower-casing neither makes nor removes whitespace. */
  lemma LowerCharWhitespace(c: char)
    ensures IsWhitespace(LowerChar(c)) <==> IsWhitespace(c)
  {
  }

  /** A character other than whitespace is copied through and the rest is hyphenated after it. */
  lemma HyphenateKeepsNonWhitespace(c: char, s: string)
    requires !IsWhitespace(c)
    ensures Hyphenate([c] + s) == [c] + Hyphenate(s)
  {
    assert ([c] + s)[1..] == s;
  }

  /** `trimStart` of a whitespace run followed by text that does not start with whitespace is that text. */
  lemma {:induction false} TrimStartRun(w: string, s: string)
    requires AllWhitespace(w)
    requires s == [] || !IsWhitespace(s[0])
    ensures TrimStart(w + s) == s
  {
    if w == [] {
      assert w + s == s;
    } else {
      assert (w + s)[0] == w[0];
      assert (w + s)[1..] == w[1..] + s;
      TrimStartRun(w[1..], s);
    }
  }

  /**
   * A maximal whitespace run, however long, becomes one `-`, and the rest is
   * hyphenated after it. With `Hyphenate([]) == []` and
   * `HyphenateKeepsNonWhitespace` this fixes the result of every string.
   */
  lemma HyphenateRun(w: string, s: string)
    requires w != [] && AllWhitespace(w)
    requires s == [] || !IsWhitespace(s[0])
    ensures Hyphenate(w + s) == "-" + Hyphenate(s)
    ensures Hyphenate([]) == []
  {
    assert (w + s)[0] == w[0];
    TrimStartRun(w, s);
  }

  /** A string without whitespace is left as it is. */
  lemma {:induction false} HyphenateNoWhitespace(s: string)
    requires forall i :: 0 <= i < |s| ==> !IsWhitespace(s[i])
    ensures Hyphenate(s) == s
  {
    if s != [] {
      assert !IsWhitespace(s[0]);
      HyphenateNoWhitespace(s[1..]);
      assert [s[0]] + s[1..] == s;
    }
  }

  /** Hyphenating twice is hyphenating once. */
  lemma HyphenateIdempotent(s: string)
    ensures Hyphenate(Hyphenate(s)) == Hyphenate(s)
  {
    HyphenateNoWhitespace(Hyphenate(s));
  }

  /** JavaScript truthiness of an optional string: present and non-empty. */
  predicate Truthy(o: Option<string>) {
    o.Some? && o.value != ""
  }

  /** `x || null` for an optional string: the empty string also becomes null. */
  function OrNull(o: Option<string>): (r: Option<string>)
    ensures r == None <==> !Truthy(o)
    ensures r.Some? ==> r == o
  {
    if Truthy(o) then o else None
  }

  /** `x || ""` for an optional string. */
  function OrEmpty(o: Option<string>): (r: string)
    ensures r == "" <==> !Truthy(o)
    ensures Truthy(o) ==> r == o.value
  {
    if Truthy(o) then o.value else ""
  }

  /** Code-point lexicographic order on strings (`a <= b`). */
  predicate LexLe(a: string, b: string) {
    a == [] || (b != [] && (a[0] < b[0] || (a[0] == b[0] && LexLe(a[1..], b[1..]))))
  }

  lemma {:induction false} LexLeTotal(a: string, b: string)
    ensures LexLe(a, b) || LexLe(b, a)
  {
    if a != [] && b != [] && a[0] == b[0] {
      LexLeTotal(a[1..], b[1..]);
    }
  }

  lemma {:induction false} LexLeTransitive(a: string, b: string, c: string)
    requires LexLe(a, b) && LexLe(b, c)
    ensures LexLe(a, c)
  {
    if a != [] && b != [] && c != [] && a[0] == b[0] && b[0] == c[0] {
      LexLeTransitive(a[1..], b[1..], c[1..]);
    }
  }
}

=== FILE: wrappers.dfy ===
/** Optional values: `None` stands for JavaScript's `undefined` or `null`. */
module Wrappers {

  datatype Option<+T> = None | Some(value: T) {

    /** The wrapped value, or `default` when there is none (JavaScript's `x ?? default`). */
    function GetOr(default: T): T {
      match this
      case Some(v) => v
      case None => default
    }
  }

  /** The outcome of a call that either returns a value or reports an error message. */
  datatype Result<+R> = Ok(value: R) | Err(error: string)
}
